=== FILE: README.md ===
# Loadouts, modelled in Dafny

Loadouts is a Minecraft server plugin. A player keeps up to five saved
"loadouts" (slots "1" to "5"). Each loadout records the catalog weapons or
custom items chosen for each weapon slot, the chosen attachments, and a
snapshot of the player's 41-position inventory. The player builds a loadout
in a chest-menu wizard. Confirming the wizard puts the player in *edit
mode*: their real inventory is backed up and cleared, and the chosen items
are handed out so they can be arranged. `/loadout save` stores the arranged
inventory. `/loadout cancel` throws it away. Either way the backup comes
back.

This project models the logic of that plugin as pure Dafny functions over
immutable values:

- an inventory is a 41-element `seq<Option<Item>>`. Positions 0..35 are
  storage, 0..8 being the hotbar; 36..39 are armor; 40 is the off-hand;
- the relational store is three maps keyed by the schema's unique keys.
  A save is a transaction that either commits or leaves the store as it
  was;
- the loadout cache, the edit-session registry and the edit-mode guard are
  immutable records. Each operation returns the new record;
- the menus are a map from player to open screen, with transitions for each
  click;
- the commands are functions from state and arguments to new state and an
  outcome.

Modules follow the program's classes:

| module | models |
|---|---|
| `Inventories` | the player inventory: contents, armor, off-hand, `setItem`, `addItem` |
| `LoadoutSlots` | `LoadoutSlot`, the immutable slot assignment, with `equals`/`hashCode` |
| `Loadouts` | `Loadout`, the saved entity |
| `EditSessions` | `LoadoutManager.LoadoutEditSession`, the wizard's state |
| `Database` | `DatabaseManager`: save, get, delete, count, item hydration |
| `LoadoutManager` | `LoadoutManager`: read-through cache, session registry, save/apply/delete |
| `EditMode` | `EditModeManager`: backups, restore, and the edit-mode event filters |
| `Config` | `LoadoutsConfig`: reload defaults, lookups, messages |
| `Weapons` | `WeaponMechanicsIntegration`: categorisation, ammo, stack splitting, slot lists |
| `Staging` | the item collection and hotbar placement of `GuiManager.grantSelectedItems` |
| `Gui` | `GuiManager`: menu opening, paging, click handling, close and quit |
| `Command` | `LoadoutCommand`: save, cancel, give, two-step delete, tab completion |
| `Text`, `Seqs`, `Sorting`, `Wrappers` | `toLowerCase`, `startsWith`, `replace`, `Integer.parseInt`; filtering; `Collections.sort` on strings; `Option` |

Time, failures and the outside world are parameters:

- `now` is the clock;
- `fails`, `readFails` and `fault` say which SQL statement raises an
  exception;
- `Sources` carries the functions that make items from weapon, ammo,
  attachment and custom-item ids.

The main results:

- `Database.SaveThenGet`: a committed save reads back the same slots. Items
  come back equal up to trailing empty positions. Attachments come back
  empty.
- `EditMode.StartThenLeaveRestores`: entering and leaving edit mode, by save,
  cancel or disconnect, gives back exactly the inventory held before.
- `Gui.ConfirmThenLeaveRestores`: the same holds for the whole wizard confirm.
- `LoadoutManager.SaveThenApplyAfterEviction`: a saved snapshot is re-applied
  exactly, even after the cache is dropped, iff it held at least one item.
- `Weapons.StackAmounts` / `Weapons.StackCount`: ammo splitting yields
  ceil(total / maxStack) stacks summing to the total.
- `Staging.PlaceItems`: hotbar placement is the queue "weapons, then
  consumables, then custom items, then ammo, then attachments" laid into the
  first free positions.

## Model

| member | source | states |
|---|---|---|
| Text.ToLowerAt | src/main/java/com/saratoga/loadouts/command/LoadoutCommand.java:672-675 | lower-casing works position by position: character i of the lowered text is character i lowered |
| Text.ToLower | src/main/java/com/saratoga/loadouts/command/LoadoutCommand.java:672-675 | lower-casing keeps the length of the text |
| Text.ToLowerIdempotent | src/main/java/com/saratoga/loadouts/command/LoadoutCommand.java:672-675 | lower-casing an already lowered text changes nothing |
| Text.ReplaceAllReplacesEveryOccurrence | src/main/java/com/saratoga/loadouts/LoadoutsConfig.java:213-219 | cutting the text at every occurrence of the pattern and re-joining with the pattern gives the text back; no piece contains the pattern anywhere; `replace` is the same pieces joined with the replacement, so every occurrence is replaced |
| Text.JoinPieces | src/main/java/com/saratoga/loadouts/LoadoutsConfig.java:213-219 | `replace` equals cutting the text at every occurrence of the pattern and joining the pieces with the replacement |
| Text.ReplaceBySelf | src/main/java/com/saratoga/loadouts/LoadoutsConfig.java:213-219 | replacing a pattern by itself leaves any text unchanged |
| Text.PiecesAvoidPattern | src/main/java/com/saratoga/loadouts/LoadoutsConfig.java:213-219 | no piece of the cut text contains the pattern anywhere, so the scan missed no occurrence |
| Text.ReplaceAll | src/main/java/com/saratoga/loadouts/LoadoutsConfig.java:213-219 | the result is as long as the text plus, for each occurrence replaced, the difference in length between replacement and pattern |
| Text.OccursCons | src/main/java/com/saratoga/loadouts/LoadoutsConfig.java:213-219 | a character put in front of a text without the pattern creates no occurrence unless the pattern starts right there |
| Text.ReplaceAllWithoutOccurrence | src/main/java/com/saratoga/loadouts/LoadoutsConfig.java:213-219 | a text with no occurrence of the pattern comes out of `replace` unchanged |
| Text.ParseInt | src/main/java/com/saratoga/loadouts/command/LoadoutCommand.java:443-447 | a value `Integer.parseInt` accepts always lies in the 32-bit int range |
| Text.ParseIntSpellings | src/main/java/com/saratoga/loadouts/command/LoadoutCommand.java:443-447 | `Integer.parseInt` accepts a text iff it is an optional sign followed by one or more digits whose value, with the sign, fits in an int; a minus sign on every negative value and never on a positive one, while zero may be written with `-`, `+` or no sign; the value is the digits read in base 10 |
| Text.ParseIntToString | src/main/java/com/saratoga/loadouts/command/LoadoutCommand.java:443-449 | the decimal text `String.valueOf` writes for any 32-bit int parses back to that int |
| Seqs.Filter | src/main/java/com/saratoga/loadouts/command/LoadoutCommand.java:671-680 | an element is in the filtered list iff it is in the input and passes the test; the result is no longer than the input |
| Seqs.FilterKeepsOrder | src/main/java/com/saratoga/loadouts/command/LoadoutCommand.java:674-678 | the filtered list is a subsequence of the input, so it keeps the original order |
| Seqs.FilterMultiplicity | src/main/java/com/saratoga/loadouts/LoadoutsConfig.java:274-278 | a passing value occurs as often in the result as in the input; a failing value never occurs |
| Sorting.StrLeTotal | src/main/java/com/saratoga/loadouts/integration/WeaponMechanicsIntegration.java:91-94 | any two names are comparable in the lexicographic order `Collections.sort` uses |
| Sorting.StrLeAntisymmetric | src/main/java/com/saratoga/loadouts/integration/WeaponMechanicsIntegration.java:91-94 | two names each at most the other are equal |
| Sorting.StrLeTransitive | src/main/java/com/saratoga/loadouts/integration/WeaponMechanicsIntegration.java:91-94 | the lexicographic order is transitive |
| Sorting.Sort | src/main/java/com/saratoga/loadouts/integration/WeaponMechanicsIntegration.java:91-94 | the sorted list is in ascending order and is a permutation of the input |
| Sorting.SortedPermutationUnique | src/main/java/com/saratoga/loadouts/integration/WeaponMechanicsIntegration.java:91-94 | two ascending permutations of the same list are equal, so any correct sort gives this result |
| Sorting.SortOfSorted | src/main/java/com/saratoga/loadouts/integration/WeaponMechanicsIntegration.java:91-94 | sorting an already sorted list leaves it unchanged |
| Inventories.EmptyContents | src/main/java/com/saratoga/loadouts/data/EditModeManager.java:70-72 | an inventory with all 41 positions empty |
| Inventories.Clear | src/main/java/com/saratoga/loadouts/data/EditModeManager.java:70 | `clear` empties every position, armor and off-hand included |
| Inventories.GetArmor | src/main/java/com/saratoga/loadouts/data/EditModeManager.java:59 | the armor array is positions 36..39, in order |
| Inventories.SetArmor | src/main/java/com/saratoga/loadouts/data/EditModeManager.java:148-150 | `setArmorContents` writes the four armor positions, or empties them for `null`, and touches no other position |
| Inventories.SetOffHand | src/main/java/com/saratoga/loadouts/data/EditModeManager.java:151-153 | `setItemInOffHand` writes position 40 and touches no other position |
| Inventories.SetItem | src/main/java/com/saratoga/loadouts/gui/GuiManager.java:568 | `setItem` writes position i and touches no other position |
| Inventories.FirstEmptyFrom | src/main/java/com/saratoga/loadouts/gui/GuiManager.java:579 | finds the first empty storage position at or after `from`, or reports that all of them are full |
| Inventories.AddItem | src/main/java/com/saratoga/loadouts/gui/GuiManager.java:595 | `addItem` puts the item into the first empty storage position; when storage is full the inventory is unchanged and the item is lost |
| LoadoutSlots.CatalogSlot | src/main/java/com/saratoga/loadouts/data/LoadoutSlot.java:20-26 | the catalog-weapon constructor always sets the catalog flag and stores the other four fields verbatim |
| LoadoutSlots.CustomSlot | src/main/java/com/saratoga/loadouts/data/LoadoutSlot.java:31-37 | the custom-item constructor stores the item id as title, no category and ammo 0 |
| LoadoutSlots.StoredSlot | src/main/java/com/saratoga/loadouts/data/LoadoutSlot.java:42-48 | the full constructor stores all five fields verbatim |
| LoadoutSlots.Equals | src/main/java/com/saratoga/loadouts/data/LoadoutSlot.java:71-82 | two slots are equal iff all five fields agree |
| LoadoutSlots.Wrap32 | src/main/java/com/saratoga/loadouts/data/LoadoutSlot.java:85-87 | Java int arithmetic: the result is congruent to the exact value modulo 2^32 and equals it when it fits |
| LoadoutSlots.HashFoldIsWrappedPolynomial | src/main/java/com/saratoga/loadouts/data/LoadoutSlot.java:85-87 | `Objects.hash` wraps to `int` at every `31*h + x` step, and the result equals the exact polynomial 31^n + x0*31^(n-1) + ... + x(n-1) wrapped once |
| LoadoutSlots.StringHashIsWrappedPolynomial | src/main/java/com/saratoga/loadouts/data/LoadoutSlot.java:85-87 | a string field's hash is the exact polynomial over its character codes, wrapped to `int` once |
| LoadoutSlots.HashCodeIsWrappedPolynomial | src/main/java/com/saratoga/loadouts/data/LoadoutSlot.java:85-87 | a slot's hash code is 31^5 + 31^4*h(slotType) + 31^3*h(weaponTitle) + 31^2*h(category) + 31*h(wmWeapon) + ammoAmount, wrapped to `int`; a null category hashes to 0 and the flag to 1231 or 1237 |
| LoadoutSlots.HashCode | src/main/java/com/saratoga/loadouts/data/LoadoutSlot.java:85-87 | `Objects.hash` wraps at every step, yet the result is the Horner polynomial from 1 over the five field hashes, wrapped to `int` once |
| Loadouts.NewLoadout | src/main/java/com/saratoga/loadouts/data/Loadout.java:24-33 | a new loadout has id -1, so it is unsaved, has empty slots, attachments and items, and both timestamps set to now |
| Loadouts.StoredLoadout | src/main/java/com/saratoga/loadouts/data/Loadout.java:38-47 | the store constructor takes id, owner, name and both timestamps as given, with empty contents |
| Loadouts.SetId | src/main/java/com/saratoga/loadouts/data/Loadout.java:53-55 | replaces the id only; the loadout counts as saved iff the new id is positive |
| Loadouts.SetSlot | src/main/java/com/saratoga/loadouts/data/Loadout.java:73-76 | overwrites exactly one slot key, leaves every other key unchanged, and touches `updatedAt` |
| Loadouts.SetAttachment | src/main/java/com/saratoga/loadouts/data/Loadout.java:87-90 | overwrites exactly one attachment key, leaves every other key unchanged, and touches `updatedAt` |
| Loadouts.SetFinalItems | src/main/java/com/saratoga/loadouts/data/Loadout.java:104-107 | stores the list by value, so later changes to the caller's list cannot reach it; `hasFinalItems` holds iff the list is non-empty, even when every position is empty |
| Loadouts.Equals | src/main/java/com/saratoga/loadouts/data/Loadout.java:140-149 | two loadouts are equal iff id, owner and name agree |
| Loadouts.EqualsIgnoresContents | src/main/java/com/saratoga/loadouts/data/Loadout.java:140-149 | changing slots, attachments or items never changes equality |
| EditSessions.NewSession | src/main/java/com/saratoga/loadouts/data/LoadoutManager.java:349-364 | a new session edits slot 1, not global, with no current slot type or attachment key, page 0 and empty selections |
| EditSessions.SetEditingSlotNumber | src/main/java/com/saratoga/loadouts/data/LoadoutManager.java:374-376 | sets the slot number and nothing else |
| EditSessions.SetEditingGlobal | src/main/java/com/saratoga/loadouts/data/LoadoutManager.java:382-384 | sets the global flag and nothing else |
| EditSessions.SetCurrentSlotType | src/main/java/com/saratoga/loadouts/data/LoadoutManager.java:390-392 | sets the current slot type and nothing else |
| EditSessions.SetCurrentAttachmentSlot | src/main/java/com/saratoga/loadouts/data/LoadoutManager.java:440-442 | sets the current attachment key and nothing else |
| EditSessions.SetCurrentPage | src/main/java/com/saratoga/loadouts/data/LoadoutManager.java:398-400 | the page is clamped at 0, so it is never negative; nothing else changes |
| EditSessions.SetSlot | src/main/java/com/saratoga/loadouts/data/LoadoutManager.java:406-408 | overwrites one selected slot and leaves the other selections unchanged |
| EditSessions.SetAttachment | src/main/java/com/saratoga/loadouts/data/LoadoutManager.java:448-450 | overwrites one selected attachment and leaves the other selections unchanged |
| EditSessions.ClearSelections | src/main/java/com/saratoga/loadouts/data/LoadoutManager.java:422-425 | both selection maps become empty; nothing else changes |
| EditSessions.LoadFromLoadout | src/main/java/com/saratoga/loadouts/data/LoadoutManager.java:464-480 | both selection maps become the loadout's; a missing loadout changes nothing |
| EditSessions.WellFormedPreserved | src/main/java/com/saratoga/loadouts/data/LoadoutManager.java:406-408 | setting slots through either constructor, loading from a well-keyed loadout, and clearing all keep every selection filed under its own slot type |
| Database.Deserialize | src/main/java/com/saratoga/loadouts/data/DatabaseManager.java:443-450 | the bytes written for an item decode back to it; unreadable bytes decode to nothing |
| Database.EmptyStore | src/main/java/com/saratoga/loadouts/data/DatabaseManager.java:69-155 | the freshly created schema is consistent and holds no loadout |
| Database.Hydrate | src/main/java/com/saratoga/loadouts/data/DatabaseManager.java:380-408 | each stored index holds its decoded item; indices without a row are empty; the list ends at the highest stored index; no rows give no items |
| Database.Get | src/main/java/com/saratoga/loadouts/data/DatabaseManager.java:263-286 | errors iff the query fails; finds a loadout iff a header matches (owner, name); it carries the header's id and creation time, one slot per slot row, no attachments, and the hydrated items; rebuilding it through `setSlot`/`setFinalItems` moves `updatedAt` to now whenever anything was loaded |
| Database.Count | src/main/java/com/saratoga/loadouts/data/DatabaseManager.java:343-354 | errors iff the query fails; otherwise the number of headers the owner has |
| Database.SaveCount | src/main/java/com/saratoga/loadouts/data/DatabaseManager.java:167-258 | a save adds one to the owner's count exactly when it commits a new (owner, name) of that owner; a failed save, an update and other owners' saves leave the count as it was |
| Database.CountAfterUpsert | src/main/java/com/saratoga/loadouts/data/DatabaseManager.java:178-205 | adding a header key adds one to the count of its owner only, and only when the key was new |
| Database.CountAddsKey | src/main/java/com/saratoga/loadouts/data/DatabaseManager.java:343-354 | one new key in the header set raises the count of its owner by one and nobody else's |
| Database.DeleteCount | src/main/java/com/saratoga/loadouts/data/DatabaseManager.java:330-338 | a delete that finds a header lowers its owner's count by one; others' counts and a delete that finds nothing leave counts unchanged |
| Database.Delete | src/main/java/com/saratoga/loadouts/data/DatabaseManager.java:330-338 | errors iff the statement fails; otherwise returns true iff a header matched; that header and, by cascade, its slot and item rows are gone; every other header is untouched |
| Database.SlotRowsFor | src/main/java/com/saratoga/loadouts/data/DatabaseManager.java:217-230 | one slot row per assignment, filed under its slot type; every row comes from an assignment; no assignments give no rows |
| Database.Positions | src/main/java/com/saratoga/loadouts/data/DatabaseManager.java:232-248 | one item row per non-empty index, holding that item's bytes; a list with no item writes no rows |
| Database.TouchById | src/main/java/com/saratoga/loadouts/data/DatabaseManager.java:180-185 | `UPDATE ... WHERE id = ?` rewrites `updated_at` of the header with that id and of no other |
| Database.WriteHeader | src/main/java/com/saratoga/loadouts/data/DatabaseManager.java:178-205 | a saved loadout keeps its id and only `updated_at` is rewritten; an unsaved one is upserted on (owner, name), keeping the existing id or taking the next one, and the id is returned |
| Database.ReplaceChildren | src/main/java/com/saratoga/loadouts/data/DatabaseManager.java:207-248 | after the delete-and-insert, the loadout's slot rows and item rows are exactly those of its current slots and items; other loadouts' rows are untouched |
| Database.Save | src/main/java/com/saratoga/loadouts/data/DatabaseManager.java:167-258 | commits iff no statement fails; a failure rolls back to the previous rows; an unsaved loadout gets the id of its header (even when the transaction later rolls back) and a saved one keeps its id; after commit its rows are exactly its slots and non-empty items, and others' rows are untouched |
| Database.TrimTrailing | src/main/java/com/saratoga/loadouts/data/DatabaseManager.java:380-408 | the longest prefix that ends with an item; everything dropped was empty |
| Database.HydratePositions | src/main/java/com/saratoga/loadouts/data/DatabaseManager.java:380-408 | reading back the item rows written for a list gives the list without its trailing empty positions |
| Database.SlotRowsForWellKeyed | src/main/java/com/saratoga/loadouts/data/DatabaseManager.java:359-375 | slots filed under their own slot types are rebuilt from their rows unchanged |
| Database.SaveThenGet | src/main/java/com/saratoga/loadouts/data/DatabaseManager.java:167-286 | after a committed save, reading the loadout back gives its id, owner, name and slots, no attachments, and its items up to trailing empty positions |
| Database.LoadItems | src/main/java/com/saratoga/loadouts/data/DatabaseManager.java:380-408 | the row loop builds a list as long as the highest index plus one, each row's index holding its decoded item and every other index empty, which is the hydrated list |
| Database.Pad | src/main/java/com/saratoga/loadouts/data/DatabaseManager.java:392-394 | padding grows the list with empty positions up to the requested length and keeps the existing prefix |
| LoadoutManager.CachePut | src/main/java/com/saratoga/loadouts/data/LoadoutManager.java:110-112 | stores one cache entry and leaves every other entry unchanged |
| LoadoutManager.CachePutCoherent | src/main/java/com/saratoga/loadouts/data/LoadoutManager.java:110-112 | filing a saved loadout under its own owner and name keeps the cache coherent |
| LoadoutManager.CacheRemove | src/main/java/com/saratoga/loadouts/data/LoadoutManager.java:264-267 | removes one cache entry and leaves every other entry unchanged |
| LoadoutManager.GetLoadout | src/main/java/com/saratoga/loadouts/data/LoadoutManager.java:44-65 | a hit returns the cached loadout; a miss with a failing store yields absent and caches nothing; a miss otherwise returns the store's answer, which is cached only when found; no other entry, no session and no row changes |
| LoadoutManager.CacheHitIgnoresStore | src/main/java/com/saratoga/loadouts/data/LoadoutManager.java:44-48 | on a hit the answer is the same whatever the store holds and whether or not it fails |
| LoadoutManager.SaveLoadout | src/main/java/com/saratoga/loadouts/data/LoadoutManager.java:104-120 | true iff the store commits; only then is the (owner, name) entry cached, with the saved loadout; a failure leaves the cache as it was |
| LoadoutManager.TargetOwner | src/main/java/com/saratoga/loadouts/data/LoadoutManager.java:129-131 | the save targets the global owner iff the player's session edits a global loadout |
| LoadoutManager.MergeSession | src/main/java/com/saratoga/loadouts/data/LoadoutManager.java:144-154 | session slots and attachments overwrite the same keys and leave the loadout's other keys intact; when each session slot is filed under its own slot type, every one ends up under its slot type |
| LoadoutManager.BuildLoadout | src/main/java/com/saratoga/loadouts/data/LoadoutManager.java:133-161 | an existing loadout is reused with its identity, else a new unsaved one is made; the items are the inventory snapshot; session selections win on shared keys; other saved keys are kept |
| LoadoutManager.PrepareSave | src/main/java/com/saratoga/loadouts/data/LoadoutManager.java:125-164 | the session is removed before the write; the loadout is reused iff the lookup found one; a reused loadout is changed in place, so its cache entry already holds the new contents |
| LoadoutManager.SaveCurrentInventory | src/main/java/com/saratoga/loadouts/data/LoadoutManager.java:125-172 | the session is ended; the loadout belongs to the target owner and slot and holds the inventory snapshot; on success it is saved and cached; on failure the cache keeps the in-place edit of a reused loadout, or nothing new |
| LoadoutManager.Applied | src/main/java/com/saratoga/loadouts/data/LoadoutManager.java:184-192 | after `clear`, position i holds item i for each i below the list length and the inventory size; every other position is empty |
| LoadoutManager.ApplyLoadout | src/main/java/com/saratoga/loadouts/data/LoadoutManager.java:177-198 | true iff a loadout is found and has final items; false leaves the inventory alone; true lays the items out from an emptied inventory |
| LoadoutManager.AppliedSnapshot | src/main/java/com/saratoga/loadouts/data/LoadoutManager.java:184-192 | applying a full inventory snapshot, or that snapshot without trailing empty positions, recreates it exactly |
| LoadoutManager.SaveThenApplyFromCache | src/main/java/com/saratoga/loadouts/data/LoadoutManager.java:104-198 | after a successful save of one's own slot, giving that slot reproduces the saved inventory from the cache |
| LoadoutManager.TrimmedEmpty | src/main/java/com/saratoga/loadouts/data/DatabaseManager.java:405-407 | the trimmed snapshot is non-empty iff the snapshot holds an item, so an all-empty inventory reloads as "no items" |
| LoadoutManager.SaveThenApplyAfterEviction | src/main/java/com/saratoga/loadouts/data/LoadoutManager.java:125-198 | with a healthy store the save succeeds; after the owner's cache is dropped, giving the slot reloads it and succeeds iff the saved inventory held an item, and then reproduces it exactly |
| LoadoutManager.StoredAfterSave | src/main/java/com/saratoga/loadouts/data/LoadoutManager.java:125-172 | with a healthy store the save succeeds and the store then holds the snapshot up to trailing empty positions |
| LoadoutManager.ApplyFromStore | src/main/java/com/saratoga/loadouts/data/LoadoutManager.java:177-198 | on a cache miss, a stored snapshot is applied iff it holds an item, and reproduces it exactly |
| LoadoutManager.PreparedIsWritable | src/main/java/com/saratoga/loadouts/data/LoadoutManager.java:125-161 | the loadout a save builds is one the store can commit: slots filed under their slot types, and a reused loadout filed under its own key |
| LoadoutManager.DeleteLoadout | src/main/java/com/saratoga/loadouts/data/LoadoutManager.java:259-275 | true iff the store succeeds and a header existed; only then is the store row gone and the (owner, slot) entry evicted; any other outcome changes nothing; other entries and sessions are untouched |
| LoadoutManager.StartEditSession | src/main/java/com/saratoga/loadouts/data/LoadoutManager.java:282-286 | a fresh session replaces any existing one; other players' sessions are untouched |
| LoadoutManager.GetEditSession | src/main/java/com/saratoga/loadouts/data/LoadoutManager.java:291-293 | a session is returned iff the player has one |
| LoadoutManager.EndEditSession | src/main/java/com/saratoga/loadouts/data/LoadoutManager.java:298-300 | the player has no session afterwards; other sessions are untouched |
| LoadoutManager.ClearCache | src/main/java/com/saratoga/loadouts/data/LoadoutManager.java:314-316 | forgets every cached loadout of the owner and nothing else |
| LoadoutManager.ClearAllCaches | src/main/java/com/saratoga/loadouts/data/LoadoutManager.java:321-324 | nothing is cached and no session remains; the store is untouched |
| LoadoutManager.GetLoadoutCount | src/main/java/com/saratoga/loadouts/data/LoadoutManager.java:329-343 | with cached entries, counts the cached loadouts that have final items; otherwise the store's header count, or 0 when the query fails |
| LoadoutManager.ClearedCacheCountsStore | src/main/java/com/saratoga/loadouts/data/LoadoutManager.java:314-316 | once the owner's cache is cleared the count is the number of headers the owner has in the store |
| LoadoutManager.DeleteLowersUncachedCount | src/main/java/com/saratoga/loadouts/data/LoadoutManager.java:259-275 | for an owner whose loadouts are not cached, a successful delete lowers the count by one and a failed one changes nothing |
| LoadoutManager.SaveUncachedCount | src/main/java/com/saratoga/loadouts/data/LoadoutManager.java:104-120 | for an uncached owner a failed save leaves the count; a successful save caches the owner, after which only that loadout is counted, iff it holds items |
| LoadoutManager.CountSingleton | src/main/java/com/saratoga/loadouts/data/LoadoutManager.java:329-343 | a cache of one loadout counts 1 iff that loadout has items |
| EditMode.Emptied | src/main/java/com/saratoga/loadouts/data/EditModeManager.java:70-72 | after the three clearing calls every position is empty |
| EditMode.StartEditMode | src/main/java/com/saratoga/loadouts/data/EditModeManager.java:48-78 | the player becomes active; the contents, the armor and the off-hand are copied (an empty off-hand as absent); the inventory is emptied; an already active player is not refused, and the backups are replaced |
| EditMode.RestoreInventory | src/main/java/com/saratoga/loadouts/data/EditModeManager.java:138-156 | all three backups are removed; with consistent backups the inventory becomes exactly the backed-up one; without contents and armor backups only a recorded off-hand item is put back |
| EditMode.LeaveEditMode | src/main/java/com/saratoga/loadouts/data/EditModeManager.java:84-133 | a no-op unless active; otherwise the player becomes inactive and all three backups are consumed; other players' backups are untouched |
| EditMode.Quit | src/main/java/com/saratoga/loadouts/data/EditModeManager.java:250-261 | a no-op unless active; otherwise the backups are restored without clearing first, and the player becomes inactive |
| EditMode.Shutdown | src/main/java/com/saratoga/loadouts/data/EditModeManager.java:266-278 | every online active player gets their backup back and every other online player keeps their inventory; afterwards nobody is active and no backup remains |
| EditMode.StartThenLeaveRestores | src/main/java/com/saratoga/loadouts/data/EditModeManager.java:48-156 | entering edit mode and then ending, cancelling or disconnecting gives back exactly the inventory held before, whatever was staged |
| EditMode.DoubleStartOverwritesBackup | src/main/java/com/saratoga/loadouts/data/EditModeManager.java:48-78 | starting twice loses the original inventory: leaving gives back the inventory that was held at the second start |
| EditMode.EmptyOffHandBackupKeepsStagedItem | src/main/java/com/saratoga/loadouts/data/EditModeManager.java:151-153 | an absent off-hand backup leaves whatever is in the off-hand |
| EditMode.CommandAllowed | src/main/java/com/saratoga/loadouts/data/EditModeManager.java:199-216 | outside edit mode every command passes; inside, a command passes iff its lower-cased text starts with "/loadout save" or "/loadout cancel" |
| EditMode.ClickCancelled | src/main/java/com/saratoga/loadouts/data/EditModeManager.java:222-244 | cancelled iff the player is active, the view's top inventory is neither the player's nor the crafting grid, and the click landed in an inventory that is not a player inventory |
| EditMode.DropOrPickupCancelled | src/main/java/com/saratoga/loadouts/data/EditModeManager.java:178-193 | drops and pickups are cancelled exactly while the player is active |
| EditMode.SaveAndCancelPass | src/main/java/com/saratoga/loadouts/data/EditModeManager.java:205-210 | the save and cancel commands pass in edit mode in any letter case and with any arguments |
| Config.ReadSection | src/main/java/com/saratoga/loadouts/LoadoutsConfig.java:89-118 | the "default" key is never stored; every other key is read with the fallback; a configured non-zero default wins; without one the previous default survives; the default is never 0 |
| Config.Reload | src/main/java/com/saratoga/loadouts/LoadoutsConfig.java:75-205 | both sections are read as above, the defaults are never 0, items per page falls back to 45, and slots, custom items and messages are taken from the file |
| Config.StaleDefaultSurvivesReload | src/main/java/com/saratoga/loadouts/LoadoutsConfig.java:88-102 | for any two reloads: when the first sets a default (ammo multiplier or item amount) and the second drops it, the default the first set is the one in force |
| Config.AmmoMultiplier | src/main/java/com/saratoga/loadouts/LoadoutsConfig.java:258-260 | the category's multiplier if configured, else the default |
| Config.ItemAmount | src/main/java/com/saratoga/loadouts/LoadoutsConfig.java:296-306 | the weapon's amount if configured, else the category's when the category is known and configured, else the default |
| Config.ReloadedLookupsAreNonZeroDefaults | src/main/java/com/saratoga/loadouts/LoadoutsConfig.java:100-118 | after a reload, a lookup that falls back to a default never yields 0 |
| Config.Message | src/main/java/com/saratoga/loadouts/LoadoutsConfig.java:208-211 | the prefix followed by the message text; an unknown key yields the prefix followed by the key |
| Config.Placeholder | src/main/java/com/saratoga/loadouts/LoadoutsConfig.java:213-219 | the placeholder for k is "%k%" |
| Config.MessageWith | src/main/java/com/saratoga/loadouts/LoadoutsConfig.java:213-219 | with no placeholders it is the plain message |
| Config.SubstituteOne | src/main/java/com/saratoga/loadouts/LoadoutsConfig.java:213-219 | one placeholder replaces every occurrence of %k% by its value: the text cut at %k% rejoined with the value, no piece containing %k%; a text without %k% is unchanged |
| Config.CustomItemsForSlot | src/main/java/com/saratoga/loadouts/LoadoutsConfig.java:274-278 | exactly the custom items whose slot type is the argument |
| Config.CustomItemIdFor | src/main/java/com/saratoga/loadouts/gui/GuiManager.java:1137-1145 | the id of the first custom item, in map order and of any slot type, whose material is the clicked one; none iff no custom item has that material |
| Config.CustomItemsForSlotOrder | src/main/java/com/saratoga/loadouts/LoadoutsConfig.java:274-278 | in configuration order, each matching item as often as configured |
| Weapons.Categorize | src/main/java/com/saratoga/loadouts/integration/WeaponMechanicsIntegration.java:78-94 | every registered weapon is kept and gets the category of its definition file, or "uncategorized"; the categories are exactly those used; each category's list is the sorted list of its weapons |
| Weapons.EveryWeaponInItsCategory | src/main/java/com/saratoga/loadouts/integration/WeaponMechanicsIntegration.java:78-94 | a registered weapon is in a category's list iff that is its category |
| Weapons.ParsedAmmo | src/main/java/com/saratoga/loadouts/integration/WeaponMechanicsIntegration.java:181-192 | a non-empty ammo list takes precedence; otherwise a non-empty single ammo key is used; otherwise nothing is recorded |
| Weapons.RecordAmmo | src/main/java/com/saratoga/loadouts/integration/WeaponMechanicsIntegration.java:181-192 | a parsed ammo list is stored for the weapon, replacing any earlier one, and is what `getAmmoTypes` then returns; other weapons' lists and the rest of the catalog are unchanged; with nothing parsed the catalog is unchanged |
| Weapons.AmmoTypes | src/main/java/com/saratoga/loadouts/integration/WeaponMechanicsIntegration.java:307-316 | a non-empty answer is the cached list |
| Weapons.HasAmmoConfigIffAmmoTypes | src/main/java/com/saratoga/loadouts/integration/WeaponMechanicsIntegration.java:611-613 | a weapon has an ammo config iff its ammo type list is non-empty |
| Weapons.CalculateAmmo | src/main/java/com/saratoga/loadouts/integration/WeaponMechanicsIntegration.java:295-300 | the magazine size times the multiplier of the weapon's category, in 32-bit int arithmetic |
| Weapons.StackAmounts | src/main/java/com/saratoga/loadouts/integration/WeaponMechanicsIntegration.java:348-357 | nothing for a total of at most 0; otherwise every amount is in 1..maxStack, all but the last are full, and they sum to the total |
| Weapons.SplitIntoStacks | src/main/java/com/saratoga/loadouts/integration/WeaponMechanicsIntegration.java:348-357 | the splitting loop makes one clone per stack amount, in order |
| Weapons.GenerateAmmoItems | src/main/java/com/saratoga/loadouts/integration/WeaponMechanicsIntegration.java:322-368 | nothing when the total is at most 0, no ammo type is cached or the first type makes no item; otherwise that item split into stacks of the total |
| Weapons.GenerateConsumableItems | src/main/java/com/saratoga/loadouts/integration/WeaponMechanicsIntegration.java:578-606 | nothing when the weapon makes no item; otherwise an amount of at most 0 counts as 1 and the item is split into stacks of that amount |
| Weapons.Stacks | src/main/java/com/saratoga/loadouts/integration/WeaponMechanicsIntegration.java:348-357 | one clone of the item per stack amount, in order, each carrying that amount |
| Weapons.StacksHoldTotal | src/main/java/com/saratoga/loadouts/integration/WeaponMechanicsIntegration.java:348-357 | the stacks cut from a positive total hold exactly that total, whatever the stack size |
| Weapons.AmmoItemsTotal | src/main/java/com/saratoga/loadouts/integration/WeaponMechanicsIntegration.java:322-368 | when the computed total is positive, a type is cached and the first type makes an item, the ammo stacks add up to the total and are all of that item's kind; otherwise there is no ammo |
| Weapons.ConsumableItemsTotal | src/main/java/com/saratoga/loadouts/integration/WeaponMechanicsIntegration.java:578-606 | when the weapon makes an item, the consumable stacks add up to the amount, or to 1 when the amount is at most 0; otherwise there are none |
| Weapons.StackCount | src/main/java/com/saratoga/loadouts/integration/WeaponMechanicsIntegration.java:348-357 | a positive total gives ceil(total / maxStack) stacks |
| Weapons.WeaponsForSlot | src/main/java/com/saratoga/loadouts/integration/WeaponMechanicsIntegration.java:398-420 | an unknown slot gives nothing; every entry is a category with its non-empty weapon list |
| Weapons.WeaponsForSlotCategories | src/main/java/com/saratoga/loadouts/integration/WeaponMechanicsIntegration.java:398-420 | a category is listed iff it is allowed for the slot and has weapons; none is listed twice |
| Weapons.WeaponsForSlotOrder | src/main/java/com/saratoga/loadouts/integration/WeaponMechanicsIntegration.java:398-420 | the categories come in the order of the slot's allowed list: one precedes another iff it is first mentioned there earlier (a linked map keeps first insertion order) |
| Weapons.CollectInOrder | src/main/java/com/saratoga/loadouts/integration/WeaponMechanicsIntegration.java:405-413 | the loop that fills the linked map keeps its keys in first-mention order of the allowed list |
| Weapons.FirstIndex | src/main/java/com/saratoga/loadouts/integration/WeaponMechanicsIntegration.java:405-413 | the first position at which a category is mentioned |
| Weapons.FlatWeaponsForSlot | src/main/java/com/saratoga/loadouts/integration/WeaponMechanicsIntegration.java:425-432 | an unknown slot gives no weapons |
| Weapons.FlatWeaponsMembership | src/main/java/com/saratoga/loadouts/integration/WeaponMechanicsIntegration.java:425-432 | a weapon is offered iff it belongs to a category the slot allows |
| Weapons.AttachmentsForCategories | src/main/java/com/saratoga/loadouts/integration/WeaponMechanicsIntegration.java:527-537 | the attachment lists of the lower-cased categories, concatenated and sorted ascending |
| Weapons.RepeatedCategoryKeepsDuplicates | src/main/java/com/saratoga/loadouts/integration/WeaponMechanicsIntegration.java:527-537 | naming a category twice lists its attachments twice; letter case of the category does not matter |
| Staging.SlotItems | src/main/java/com/saratoga/loadouts/gui/GuiManager.java:515-550 | a gun gives its weapon item and the ammo `generateAmmoItems` computes for it when the weapon item is made, nothing otherwise, and no consumables; another catalog weapon gives the consumable stacks for its configured item amount and no weapon or ammo; a custom item gives the stack of the custom item configured under its id, or nothing when none is |
| Staging.Collect | src/main/java/com/saratoga/loadouts/gui/GuiManager.java:509-561 | collects the weapons, ammo, consumables and custom items of the selected slots, slot by slot, and the items of the selected attachments |
| Staging.SlotItemsAddUp | src/main/java/com/saratoga/loadouts/gui/GuiManager.java:515-535 | a gun's ammo stacks add up to its computed ammo when that is positive, an ammo type is cached and it makes an item; a consumable's stacks add up to its configured amount, at least 1 |
| Config.CustomItemNamed | src/main/java/com/saratoga/loadouts/LoadoutsConfig.java:270-272 | the custom item configured under the id, the first such; none iff no custom item has that key |
| Staging.CollectSlotsOrigins | src/main/java/com/saratoga/loadouts/gui/GuiManager.java:515-550 | an item is a staged weapon iff a selected gun makes it; staged ammo iff it is among the ammo of a selected gun whose weapon item is made; a staged consumable iff it is among the stacks of a selected non-gun weapon; a staged custom item iff a selected custom slot makes it; slots give no attachments |
| Staging.Collected | src/main/java/com/saratoga/loadouts/gui/GuiManager.java:515-550 | an item is in one of the four collected lists iff some selected slot makes it for that list |
| Staging.LayoutOf | src/main/java/com/saratoga/loadouts/gui/GuiManager.java:563-601 | the i-th queued item lands in position i while storage lasts; everything else is empty |
| Staging.PlaceWeapons | src/main/java/com/saratoga/loadouts/gui/GuiManager.java:565-571 | weapons fill the hotbar in order; those beyond the ninth are not given |
| Staging.PlaceOnHotbarOrAdd | src/main/java/com/saratoga/loadouts/gui/GuiManager.java:574-591 | consumables and custom items continue on the hotbar, then overflow into free storage |
| Staging.AddAll | src/main/java/com/saratoga/loadouts/gui/GuiManager.java:594-601 | ammo and attachments are always added to the next free storage positions |
| Staging.PlaceItems | src/main/java/com/saratoga/loadouts/gui/GuiManager.java:563-601 | the whole placement, started from the emptied inventory, is the staging queue laid into the inventory |
| Staging.HotbarHoldsFirstWeapons | src/main/java/com/saratoga/loadouts/gui/GuiManager.java:565-571 | hotbar position k holds the k-th weapon for the first nine weapons |
| Staging.ConsumablesFollowWeapons | src/main/java/com/saratoga/loadouts/gui/GuiManager.java:574-581 | with fewer than nine weapons, consumables follow right after the weapons |
| Staging.EverythingFitsIsGranted | src/main/java/com/saratoga/loadouts/gui/GuiManager.java:563-601 | when everything fits in storage, every staged item is in the inventory |
| Gui.LookUpSlots | src/main/java/com/saratoga/loadouts/gui/GuiManager.java:60-65 | looking up slots from..5 caches every slot the store holds, unless reads fail; the store, sessions and other owners' entries are untouched |
| Gui.OpenMainMenu | src/main/java/com/saratoga/loadouts/gui/GuiManager.java:56-72 | the main menu is tracked as open and every saved slot of the player is cached |
| Gui.OpenSlotSelectionMenu | src/main/java/com/saratoga/loadouts/gui/GuiManager.java:111-130 | the slot-selection menu is tracked as open and every saved slot of the player is cached |
| Gui.StartSessionFor | src/main/java/com/saratoga/loadouts/gui/GuiManager.java:166-175 | a new session starts, restored from the slot's saved loadout iff that loadout has slots |
| Gui.OpenCategoryMenu | src/main/java/com/saratoga/loadouts/gui/GuiManager.java:163-179 | the category menu is tracked as open; a session is created only when none exists; an existing session keeps its selections and only gets the new slot number |
| Gui.OpenWeaponSelect | src/main/java/com/saratoga/loadouts/gui/GuiManager.java:243-254 | records the slot type and resets the page to 0, then opens weapon selection; without a session nothing happens |
| Gui.OpenAttachmentSelect | src/main/java/com/saratoga/loadouts/gui/GuiManager.java:362-373 | records the attachment key and resets the page to 0; the menu opens only when the key is configured; without a session nothing happens |
| Gui.MaxPages | src/main/java/com/saratoga/loadouts/gui/GuiManager.java:273-274 | at least 1, and the least number of pages holding every entry; 0 entries per page overflows to the largest int; a negative count gives 1 |
| Gui.PageItems | src/main/java/com/saratoga/loadouts/gui/GuiManager.java:302-326 | the shown window is the entries from page·perPage on, at most perPage and at most 45 of them, in order |
| Gui.AttachmentAt | src/main/java/com/saratoga/loadouts/gui/GuiManager.java:851-866 | a click at position p picks attachment page·perPage+p iff that index is inside the list |
| Gui.ClickPicksShownAttachment | src/main/java/com/saratoga/loadouts/gui/GuiManager.java:851-866 | clicking an icon on the page picks exactly the attachment that icon shows |
| Gui.WeaponEntries | src/main/java/com/saratoga/loadouts/gui/GuiManager.java:264-273 | one entry per offered weapon plus one per custom item of the slot |
| Gui.EveryEntryOnItsPage | src/main/java/com/saratoga/loadouts/gui/GuiManager.java:302-307 | every entry is shown on page i / perPage at position i mod perPage |
| Gui.TurnPage | src/main/java/com/saratoga/loadouts/gui/GuiManager.java:759-771 | previous decrements only above page 0; next always increments |
| Gui.NextPageIsUnbounded | src/main/java/com/saratoga/loadouts/gui/GuiManager.java:347-351 | from the last page, next still increments and shows an empty page |
| Gui.GrantSelectedItems | src/main/java/com/saratoga/loadouts/gui/GuiManager.java:495-632 | nothing happens without a session or without selected slots; otherwise the menu closes, edit mode starts, and the inventory is the staged items in placement order |
| Gui.ConfirmThenLeaveRestores | src/main/java/com/saratoga/loadouts/gui/GuiManager.java:495-506 | after confirming, leaving edit mode gives back exactly the inventory held before confirming |
| Gui.MainMenuClick | src/main/java/com/saratoga/loadouts/gui/GuiManager.java:665-685 | positions 11..15 pick slot p−10; a loadout with items is applied and the menu closes; otherwise nothing changes |
| Gui.SlotSelectClick | src/main/java/com/saratoga/loadouts/gui/GuiManager.java:687-699 | back opens the main menu; positions 11..15 open the category menu for slot p−10; other positions do nothing |
| Gui.CategoryMenuClick | src/main/java/com/saratoga/loadouts/gui/GuiManager.java:701-745 | without a session nothing happens; confirm stages the items iff slots are selected; back opens slot selection; only confirm changes the inventory |
| Gui.WeaponSlotPositions | src/main/java/com/saratoga/loadouts/gui/GuiManager.java:720-731 | the i-th weapon-slot position opens weapon selection for the i-th configured slot |
| Gui.WeaponSelectClick | src/main/java/com/saratoga/loadouts/gui/GuiManager.java:747-809 | without a session nothing happens; next always advances the page; a click on the page with a current slot type stores the recognised weapon (with its category and computed ammo) or else the recognised custom item under that slot type and leaves other selections alone, and changes nothing when neither is recognised; positions outside the page and buttons do nothing; the store and guard are untouched |
| Gui.AttachmentSelectClick | src/main/java/com/saratoga/loadouts/gui/GuiManager.java:811-868 | a click on the page picks the attachment at page·perPage+slot if there is one, records it and reopens the category menu; otherwise nothing happens |
| Gui.OnInventoryClick | src/main/java/com/saratoga/loadouts/gui/GuiManager.java:637-663 | the click is cancelled iff a plugin menu is open for the player; a click outside the menu or on nothing changes nothing |
| Gui.AttachmentsAloneCannotBeConfirmed | src/main/java/com/saratoga/loadouts/gui/GuiManager.java:713-716 | confirm with attachments but no slots selected changes nothing |
| Gui.OnInventoryClose | src/main/java/com/saratoga/loadouts/gui/GuiManager.java:871-875 | closing only forgets the tracked menu |
| Gui.OnPlayerQuit | src/main/java/com/saratoga/loadouts/gui/GuiManager.java:878-883 | quitting forgets the menu and the session and clears the player's cache; other players are untouched |
| Command.ParseSlot | src/main/java/com/saratoga/loadouts/command/LoadoutCommand.java:443-447 | a slot argument is accepted iff it parses as an int in 1..5 |
| Command.SlotNamesAreAccepted | src/main/java/com/saratoga/loadouts/command/LoadoutCommand.java:443-449 | the names of slots 1..5 are accepted as themselves |
| Command.SpellingsNameOneSlot | src/main/java/com/saratoga/loadouts/command/LoadoutCommand.java:443-447 | for every argument and slot: the argument names that slot iff the slot is in 1..5 and the argument is an optional sign then digits whose value is the slot number, with no minus sign |
| Command.SpellingsOfThree | src/main/java/com/saratoga/loadouts/command/LoadoutCommand.java:443-447 | "+3" and "03" both name slot 3, which is written back as "3" |
| Command.HandleDelete | src/main/java/com/saratoga/loadouts/command/LoadoutCommand.java:436-486 | usage and bad slots change nothing; a repeat for the pending slot clears it and deletes; any other slot becomes the pending one |
| Command.Expire | src/main/java/com/saratoga/loadouts/command/LoadoutCommand.java:477-481 | expiry removes the pending entry only if it still names the slot that scheduled it |
| Command.DeleteTwiceDeletes | src/main/java/com/saratoga/loadouts/command/LoadoutCommand.java:452-469 | a first delete only asks for confirmation; the same delete again deletes, succeeding iff the slot existed and the store works |
| Command.ExpiryKeepsNewerRequest | src/main/java/com/saratoga/loadouts/command/LoadoutCommand.java:470-481 | an older request's expiry leaves a newer pending slot in place, and the newer one's own expiry removes it |
| Command.ExpiredRequestNeedsNewConfirmation | src/main/java/com/saratoga/loadouts/command/LoadoutCommand.java:470-481 | after expiry, the same delete asks for confirmation again |
| Command.HandleSave | src/main/java/com/saratoga/loadouts/command/LoadoutCommand.java:318-354 | refused outside edit mode; without a session, edit mode is cancelled; otherwise the slot is saved, the session ended and edit mode left whether or not the save succeeded |
| Command.SaveGivesBackAndKeepsEdits | src/main/java/com/saratoga/loadouts/command/LoadoutCommand.java:318-354 | saving in edit mode gives back the inventory held before editing, and on success the cache holds the edited inventory |
| Command.SilentSpellings | src/main/java/com/saratoga/loadouts/command/LoadoutCommand.java:102 | the cancel command is silent iff its second argument is "-s" in either case |
| Command.Silent | src/main/java/com/saratoga/loadouts/command/LoadoutCommand.java:102 | a silent cancel has a second argument of exactly two characters |
| Command.HandleCancel | src/main/java/com/saratoga/loadouts/command/LoadoutCommand.java:363-376 | outside edit mode nothing changes, and a complaint is sent unless silent; inside, edit mode is cancelled and the session ended |
| Command.CancelGivesBack | src/main/java/com/saratoga/loadouts/command/LoadoutCommand.java:363-376 | cancelling gives back the inventory held before editing and ends the session |
| Command.HandleGive | src/main/java/com/saratoga/loadouts/command/LoadoutCommand.java:381-407 | usage and bad slots change nothing; otherwise the slot is applied to the player |
| Command.FilterStartsWith | src/main/java/com/saratoga/loadouts/command/LoadoutCommand.java:671-680 | returns, in original order, exactly the options whose lower-cased form starts with the lower-cased prefix |
| Command.CompleteSlot | src/main/java/com/saratoga/loadouts/command/LoadoutCommand.java:661-666 | after edit, give or delete in any letter case, offers the slot names 1..5 that match the typed prefix, in order; after any other subcommand nothing |
| Command.OfferedMembers | src/main/java/com/saratoga/loadouts/command/LoadoutCommand.java:619-657 | a subcommand is in the list built by the permission checks iff a granted permission among those checked unlocks it |
| Command.OfferedToPlayer | src/main/java/com/saratoga/loadouts/command/LoadoutCommand.java:619-657 | every permission is checked, so a player is offered exactly the subcommands their permissions unlock |
| Command.TabComplete | src/main/java/com/saratoga/loadouts/command/LoadoutCommand.java:607-669 | the console completes only the first argument, from open, edit, reload and syncwm; a player completes the first argument from the subcommands their permissions unlock, matching the prefix, and the second after edit, give or delete from the slot numbers; no other argument position is completed |
| Command.CompletionsAreSlots | src/main/java/com/saratoga/loadouts/command/LoadoutCommand.java:664 | every offered completion is an accepted slot argument |
| Command.EmptyPrefixOffersEverySlot | src/main/java/com/saratoga/loadouts/command/LoadoutCommand.java:664 | an empty prefix offers all five slots, in order |

## Left out

- Rendering is not modelled: icons, lore, titles, colours, filler panes and the text of chat messages. Only positions and transitions are.
- Permission checks and console detection in the command handler are framework policy and are not modelled.
- SQL plumbing is not modelled: the connection pool, the DDL text and the MySQL/SQLite differences. The rows and the unique keys the schema declares are modelled.
- Database.WriteHeader: an unsaved loadout whose (owner, name) already exists keeps its header's id, as MySQL's `ON DUPLICATE KEY UPDATE` does. SQLite's `INSERT OR REPLACE` deletes the old row and inserts one with a new id. `PRAGMA foreign_keys` is never switched on (DatabaseManager.java:47-51), so nothing cascades: the old slot and item rows stay behind, orphaned under the old id. That backend is not modelled.
- Item serialisation is opaque: an item's bytes decode back to it, and an `Unreadable` blob stands for bytes that no longer decode.
- YAML scanning of the weapon and attachment folders is not modelled. Its results are inputs: the weapon-to-category map, the cached ammo lists and the attachment lists.
- Calls into the weapon plugin are parameters of the model: `generateWeapon`, `generateAmmo`, `getMagazineSize` and `generateAttachmentItem`.
- Staging.Sources: besides those four calls, the Bukkit construction of a custom item's stack (material, amount, display name) is the parameter `customStack`. Ammo and consumables are computed by the modelled `Weapons.AmmoItems` and `Weapons.ConsumableItems`; the custom item is looked up in the configuration with `Config.CustomItemNamed`.
- Weapons.StackAmounts: the maximum stack size is assumed to be at least 1 (`StackSize`). With 0, the Java splitting loops (WeaponMechanicsIntegration.java:351-357 and 590-597) would not terminate; Bukkit never reports such a stack size.
- Asynchronous saves and deletes are single sequential steps. The 200-tick delete expiry is the separate `Command.Expire` step.
- `resetPlayerStatus` (health, food, saturation, potion effects) is not modelled.
- `handleOpen`, `handleEdit` for other players, `handleList`, `handleRename`, `handleReload` and `handleSyncWm` are not modelled. Their edit-slot parsing is the same check as `Command.ParseSlot`.
- Methods outside the modelled files are not modelled: `openMainMenu(player, true)`, `openCategoryMenuForGlobal` and `Loadout.setDisplayName`.
- Command.TabComplete: which permission node each permission stands for is configuration read through Bukkit's `hasPermission`; the model takes the set of permissions a player holds as given.
- HashMap iteration order is a parameter: the order of selected slots and attachments (`slotOrder`, `attachmentOrder`) and the order of configured slots (`Layout`).
- Inventories.AddItem: does not merge into existing partial stacks of the same item. An added item takes the first empty storage position or is lost.
- Text.ParseInt: accepts ASCII digits with an optional sign. `Integer.parseInt` also accepts other Unicode decimal digits.
- Command.SilentSpellings: `equalsIgnoreCase` also matches the long s "ſ" (U+017F) against "s". The model folds ASCII letters only.
- Command.Silent: same ASCII-only case folding as `Command.SilentSpellings`.
- Gui.WeaponSelectClick: with no current slot type the Java code would store under a `null` key and then fail; that path cannot be reached from the menus and is a no-op here. Which weapon title WeaponMechanics reads off a clicked item is an input of the click; the custom item is recognised by `Config.CustomItemIdFor` from the item's material.
- Gui.WeaponSelectClick: a weapon chosen for a slot type that has no slot configuration is stored, but the category menu is not reopened. The Java code fails on the missing configuration right after storing it.
- Gui.MaxPages: `page * itemsPerPage` is computed with unbounded integers. The session's `currentPage` is an unbounded `nat` that the next button always raises, and in Java `page * perPage + slot` (GuiManager.java:302-326 and 851-866) wraps once it passes 2^31 - 1, for example from page 47,721,858 on with 45 entries per page. `Gui.PageItems` and `Gui.AttachmentAt` do not model that wrap.
- Gui.PageItems: a non-positive items-per-page shows nothing.
- Gui.LookUpSlots: its contract speaks about the cache only. The rendered slot icons are left out.
- Weapons.FlatWeaponsForSlot: its contract states only the unknown-slot case; membership is `Weapons.FlatWeaponsMembership`.
- Weapons.AmmoTypes: states the non-empty direction; the converse is `Weapons.HasAmmoConfigIffAmmoTypes`.
- Text.ToLower: folds only the ASCII letters A-Z. Java's `toLowerCase` also folds other letters, so "Ärmel" becomes "ärmel" there but stays as it is here, and U+0130 becomes two characters in Java, which changes the length.
- Text.ToLowerAt: states the position-by-position fold of the ASCII-only `Text.ToLower`, not of Java's full Unicode `toLowerCase`.
- Weapons.AttachmentsForCategories: category names are lower-cased with the ASCII-only `Text.ToLower`; a category name with non-ASCII capitals is looked up differently from Java.
- Sorting.Sort: orders strings by Unicode code point. Java's `compareTo` compares UTF-16 code units, which differs only when a character beyond U+FFFF is compared with one in U+E000..U+FFFF.
- LoadoutSlots.StringHash: hashes one term per Unicode scalar value. Java's `String.hashCode` hashes UTF-16 code units, so a character beyond U+FFFF hashes as its two surrogates there.
- LoadoutSlots.StringHashIsWrappedPolynomial: the polynomial is over scalar values, not UTF-16 code units, as for `LoadoutSlots.StringHash`.
- LoadoutSlots.HashCodeIsWrappedPolynomial: the string field hashes are `LoadoutSlots.StringHash`, with the same UTF-16 gap.
- LoadoutSlots.HashCode: the same UTF-16 gap, through `LoadoutSlots.StringHash`.
- LoadoutManager.MergeSession: Java files each session slot under the slot's own `getSlotType()`; the model files it under its session key. The two agree whenever the session is well keyed, which every editor step keeps (`EditSessions.WellFormedPreserved`), and the contract states the slot-type filing under that hypothesis.
- Config.CustomItemIdFor: a material name that Bukkit does not know falls back to STONE when the configuration is read; the model takes the material name as given.
- Config.MessageWith: states only the no-placeholder case; substitution is `Config.SubstituteOne`.
- Text.ParseInt: its contract bounds the result; the accepted spellings are stated for all inputs by `Text.ParseIntSpellings`.
- Off-hand restore: `getContents()` returns all 41 positions, so restoring the contents backup already restores the off-hand. The asymmetric off-hand branch of `restoreInventory` therefore cannot change the result after a normal start. `EditMode.EmptyOffHandBackupKeepsStagedItem` shows that branch on its own.
- Attachments are not written by `saveLoadout`, so they reload empty. `Database.SaveThenGet` states this.
- A reused loadout is edited in place while it sits in the cache. `LoadoutManager.PrepareSave` models that aliasing explicitly.
- `getLoadoutCount` with a partly filled cache counts only cached loadouts with items. It can differ from the store's count, and `LoadoutManager.GetLoadoutCount` states both branches as written.

=== FILE: command.dfy ===
/**
 * The state-changing parts of the `/loadout` command: reading a slot
 * argument, the two-step delete confirmation, the save and cancel steps
 * that leave edit mode, applying a slot with `give`, and tab completion.
 * The command arguments arrive as the list after `/loadout`.
 */
module Command {
  import opened Wrappers
  import opened Inventories
  import opened Loadouts
  import Text
  import Seqs
  import EditMode
  import LM = LoadoutManager
  import Db = Database

  const MaxSlots: int := 5

  /** The loadout manager, the edit-mode guard and the delete requests awaiting confirmation. */
  datatype State = State(manager: LM.Manager, guard: EditMode.Guard, pending: map<Uuid, string>)

  /** The slot name of slot number `n`, as `String.valueOf(n)` spells it. */
  function SlotName(n: int): string
  {
    Text.IntToString(n)
  }

  // ---------------------------------------------------------------- slots

  /**
   * A slot argument: accepted iff `Integer.parseInt` reads a number in
   * 1..5; a malformed number and one out of range are both refused.
   */
  function ParseSlot(arg: string): (r: Option<int>)
    ensures r.Some? <==> Text.ParseInt(arg).Some? && 1 <= Text.ParseInt(arg).value <= MaxSlots
    ensures r.Some? ==> r.value == Text.ParseInt(arg).value
  {
    match Text.ParseInt(arg)
    case Some(n) => if 1 <= n <= MaxSlots then Some(n) else None
    case None => None
  }

  /** Every slot number's own name is accepted as the argument naming it. */
  lemma SlotNamesAreAccepted(n: int)
    requires 1 <= n <= MaxSlots
    ensures ParseSlot(SlotName(n)) == Some(n)
  {
    Text.ParseIntToString(n);
  }

  /**
   * Every spelling of a slot argument: an optional plus sign, then one or
   * more ASCII digits, leading zeros allowed, whose value is 1..5. A minus
   * sign, a sign alone, or a value outside 1..5 is refused.
   */
  lemma SpellingsNameOneSlot(arg: string, n: int)
    ensures ParseSlot(arg) == Some(n) <==>
      1 <= n <= MaxSlots &&
      |Text.Unsigned(arg)| > 0 && arg[0] != '-' &&
      Text.AllDigits(Text.Unsigned(arg)) && Text.DigitsValue(Text.Unsigned(arg)) == n
  {
    Text.ParseIntSpellings(arg, n);
  }

  /** The spellings "+3" and "03" name the same slot as the stored slot name "3". */
  lemma SpellingsOfThree()
    ensures ParseSlot("+3") == Some(3) && ParseSlot("03") == Some(3) && SlotName(3) == "3"
  {
    assert Text.AllDigits("3") && Text.AllDigits("03");
    assert Text.DigitsValue("03") == 10 * Text.DigitsValue("0") + 3;
  }

  // --------------------------------------------------------------- delete

  datatype DeleteOutcome =
    | Usage
    | BadSlot
    | AwaitingConfirmation
    | Deleted(ok: bool)

  /**
   * `handleDelete`: without a slot argument, or with one that is not a
   * slot, nothing changes. The first request for a slot records it as
   * pending (replacing a pending request for another slot); repeating the
   * request for the pending slot clears it and deletes the loadout.
   */
  function HandleDelete(st: State, player: Uuid, args: seq<string>, fails: bool): (r: (State, DeleteOutcome))
    requires Db.Valid(st.manager.store)
    ensures |args| < 2 ==> r == (st, Usage)
    ensures |args| >= 2 && ParseSlot(args[1]).None? ==> r == (st, BadSlot)
    ensures |args| >= 2 && ParseSlot(args[1]).Some? ==>
      var name := SlotName(ParseSlot(args[1]).value);
      (player in st.pending && st.pending[player] == name ==>
        var (m, ok) := LM.DeleteLoadout(st.manager, player, name, fails);
        r == (State(m, st.guard, st.pending - {player}), Deleted(ok))) &&
      (player !in st.pending || st.pending[player] != name ==>
        r == (st.(pending := st.pending[player := name]), AwaitingConfirmation))
    ensures Db.Valid(r.0.manager.store) && r.0.guard == st.guard
    ensures forall p :: p != player ==> (p in r.0.pending <==> p in st.pending)
  {
    if |args| < 2 then (st, Usage)
    else match ParseSlot(args[1])
      case None => (st, BadSlot)
      case Some(n) =>
        var name := SlotName(n);
        if player in st.pending && st.pending[player] == name then
          var (m, ok) := LM.DeleteLoadout(st.manager, player, name, fails);
          (State(m, st.guard, st.pending - {player}), Deleted(ok))
        else (st.(pending := st.pending[player := name]), AwaitingConfirmation)
  }

  /**
   * The expiry a delete request schedules: it removes the pending request
   * only if it is still the one for the slot that scheduled it.
   */
  function Expire(pending: map<Uuid, string>, player: Uuid, name: string): (r: map<Uuid, string>)
    ensures player in pending && pending[player] == name ==> r == pending - {player}
    ensures !(player in pending && pending[player] == name) ==> r == pending
  {
    if player in pending && pending[player] == name then pending - {player} else pending
  }

  /** Asking twice for the same slot deletes it: the first request waits, the second deletes. */
  lemma DeleteTwiceDeletes(st: State, player: Uuid, args: seq<string>, fails: bool)
    requires Db.Valid(st.manager.store)
    requires |args| >= 2 && ParseSlot(args[1]).Some?
    requires player !in st.pending
    ensures var (st1, o1) := HandleDelete(st, player, args, fails);
      o1 == AwaitingConfirmation &&
      var (st2, o2) := HandleDelete(st1, player, args, fails);
      o2.Deleted? && player !in st2.pending &&
      (o2.ok <==> !fails && (player, SlotName(ParseSlot(args[1]).value)) in st.manager.store.headers)
  {
  }

  /**
   * A request for another slot replaces the pending one, and the expiry of
   * the first request then leaves the newer request in place; only the
   * newer request's own expiry removes it.
   */
  lemma ExpiryKeepsNewerRequest(pending: map<Uuid, string>, player: Uuid, first: string, second: string)
    requires first != second
    ensures var p := pending[player := first][player := second];
      Expire(p, player, first) == p && player !in Expire(p, player, second)
  {
  }

  /**
   * Once a request has expired, asking for the same slot again only waits
   * for confirmation again: nothing is deleted.
   */
  lemma ExpiredRequestNeedsNewConfirmation(st: State, player: Uuid, args: seq<string>, fails: bool)
    requires Db.Valid(st.manager.store)
    requires |args| >= 2 && ParseSlot(args[1]).Some? && player !in st.pending
    ensures
      var (st1, _) := HandleDelete(st, player, args, fails);
      var expired := st1.(pending := Expire(st1.pending, player, SlotName(ParseSlot(args[1]).value)));
      HandleDelete(expired, player, args, fails).1 == AwaitingConfirmation
  {
  }

  // ---------------------------------------------------------- save, cancel

  datatype SaveOutcome = NotEditing | NoSession | SaveDone(ok: bool)

  /**
   * `handleSave`: refused outside edit mode. Without an edit session edit
   * mode is cancelled. Otherwise the inventory being edited is saved to the
   * session's slot, and then, whether or not the save succeeded, edit mode
   * ends (giving back the backed-up inventory) and the session ends. The
   * asynchronous save is one step here; `fault` says where it fails.
   */
  function HandleSave(st: State, player: Uuid, inv: Contents, now: int, readFails: bool,
                      fault: Option<Db.SaveStep>): (r: (State, Contents, SaveOutcome))
    requires Db.Valid(st.manager.store) && LM.Coherent(st.manager.cache)
    ensures !EditMode.InEditMode(st.guard, player) ==> r == (st, inv, NotEditing)
    ensures EditMode.InEditMode(st.guard, player) && !LM.HasEditSession(st.manager, player) ==>
      r.0 == st.(guard := EditMode.LeaveEditMode(st.guard, player, inv).0) &&
      r.1 == EditMode.LeaveEditMode(st.guard, player, inv).1 && r.2 == NoSession
    ensures EditMode.InEditMode(st.guard, player) && LM.HasEditSession(st.manager, player) ==>
      var name := SlotName(st.manager.sessions[player].editingSlotNumber);
      var saved := LM.SaveCurrentInventory(st.manager, player, name, inv, now, readFails, fault);
      r.2 == SaveDone(saved.ok) &&
      r.0.manager == LM.EndEditSession(saved.manager, player) &&
      (r.0.guard, r.1) == EditMode.LeaveEditMode(st.guard, player, inv)
    ensures Db.Valid(r.0.manager.store) && LM.Coherent(r.0.manager.cache) && r.0.pending == st.pending
    ensures EditMode.InEditMode(st.guard, player) ==>
      !EditMode.InEditMode(r.0.guard, player) && !LM.HasEditSession(r.0.manager, player)
  {
    if !EditMode.InEditMode(st.guard, player) then (st, inv, NotEditing)
    else match LM.GetEditSession(st.manager, player)
      case None =>
        var (g, restored) := EditMode.LeaveEditMode(st.guard, player, inv);
        (st.(guard := g), restored, NoSession)
      case Some(s) =>
        var saved := LM.SaveCurrentInventory(st.manager, player, SlotName(s.editingSlotNumber), inv, now, readFails, fault);
        var (g, restored) := EditMode.LeaveEditMode(st.guard, player, inv);
        (st.(manager := LM.EndEditSession(saved.manager, player), guard := g), restored, SaveDone(saved.ok))
  }

  /**
   * Saving after the confirm step: the player gets back the inventory they
   * had before editing, and the saved loadout holds exactly the edited
   * inventory, filed under the edited slot.
   */
  lemma SaveGivesBackAndKeepsEdits(st: State, player: Uuid, before: Contents, edited: Contents, now: int,
                                  readFails: bool, fault: Option<Db.SaveStep>)
    requires Db.Valid(st.manager.store) && LM.Coherent(st.manager.cache) && LM.HasEditSession(st.manager, player)
    ensures
      var editing := st.(guard := EditMode.StartEditMode(st.guard, player, before).0);
      var (after, inv, outcome) := HandleSave(editing, player, edited, now, readFails, fault);
      var name := SlotName(st.manager.sessions[player].editingSlotNumber);
      var owner := LM.TargetOwner(st.manager, player);
      inv == before && outcome.SaveDone? &&
      (outcome.ok ==> LM.Cached(after.manager.cache, owner, name).Some? &&
                      LM.Cached(after.manager.cache, owner, name).value.finalItems == edited)
  {
    EditMode.StartThenLeaveRestores(st.guard, player, before, edited);
  }

  /** The `-s` argument of `cancel`, in either letter case. */
  predicate Silent(args: seq<string>): (b: bool)
    ensures b ==> |args| >= 2 && |args[1]| == 2
  {
    |args| >= 2 && Text.ToLower(args[1]) == "-s"
  }

  /** Under ASCII case folding, `equalsIgnoreCase("-s")` accepts exactly the two spellings `-s` and `-S`. */
  lemma SilentSpellings(args: seq<string>)
    ensures Silent(args) <==> |args| >= 2 && (args[1] == "-s" || args[1] == "-S")
  {
    if |args| >= 2 && |args[1]| == 2 {
      var a := args[1];
      Text.ToLowerAt(a, 0);
      Text.ToLowerAt(a, 1);
      if Text.ToLower(a) == "-s" {
        assert Text.LowerChar(a[0]) == '-' && Text.LowerChar(a[1]) == 's';
        assert a == [a[0], a[1]];
      }
    }
  }

  /**
   * `handleCancel`: outside edit mode nothing changes, and the player is
   * told so unless the `-s` argument is given. In edit mode, edit mode is
   * cancelled (giving back the backed-up inventory) and the session ends.
   */
  function HandleCancel(st: State, player: Uuid, inv: Contents, args: seq<string>): (r: (State, Contents, bool))
    ensures !EditMode.InEditMode(st.guard, player) ==> r == (st, inv, !Silent(args))
    ensures EditMode.InEditMode(st.guard, player) ==>
      (r.0.guard, r.1) == EditMode.LeaveEditMode(st.guard, player, inv) &&
      r.0.manager == LM.EndEditSession(st.manager, player) && !r.2
    ensures r.0.pending == st.pending && r.0.manager.store == st.manager.store
    ensures !EditMode.InEditMode(r.0.guard, player)
  {
    if !EditMode.InEditMode(st.guard, player) then (st, inv, !Silent(args))
    else
      var (g, restored) := EditMode.LeaveEditMode(st.guard, player, inv);
      (State(LM.EndEditSession(st.manager, player), g, st.pending), restored, false)
  }

  /** Cancelling after the confirm step gives back the inventory held before editing and saves nothing. */
  lemma CancelGivesBack(st: State, player: Uuid, before: Contents, edited: Contents, args: seq<string>)
    ensures
      var editing := st.(guard := EditMode.StartEditMode(st.guard, player, before).0);
      var (after, inv, _) := HandleCancel(editing, player, edited, args);
      inv == before && after.manager.store == st.manager.store && !LM.HasEditSession(after.manager, player)
  {
    EditMode.StartThenLeaveRestores(st.guard, player, before, edited);
  }

  // ----------------------------------------------------------------- give

  datatype GiveOutcome = GiveUsage | GiveBadSlot | Given(applied: bool)

  /** `handleGive`: applies the named slot of the player's own loadouts, if the argument is a slot. */
  function HandleGive(st: State, player: Uuid, inv: Contents, args: seq<string>, now: int, readFails: bool)
    : (r: (State, Contents, GiveOutcome))
    requires Db.Valid(st.manager.store)
    ensures |args| < 2 ==> r == (st, inv, GiveUsage)
    ensures |args| >= 2 && ParseSlot(args[1]).None? ==> r == (st, inv, GiveBadSlot)
    ensures |args| >= 2 && ParseSlot(args[1]).Some? ==>
      var ap := LM.ApplyLoadout(st.manager, player, SlotName(ParseSlot(args[1]).value), inv, now, readFails);
      r == (st.(manager := ap.manager), ap.inventory, Given(ap.applied))
  {
    if |args| < 2 then (st, inv, GiveUsage)
    else match ParseSlot(args[1])
      case None => (st, inv, GiveBadSlot)
      case Some(n) =>
        var ap := LM.ApplyLoadout(st.manager, player, SlotName(n), inv, now, readFails);
        (st.(manager := ap.manager), ap.inventory, Given(ap.applied))
  }

  // ------------------------------------------------------- tab completion

  /** The option passes the filter: its lower-cased form starts with the lower-cased prefix. */
  predicate MatchesPrefix(option: string, prefix: string)
  {
    Text.StartsWith(Text.ToLower(option), Text.ToLower(prefix))
  }

  function Matches(prefix: string): string -> bool
  {
    (option: string) => MatchesPrefix(option, prefix)
  }

  /**
   * `filterStartsWith`: the options whose lower-case form starts with the
   * lower-cased prefix, in their original order.
   */
  method FilterStartsWith(prefix: string, options: seq<string>) returns (result: seq<string>)
    ensures result == Seqs.Filter(options, Matches(prefix))
    ensures forall x :: x in result <==> x in options && MatchesPrefix(x, prefix)
    ensures Seqs.SubsequenceOf(result, options)
  {
    result := [];
    var i := 0;
    while i < |options|
      invariant 0 <= i <= |options|
      invariant result == Seqs.Filter(options[..i], Matches(prefix))
    {
      var option := options[i];
      var keep := MatchesPrefix(option, prefix);
      FilterStep(options, i, prefix, keep);
      if keep {
        result := result + [option];
      }
      i := i + 1;
    }
    assert options[..i] == options;
    Seqs.FilterKeepsOrder(options, Matches(prefix));
  }

  lemma FilterStep(options: seq<string>, i: int, prefix: string, keep: bool)
    requires 0 <= i < |options| && keep == MatchesPrefix(options[i], prefix)
    ensures Seqs.Filter(options[..i + 1], Matches(prefix)) ==
      Seqs.Filter(options[..i], Matches(prefix)) + (if keep then [options[i]] else [])
  {
    assert options[..i + 1] == options[..i] + [options[i]];
    Seqs.FilterAppend(options[..i], [options[i]], Matches(prefix));
    assert Seqs.Filter([options[i]], Matches(prefix)) == (if Matches(prefix)(options[i]) then [options[i]] else []) by {
      assert [options[i]][1..] == [];
    }
  }

  /** The slot numbers offered for completion. */
  const SlotChoices: seq<string> := ["1", "2", "3", "4", "5"]

  /** The subcommands whose second argument is a slot number. */
  const SlotCommands: seq<string> := ["edit", "give", "delete"]

  /**
   * Completion of the second argument: after `edit`, `give` or `delete`
   * (in any letter case) the slot numbers matching what was typed; nothing
   * after any other subcommand.
   */
  method CompleteSlot(subCommand: string, typed: string) returns (choices: seq<string>)
    ensures Text.ToLower(subCommand) in SlotCommands ==> choices == Seqs.Filter(SlotChoices, Matches(typed))
    ensures Text.ToLower(subCommand) !in SlotCommands ==> choices == []
    ensures forall c :: c in choices <==> c in SlotChoices && MatchesPrefix(c, typed) && Text.ToLower(subCommand) in SlotCommands
  {
    var sub := Text.ToLower(subCommand);
    if sub == "edit" || sub == "give" || sub == "delete" {
      choices := FilterStartsWith(typed, SlotChoices);
    } else {
      choices := [];
    }
  }

  /** The permissions the completer consults, one per configured permission node. */
  datatype Permission =
    | UseMenu | EditLoadout | SaveLoadout | CancelLoadout | GiveLoadout
    | ListLoadout | DeleteLoadout | Rename | Reload | Syncwm

  /** Who asks for completions: the console, or a player holding some permissions. */
  datatype Sender = Console | Player(granted: set<Permission>)

  /** The subcommands a permission makes visible. */
  function Unlocks(p: Permission): seq<string>
  {
    match p
    case UseMenu => ["menu", "open"]
    case EditLoadout => ["edit"]
    case SaveLoadout => ["save"]
    case CancelLoadout => ["cancel"]
    case GiveLoadout => ["give"]
    case ListLoadout => ["list"]
    case DeleteLoadout => ["delete"]
    case Rename => ["rename"]
    case Reload => ["reload"]
    case Syncwm => ["syncwm"]
  }

  /** The permissions in the order the completer checks them. */
  const CheckOrder: seq<Permission> :=
    [UseMenu, EditLoadout, SaveLoadout, CancelLoadout, GiveLoadout, ListLoadout, DeleteLoadout, Rename, Reload, Syncwm]

  /** The console's fixed list of first arguments. */
  const ConsoleCommands: seq<string> := ["open", "edit", "reload", "syncwm"]

  /** The subcommands unlocked by the granted permissions, checked in `order`. */
  function Offered(order: seq<Permission>, granted: set<Permission>): seq<string>
  {
    if |order| == 0 then []
    else (if order[0] in granted then Unlocks(order[0]) else []) + Offered(order[1..], granted)
  }

  /** A subcommand is offered iff some checked permission that was granted unlocks it. */
  lemma {:induction false} OfferedMembers(order: seq<Permission>, granted: set<Permission>, c: string)
    ensures c in Offered(order, granted) <==> exists i :: 0 <= i < |order| && order[i] in granted && c in Unlocks(order[i])
  {
    if |order| > 0 {
      OfferedMembers(order[1..], granted, c);
      if c in Offered(order[1..], granted) {
        var i :| 0 <= i < |order[1..]| && order[1..][i] in granted && c in Unlocks(order[1..][i]);
        assert order[i + 1] == order[1..][i];
      }
      if exists i :: 0 <= i < |order| && order[i] in granted && c in Unlocks(order[i]) {
        var i :| 0 <= i < |order| && order[i] in granted && c in Unlocks(order[i]);
        if i > 0 {
          assert order[1..][i - 1] == order[i];
        }
      }
    }
  }

  /** Every permission is checked, so a player sees exactly what their permissions unlock. */
  lemma OfferedToPlayer(granted: set<Permission>, c: string)
    ensures c in Offered(CheckOrder, granted) <==> exists p :: p in granted && c in Unlocks(p)
  {
    OfferedMembers(CheckOrder, granted, c);
    if exists p :: p in granted && c in Unlocks(p) {
      var p :| p in granted && c in Unlocks(p);
      match p
      case UseMenu => assert CheckOrder[0] == p;
      case EditLoadout => assert CheckOrder[1] == p;
      case SaveLoadout => assert CheckOrder[2] == p;
      case CancelLoadout => assert CheckOrder[3] == p;
      case GiveLoadout => assert CheckOrder[4] == p;
      case ListLoadout => assert CheckOrder[5] == p;
      case DeleteLoadout => assert CheckOrder[6] == p;
      case Rename => assert CheckOrder[7] == p;
      case Reload => assert CheckOrder[8] == p;
      case Syncwm => assert CheckOrder[9] == p;
    }
  }

  /**
   * `onTabComplete`: the console completes only the first argument, from a
   * fixed list; a player completes the first argument from the subcommands
   * their permissions unlock and the second from the slot numbers; every
   * other position gets nothing.
   */
  method TabComplete(sender: Sender, args: seq<string>) returns (choices: seq<string>)
    ensures sender.Console? && |args| == 1 ==> choices == Seqs.Filter(ConsoleCommands, Matches(args[0]))
    ensures sender.Player? && |args| == 1 ==> choices == Seqs.Filter(Offered(CheckOrder, sender.granted), Matches(args[0]))
    ensures sender.Player? && |args| == 1 ==>
      forall c :: c in choices <==> (exists p :: p in sender.granted && c in Unlocks(p)) && MatchesPrefix(c, args[0])
    ensures sender.Player? && |args| == 2 && Text.ToLower(args[0]) in SlotCommands ==>
      choices == Seqs.Filter(SlotChoices, Matches(args[1]))
    ensures sender.Console? && |args| != 1 ==> choices == []
    ensures sender.Player? && |args| == 2 && Text.ToLower(args[0]) !in SlotCommands ==> choices == []
    ensures |args| == 0 || |args| > 2 ==> choices == []
  {
    if sender.Console? {
      if |args| == 1 {
        choices := FilterStartsWith(args[0], ConsoleCommands);
      } else {
        choices := [];
      }
      return;
    }
    if |args| == 1 {
      choices := FilterStartsWith(args[0], Offered(CheckOrder, sender.granted));
      forall c ensures c in choices <==> (exists p :: p in sender.granted && c in Unlocks(p)) && MatchesPrefix(c, args[0]) {
        OfferedToPlayer(sender.granted, c);
      }
    } else if |args| == 2 {
      choices := CompleteSlot(args[0], args[1]);
    } else {
      choices := [];
    }
  }

  /** Every offered slot completion is an argument the slot commands accept. */
  lemma CompletionsAreSlots(c: string)
    requires c in SlotChoices
    ensures ParseSlot(c).Some?
  {
    var k :| 0 <= k < |SlotChoices| && SlotChoices[k] == c;
    SlotNamesAreAccepted(k + 1);
    assert SlotName(k + 1) == c;
  }

  /** With nothing typed yet, all five slots are offered. */
  lemma EmptyPrefixOffersEverySlot()
    ensures Seqs.Filter(SlotChoices, Matches("")) == SlotChoices
  {
    forall x | x in SlotChoices ensures Matches("")(x) {
      assert Text.ToLower("") == "";
    }
    assert Seqs.Filter(SlotChoices, Matches("")) == SlotChoices by {
      FilterAll(SlotChoices, Matches(""));
    }
  }

  lemma {:induction false} FilterAll(s: seq<string>, keep: string -> bool)
    requires forall i :: 0 <= i < |s| ==> keep(s[i])
    ensures Seqs.Filter(s, keep) == s
    decreases |s|
  {
    if |s| > 0 {
      FilterAll(s[1..], keep);
    }
  }
}

=== FILE: config.dfy ===
/**
 * The plugin's settings as far as the core reads them: ammo multipliers and
 * item amounts with their defaults, messages with placeholder substitution,
 * the equipment slots and the custom items. Reading the YAML file itself is
 * outside the model; a configuration section arrives as a map from key to
 * its value, `None` where the value is not an integer.
 */
module Config {
  import opened Wrappers
  import Text
  import Seqs

  const DefaultKey: string := "default"
  const MultiplierFallback: int := 4
  const ItemAmountFallback: int := 1

  datatype SlotConfig = SlotConfig(key: string, displayName: string, allowedCategories: seq<string>)

  /** A custom item; `material` is the name of the item type it is made of. */
  datatype CustomItemConfig = CustomItemConfig(key: string, slotType: string, displayName: string, material: string, amount: int)

  datatype Settings = Settings(
    ammoMultipliers: map<string, int>,
    defaultAmmoMultiplier: int,
    itemAmounts: map<string, int>,
    defaultItemAmount: int,
    slots: map<string, SlotConfig>,
    /** The custom items in the order the map hands out its values. */
    customItems: seq<CustomItemConfig>,
    messages: map<string, string>,
    itemsPerPage: int)

  /** The fields as a fresh `LoadoutsConfig` holds them before its first reload. */
  function Unloaded(): (c: Settings)
    ensures c.defaultAmmoMultiplier == 0 && c.defaultItemAmount == 0
  {
    Settings(map[], 0, map[], 0, map[], [], map[], 0)
  }

  /**
   * One numeric section of `reload()`: every key but "default" goes into the
   * map (a non-integer value reads as `fallback`); the "default" key, when
   * present, replaces the previous default, which otherwise survives the
   * reload; a default of 0 finally becomes `fallback`.
   */
  function ReadSection(section: Option<map<string, Option<int>>>, previousDefault: int, fallback: int)
    : (r: (map<string, int>, int))
    requires fallback != 0
    ensures DefaultKey !in r.0
    ensures section.None? ==> r.0 == map[]
    ensures section.Some? ==> r.0.Keys == section.value.Keys - {DefaultKey}
    ensures section.Some? ==> forall k :: k in r.0 ==> r.0[k] == section.value[k].GetOr(fallback)
    ensures r.1 != 0
    ensures section.Some? && DefaultKey in section.value && section.value[DefaultKey].GetOr(fallback) != 0 ==>
      r.1 == section.value[DefaultKey].GetOr(fallback)
    ensures (section.None? || DefaultKey !in section.value) && previousDefault != 0 ==> r.1 == previousDefault
  {
    var entries := if section.Some? then map k | k in section.value && k != DefaultKey :: section.value[k].GetOr(fallback) else map[];
    var d := if section.Some? && DefaultKey in section.value then section.value[DefaultKey].GetOr(fallback) else previousDefault;
    (entries, if d == 0 then fallback else d)
  }

  /** The parts of the configuration file `reload()` reads for the core. */
  datatype ConfigFile = ConfigFile(
    ammoSection: Option<map<string, Option<int>>>,
    itemAmountSection: Option<map<string, Option<int>>>,
    slots: map<string, SlotConfig>,
    customItems: seq<CustomItemConfig>,
    messages: map<string, string>,
    itemsPerPage: Option<int>)

  /** `reload()`: replaces every map; only the two defaults carry over from the previous settings. */
  function Reload(c: Settings, file: ConfigFile): (r: Settings)
    ensures DefaultKey !in r.ammoMultipliers && DefaultKey !in r.itemAmounts
    ensures r.defaultAmmoMultiplier != 0 && r.defaultItemAmount != 0
    ensures (r.ammoMultipliers, r.defaultAmmoMultiplier) == ReadSection(file.ammoSection, c.defaultAmmoMultiplier, MultiplierFallback)
    ensures (r.itemAmounts, r.defaultItemAmount) == ReadSection(file.itemAmountSection, c.defaultItemAmount, ItemAmountFallback)
    ensures r.slots == file.slots && r.customItems == file.customItems && r.messages == file.messages
    ensures r.itemsPerPage == file.itemsPerPage.GetOr(45)
  {
    var (multipliers, defaultMultiplier) := ReadSection(file.ammoSection, c.defaultAmmoMultiplier, MultiplierFallback);
    var (amounts, defaultAmount) := ReadSection(file.itemAmountSection, c.defaultItemAmount, ItemAmountFallback);
    Settings(multipliers, defaultMultiplier, amounts, defaultAmount, file.slots, file.customItems, file.messages,
             file.itemsPerPage.GetOr(45))
  }

  /** The section gives "default" the integer `d`. */
  predicate SetsDefault(section: Option<map<string, Option<int>>>, d: int)
  {
    section.Some? && DefaultKey in section.value && section.value[DefaultKey] == Some(d)
  }

  predicate DropsDefault(section: Option<map<string, Option<int>>>)
  {
    section.None? || DefaultKey !in section.value
  }

  /**
   * A reload whose file drops the "default" key keeps the non-zero default
   * read by the previous reload rather than going back to the built-in 4
   * (ammo multiplier) or 1 (item amount).
   */
  lemma StaleDefaultSurvivesReload(c: Settings, first: ConfigFile, second: ConfigFile, d: int, e: int)
    ensures SetsDefault(first.ammoSection, d) && d != 0 && DropsDefault(second.ammoSection) ==>
      Reload(Reload(c, first), second).defaultAmmoMultiplier == d
    ensures SetsDefault(first.itemAmountSection, e) && e != 0 && DropsDefault(second.itemAmountSection) ==>
      Reload(Reload(c, first), second).defaultItemAmount == e
  {
  }

  /** `getAmmoMultiplier(category)`: the category's multiplier if configured, else the default. */
  function AmmoMultiplier(c: Settings, category: string): (m: int)
    ensures category in c.ammoMultipliers ==> m == c.ammoMultipliers[category]
    ensures category !in c.ammoMultipliers ==> m == c.defaultAmmoMultiplier
  {
    Get(c.ammoMultipliers, category).GetOr(c.defaultAmmoMultiplier)
  }

  /**
   * `getItemAmount(weaponTitle, category)`: a weapon-specific amount wins,
   * then the category's (only when there is a category), then the default.
   */
  function ItemAmount(c: Settings, weaponTitle: string, category: Option<string>): (n: int)
    ensures weaponTitle in c.itemAmounts ==> n == c.itemAmounts[weaponTitle]
    ensures weaponTitle !in c.itemAmounts && category.Some? && category.value in c.itemAmounts ==>
      n == c.itemAmounts[category.value]
    ensures weaponTitle !in c.itemAmounts && (category.None? || category.value !in c.itemAmounts) ==>
      n == c.defaultItemAmount
  {
    if weaponTitle in c.itemAmounts then c.itemAmounts[weaponTitle]
    else if category.Some? && category.value in c.itemAmounts then c.itemAmounts[category.value]
    else c.defaultItemAmount
  }

  /** After a reload, every configured amount lookup answers with a non-zero default when nothing matches. */
  lemma ReloadedLookupsAreNonZeroDefaults(c: Settings, file: ConfigFile, category: string, weaponTitle: string)
    ensures var r := Reload(c, file);
      (category !in r.ammoMultipliers ==> AmmoMultiplier(r, category) != 0) &&
      (weaponTitle !in r.itemAmounts ==> ItemAmount(r, weaponTitle, None) != 0)
  {
  }

  /** `getMessage(key)`: the "prefix" message followed by the key's message, or by the key itself when there is none. */
  function Message(c: Settings, key: string): (text: string)
    ensures var prefix := Get(c.messages, "prefix").GetOr("");
      Text.StartsWith(text, prefix) &&
      text[|prefix|..] == (if key in c.messages then c.messages[key] else key)
  {
    var prefix := Get(c.messages, "prefix").GetOr("");
    var body := Get(c.messages, key).GetOr(key);
    assert (prefix + body)[..|prefix|] == prefix;
    assert (prefix + body)[|prefix|..] == body;
    prefix + body
  }

  /** `"%" + key + "%"`. */
  function Placeholder(key: string): (p: string)
    ensures |p| == |key| + 2 && p[0] == '%' && p[|p| - 1] == '%'
  {
    "%" + key + "%"
  }

  /** Replaces every `%key%` by its value, one placeholder after the other in the order given. */
  function Substitute(text: string, placeholders: seq<(string, string)>): string
    decreases |placeholders|
  {
    if |placeholders| == 0 then text
    else
      var (k, v) := placeholders[0];
      Substitute(Text.ReplaceAll(text, Placeholder(k), v), placeholders[1..])
  }

  /** `getMessage(key, placeholders)`. */
  function MessageWith(c: Settings, key: string, placeholders: seq<(string, string)>): (text: string)
    ensures |placeholders| == 0 ==> text == Message(c, key)
  {
    Substitute(Message(c, key), placeholders)
  }

  /**
   * With a single placeholder, the message is cut at every `%key%`, no
   * piece still holds one, and the pieces are glued back with the value;
   * text without the placeholder is unchanged.
   */
  lemma SubstituteOne(text: string, key: string, value: string)
    ensures Substitute(text, [(key, value)]) == Text.Join(Text.Pieces(text, Placeholder(key)), value)
    ensures Text.Join(Text.Pieces(text, Placeholder(key)), Placeholder(key)) == text
    ensures forall k :: 0 <= k < |Text.Pieces(text, Placeholder(key))| ==>
      !Text.Occurs(Text.Pieces(text, Placeholder(key))[k], Placeholder(key))
    ensures !Text.Occurs(text, Placeholder(key)) ==> Substitute(text, [(key, value)]) == text
  {
    Text.ReplaceAllReplacesEveryOccurrence(text, Placeholder(key), value);
    if !Text.Occurs(text, Placeholder(key)) {
      Text.ReplaceAllWithoutOccurrence(text, Placeholder(key), value);
    }
  }

  /** `getCustomItemsForSlot(slotType)`: the custom items of that slot type, in map order. */
  function CustomItemsForSlot(c: Settings, slotType: string): (items: seq<CustomItemConfig>)
    ensures forall i :: i in items <==> i in c.customItems && i.slotType == slotType
  {
    Seqs.Filter(c.customItems, OfSlotType(slotType))
  }

  function OfSlotType(slotType: string): CustomItemConfig -> bool
  {
    (i: CustomItemConfig) => i.slotType == slotType
  }

  /**
   * `getCustomItems().get(id)`: the custom item configured under `id`, the
   * first in map order (keys of a map are distinct), or nothing.
   */
  function CustomItemNamed(items: seq<CustomItemConfig>, id: string): (r: Option<CustomItemConfig>)
    ensures r.Some? ==> r.value in items && r.value.key == id
    ensures r.None? <==> forall i :: 0 <= i < |items| ==> items[i].key != id
    ensures r.Some? ==> exists k :: 0 <= k < |items| && items[k] == r.value && forall j :: 0 <= j < k ==> items[j].key != id
  {
    if |items| == 0 then None
    else if items[0].key == id then Some(items[0])
    else
      var r := CustomItemNamed(items[1..], id);
      assert forall i :: 1 <= i < |items| ==> items[i] == items[1..][i - 1];
      if r.Some? then
        var k :| 0 <= k < |items[1..]| && items[1..][k] == r.value && forall j :: 0 <= j < k ==> items[1..][j].key != id;
        assert items[k + 1] == r.value;
        r
      else r
  }

  /** The first `i` custom items are all made of something other than `material`. */
  predicate NoneOfMaterialBefore(items: seq<CustomItemConfig>, material: string, i: int)
    requires 0 <= i <= |items|
  {
    forall k :: 0 <= k < i ==> items[k].material != material
  }

  /**
   * `getCustomItemIdFromItem`: the key of the first custom item, in the
   * order the map hands out its entries, made of the clicked item's
   * material, whatever its slot type; nothing when no custom item matches.
   */
  function CustomItemIdFor(items: seq<CustomItemConfig>, material: string): (r: Option<string>)
    ensures r.None? <==> NoneOfMaterialBefore(items, material, |items|)
    ensures r.Some? ==>
      exists i :: 0 <= i < |items| && items[i].material == material && items[i].key == r.value &&
        NoneOfMaterialBefore(items, material, i)
  {
    if |items| == 0 then None
    else if items[0].material == material then
      assert NoneOfMaterialBefore(items, material, 0);
      Some(items[0].key)
    else
      var r := CustomItemIdFor(items[1..], material);
      if r.Some? then
        var i :| 0 <= i < |items[1..]| && items[1..][i].material == material && items[1..][i].key == r.value &&
          NoneOfMaterialBefore(items[1..], material, i);
        assert items[i + 1] == items[1..][i];
        assert NoneOfMaterialBefore(items, material, i + 1) by {
          forall k | 0 <= k < i + 1
            ensures items[k].material != material
          {
            if k > 0 {
              assert items[k] == items[1..][k - 1];
            }
          }
        }
        r
      else
        assert NoneOfMaterialBefore(items, material, |items|) by {
          forall k | 0 <= k < |items|
            ensures items[k].material != material
          {
            if k > 0 {
              assert items[k] == items[1..][k - 1];
            }
          }
        }
        r
  }

  /**
   * The custom items of a slot type keep the order of the configuration and
   * each occurs as often as it is configured.
   */
  lemma CustomItemsForSlotOrder(c: Settings, slotType: string, item: CustomItemConfig)
    ensures Seqs.SubsequenceOf(CustomItemsForSlot(c, slotType), c.customItems)
    ensures multiset(CustomItemsForSlot(c, slotType))[item] ==
      (if item.slotType == slotType then multiset(c.customItems)[item] else 0)
  {
    Seqs.FilterKeepsOrder(c.customItems, OfSlotType(slotType));
    Seqs.FilterMultiplicity(c.customItems, OfSlotType(slotType), item);
  }
}

=== FILE: database.dfy ===
/**
 * The relational store behind the plugin, reduced to its logical content.
 * `loadouts` is a map keyed by its unique key (owner, name); the two child
 * tables are maps from a loadout id to that loadout's rows, keyed by slot
 * type and by slot index, so the unique keys (loadout id, slot type) and
 * (loadout id, slot index) hold by construction. The foreign keys from the
 * child tables to `loadouts.id`, with ON DELETE CASCADE, are enforced as a
 * transactional engine does. A statement that fails for reasons outside
 * the data (a lost connection, a full disk, an item that cannot be
 * serialised) is named by the `fault` or `fails` parameter of the
 * operation it interrupts.
 */
module Database {
  import opened Wrappers
  import opened Inventories
  import opened LoadoutSlots
  import opened Loadouts

  /** A row of `loadouts`, found under its (owner, name) key. */
  datatype Header = Header(id: int, createdAt: int, updatedAt: int)

  /** A stored item: serialised bytes that decode back, or bytes that no longer do. */
  datatype Blob = Encoded(item: Item) | Unreadable

  datatype Store = Store(
    headers: map<(Uuid, string), Header>,
    slotRows: map<int, map<string, SlotAssignment>>,
    itemRows: map<int, map<int, Blob>>,
    nextId: int)

  /** An operation that either completes or raises an `SQLException`. */
  datatype Fallible<T> = Done(value: T) | SqlError

  /** The statements of one save, in the order they are issued. */
  datatype SaveStep = HeaderWrite | ClearRows | SlotBatch | ItemBatch | Commit

  function Serialize(item: Item): Blob
  {
    Encoded(item)
  }

  /** Reading a blob back; `None` is the `IOException` case. */
  function Deserialize(b: Blob): (r: Option<Item>)
    ensures forall item :: b == Serialize(item) ==> r == Some(item)
    ensures b.Unreadable? ==> r.None?
  {
    if b.Encoded? then Some(b.item) else None
  }

  /** The ids of all header rows. */
  function Ids(s: Store): set<int>
  {
    set key | key in s.headers :: s.headers[key].id
  }

  /**
   * What the schema and the engine guarantee of every committed state:
   * ids are positive, distinct and below the auto-increment counter; every
   * child row points at an existing header; a slot row is filed under its
   * own slot type; item indices are not negative.
   */
  predicate Valid(s: Store)
  {
    HeadersValid(s) && ChildrenValid(s)
  }

  predicate HeadersValid(s: Store)
  {
    0 < s.nextId &&
    (forall key :: key in s.headers ==> 0 < s.headers[key].id < s.nextId) &&
    (forall k1, k2 :: k1 in s.headers && k2 in s.headers && k1 != k2 ==> s.headers[k1].id != s.headers[k2].id)
  }

  predicate ChildrenValid(s: Store)
  {
    (forall id :: id in s.slotRows ==> id in Ids(s) && WellKeyed(s.slotRows[id])) &&
    (forall id :: id in s.itemRows ==> id in Ids(s) && NonNegativeKeys(s.itemRows[id]))
  }

  predicate NonNegativeKeys(rows: map<int, Blob>)
  {
    forall i :: i in rows ==> i >= 0
  }

  function EmptyStore(): (s: Store)
    ensures Valid(s)
    ensures forall owner, name :: Get(s, owner, name, 0, false) == Done(None)
  {
    Store(map[], map[], map[], 1)
  }

  /** Files `rows` under `id`, leaving no entry for a loadout without rows. */
  function PutRows<K, V>(m: map<int, map<K, V>>, id: int, rows: map<K, V>): (r: map<int, map<K, V>>)
    ensures id in r <==> rows != map[]
    ensures id in r ==> r[id] == rows
    ensures r - {id} == m - {id}
  {
    if rows == map[] then m - {id} else m[id := rows]
  }

  // ---------------------------------------------------------------- reading

  /** The slot rows of loadout `id`, keyed by slot type (`loadSlots`). */
  function SlotsOf(s: Store, id: int): (slots: map<string, SlotAssignment>)
    ensures id !in s.slotRows ==> slots == map[]
  {
    if id in s.slotRows then s.slotRows[id] else map[]
  }

  /** The item rows of loadout `id`, keyed by slot index. */
  function ItemRowsOf(s: Store, id: int): (rows: map<int, Blob>)
    ensures id !in s.itemRows ==> rows == map[]
  {
    if id in s.itemRows then s.itemRows[id] else map[]
  }

  /** `m` is the largest element of `ks`. */
  predicate IsMax(m: int, ks: set<int>)
  {
    m in ks && forall k :: k in ks ==> k <= m
  }

  lemma {:induction false} MaxExists(ks: set<int>)
    requires ks != {}
    ensures exists m :: IsMax(m, ks)
    decreases |ks|
  {
    if forall k :: k !in ks {
      assert false;
    }
    var x :| x in ks;
    var rest := ks - {x};
    if rest == {} {
      assert ks == {x};
      assert IsMax(x, ks);
    } else {
      MaxExists(rest);
      var m :| IsMax(m, rest);
      assert forall k :: k in ks ==> k == x || k in rest;
      if x <= m {
        assert IsMax(m, ks);
      } else {
        assert IsMax(x, ks);
      }
    }
  }

  /** The largest key, or -1 for no keys. */
  function MaxKey(ks: set<int>): (m: int)
    ensures ks == {} ==> m == -1
    ensures ks != {} ==> m in ks && forall k :: k in ks ==> k <= m
  {
    if ks == {} then -1
    else
      MaxExists(ks);
      var m :| IsMax(m, ks);
      m
  }

  /**
   * The final-item list rebuilt from item rows (`loadItems`): long enough
   * for the largest stored index, empty wherever no row exists or the blob
   * does not decode.
   */
  function Hydrate(rows: map<int, Blob>): (items: seq<Option<Item>>)
    requires NonNegativeKeys(rows)
    ensures rows == map[] ==> items == []
    ensures forall i :: i in rows ==> i < |items| && items[i] == Deserialize(rows[i])
    ensures forall j :: 0 <= j < |items| && j !in rows ==> items[j].None?
    ensures |items| > 0 ==> |items| - 1 in rows
  {
    var n := MaxKey(rows.Keys) + 1;
    seq(n, j requires 0 <= j < n => if j in rows then Deserialize(rows[j]) else None)
  }

  /**
   * `getLoadout(owner, name)`: the header filed under (owner, name) with its
   * slot and item rows, or nothing. Rebuilding a slot or a non-empty item
   * list goes through `setSlot`/`setFinalItems`, which stamp the clock
   * reading `now` as the update time. `fails` is an error raised by any of
   * the three queries.
   */
  function Get(s: Store, owner: Uuid, name: string, now: int, fails: bool): (r: Fallible<Option<Loadout>>)
    requires Valid(s)
    ensures fails <==> r.SqlError?
    ensures r.Done? ==> (r.value.Some? <==> (owner, name) in s.headers)
    ensures r.Done? && r.value.Some? ==>
      var l := r.value.value;
      var h := s.headers[(owner, name)];
      l.id == h.id && IsSaved(l) && l.owner == owner && l.name == name && l.createdAt == h.createdAt &&
      l.slots == SlotsOf(s, h.id) && WellKeyed(l.slots) && l.attachments == map[] &&
      l.finalItems == Hydrate(ItemRowsOf(s, h.id)) &&
      l.updatedAt == (if |l.slots| > 0 || |l.finalItems| > 0 then now else h.updatedAt)
  {
    if fails then SqlError
    else if (owner, name) !in s.headers then Done(None)
    else
      var h := s.headers[(owner, name)];
      var slots := SlotsOf(s, h.id);
      var items := Hydrate(ItemRowsOf(s, h.id));
      var l := StoredLoadout(h.id, owner, name, h.createdAt, h.updatedAt);
      var l1 := if |slots| > 0 then l.(slots := slots, updatedAt := now) else l;
      var l2 := if |items| > 0 then SetFinalItems(l1, items, now) else l1;
      Done(Some(l2))
  }

  /** The (owner, name) keys of the header rows filed under `owner`. */
  function OwnerKeys(s: Store, owner: Uuid): set<(Uuid, string)>
  {
    set key | key in s.headers && key.0 == owner
  }

  /** `getLoadoutCount(owner)`: the number of header rows of that owner. */
  function Count(s: Store, owner: Uuid, fails: bool): (r: Fallible<nat>)
    ensures fails <==> r.SqlError?
    ensures r.Done? ==> r.value == |OwnerKeys(s, owner)|
  {
    if fails then SqlError else Done(|OwnerKeys(s, owner)|)
  }

  // --------------------------------------------------------------- deleting

  /**
   * `deleteLoadout(owner, name)`: removes the header, and with it its slot
   * and item rows; reports whether a header row was removed.
   */
  function Delete(s: Store, owner: Uuid, name: string, fails: bool): (r: Fallible<(Store, bool)>)
    requires Valid(s)
    ensures fails <==> r.SqlError?
    ensures r.Done? ==> (r.value.1 <==> (owner, name) in s.headers)
    ensures r.Done? ==> Valid(r.value.0)
    ensures r.Done? ==> (owner, name) !in r.value.0.headers
    ensures r.Done? ==> forall key :: key != (owner, name) ==>
      (key in r.value.0.headers <==> key in s.headers) &&
      (key in s.headers ==> r.value.0.headers[key] == s.headers[key])
    ensures r.Done? && r.value.1 ==>
      var id := s.headers[(owner, name)].id;
      id !in r.value.0.slotRows && id !in r.value.0.itemRows
  {
    if fails then SqlError
    else if (owner, name) !in s.headers then Done((s, false))
    else
      var id := s.headers[(owner, name)].id;
      var r := Store(s.headers - {(owner, name)}, s.slotRows - {id}, s.itemRows - {id}, s.nextId);
      assert ChildrenValid(r) by {
        forall other | other in r.slotRows || other in r.itemRows ensures other in Ids(r) {
          var key :| key in s.headers && s.headers[key].id == other;
          assert key in r.headers;
        }
      }
      Done((r, true))
  }

  // ----------------------------------------------------------------- saving

  /** The result of `saveLoadout`: the store after commit or rollback, and the loadout object afterwards. */
  datatype SaveOutcome = SaveOutcome(store: Store, loadout: Loadout, committed: bool)

  /** Two entries of the slot map whose assignments name the same slot type. */
  predicate DuplicateSlotTypes(slots: map<string, SlotAssignment>)
  {
    exists k1, k2 :: k1 in slots && k2 in slots && k1 != k2 && slots[k1].slotType == slots[k2].slotType
  }

  predicate HasNonEmpty(items: seq<Option<Item>>)
  {
    exists i :: 0 <= i < |items| && items[i].Some?
  }

  /** Whether the statement `step` is issued at all for this loadout. */
  predicate Reached(step: SaveStep, l: Loadout)
  {
    step != ItemBatch || HasFinalItems(l)
  }

  /**
   * The data conditions under which every statement of a save succeeds:
   * no two slot rows collide on (id, slot type), and a loadout that claims
   * an id only writes child rows when a header with that id exists.
   */
  predicate Insertable(s: Store, l: Loadout)
  {
    !DuplicateSlotTypes(l.slots) &&
    (IsSaved(l) && l.id !in Ids(s) ==> |l.slots| == 0 && !HasNonEmpty(l.finalItems))
  }

  /** The slot rows a loadout writes: its assignments, each filed under its own slot type. */
  function SlotRowsFor(slots: map<string, SlotAssignment>): (rows: map<string, SlotAssignment>)
    requires !DuplicateSlotTypes(slots)
    ensures WellKeyed(rows)
    ensures forall k :: k in slots ==> slots[k].slotType in rows && rows[slots[k].slotType] == slots[k]
    ensures forall t :: t in rows ==> exists k :: k in slots && slots[k] == rows[t]
    ensures rows == map[] <==> slots == map[]
  {
    var rows := map k | k in slots :: slots[k].slotType := slots[k];
    assert slots != map[] ==> rows != map[] by {
      if slots != map[] {
        var k :| k in slots;
        assert slots[k].slotType in rows;
      }
    }
    rows
  }

  /** The item rows a loadout writes: its non-empty positions, serialised. */
  function Positions(items: seq<Option<Item>>): (rows: map<int, Blob>)
    ensures NonNegativeKeys(rows)
    ensures forall i :: i in rows <==> 0 <= i < |items| && items[i].Some?
    ensures forall i :: i in rows ==> rows[i] == Serialize(items[i].value)
    ensures rows == map[] <==> !HasNonEmpty(items)
  {
    var rows := map i | 0 <= i < |items| && items[i].Some? :: Serialize(items[i].value);
    assert HasNonEmpty(items) ==> rows != map[] by {
      if HasNonEmpty(items) {
        var i :| 0 <= i < |items| && items[i].Some?;
        assert i in rows;
      }
    }
    rows
  }

  /** `UPDATE loadouts SET updated_at = ? WHERE id = ?`: zero or one row changes. */
  function TouchById(headers: map<(Uuid, string), Header>, id: int, updatedAt: int): (r: map<(Uuid, string), Header>)
    ensures r.Keys == headers.Keys
    ensures forall key :: key in headers ==>
      r[key] == (if headers[key].id == id then headers[key].(updatedAt := updatedAt) else headers[key])
  {
    map key | key in headers :: if headers[key].id == id then headers[key].(updatedAt := updatedAt) else headers[key]
  }

  /** Child rows stay valid under a header change that keeps every existing header's id. */
  lemma ChildrenKept(s: Store, r: Store)
    requires ChildrenValid(s)
    requires r.slotRows == s.slotRows && r.itemRows == s.itemRows
    requires forall key :: key in s.headers ==> key in r.headers && r.headers[key].id == s.headers[key].id
    ensures Ids(s) <= Ids(r)
    ensures ChildrenValid(r)
  {
    forall id | id in Ids(s) ensures id in Ids(r) {
      var k :| k in s.headers && s.headers[k].id == id;
      assert r.headers[k].id == id;
    }
  }

  /**
   * The header statement of `saveLoadout`: a saved loadout rewrites the
   * update time of its own row; any other loadout is upserted on (owner,
   * name), keeping an existing row's id and creation time, or taking the
   * next auto-increment id. Yields the new store and the id to use.
   */
  function WriteHeader(s: Store, l: Loadout): (r: (Store, int))
    requires Valid(s)
    ensures Valid(r.0)
    ensures r.0.slotRows == s.slotRows && r.0.itemRows == s.itemRows
    ensures r.0.headers.Keys == if IsSaved(l) then s.headers.Keys else s.headers.Keys + {(l.owner, l.name)}
    ensures IsSaved(l) ==> r.1 == l.id && r.0.nextId == s.nextId && r.0.headers == TouchById(s.headers, l.id, l.updatedAt)
    ensures IsSaved(l) ==> (r.1 in Ids(r.0) <==> r.1 in Ids(s))
    ensures !IsSaved(l) ==> (l.owner, l.name) in r.0.headers && r.0.headers[(l.owner, l.name)].id == r.1 && r.1 in Ids(r.0)
    ensures !IsSaved(l) && (l.owner, l.name) in s.headers ==>
      r.0.headers == s.headers[(l.owner, l.name) := s.headers[(l.owner, l.name)].(updatedAt := l.updatedAt)] &&
      r.0.nextId == s.nextId
    ensures !IsSaved(l) && (l.owner, l.name) !in s.headers ==>
      r.0.headers == s.headers[(l.owner, l.name) := Header(s.nextId, l.createdAt, l.updatedAt)] &&
      r.0.nextId == s.nextId + 1
  {
    var key := (l.owner, l.name);
    if IsSaved(l) then
      var r := s.(headers := TouchById(s.headers, l.id, l.updatedAt));
      ChildrenKept(s, r);
      ChildrenKept(r, s);
      (r, l.id)
    else if key in s.headers then
      var h := s.headers[key];
      var r := s.(headers := s.headers[key := h.(updatedAt := l.updatedAt)]);
      ChildrenKept(s, r);
      (r, h.id)
    else
      var r := s.(headers := s.headers[key := Header(s.nextId, l.createdAt, l.updatedAt)], nextId := s.nextId + 1);
      ChildrenKept(s, r);
      (r, s.nextId)
  }

  /** The child rows of every loadout other than `id` are the same in `s` and `t`. */
  predicate OthersUnchanged(s: Store, t: Store, id: int)
  {
    t.slotRows - {id} == s.slotRows - {id} && t.itemRows - {id} == s.itemRows - {id}
  }

  /**
   * The child-row statements of a committed save: every slot and item row
   * of loadout `id` is deleted, then one slot row per assignment and one
   * item row per non-empty position are inserted.
   */
  function ReplaceChildren(s: Store, id: int, slots: map<string, SlotAssignment>, items: seq<Option<Item>>): (r: Store)
    requires Valid(s) && !DuplicateSlotTypes(slots)
    requires slots != map[] || HasNonEmpty(items) ==> id in Ids(s)
    ensures Valid(r)
    ensures r.headers == s.headers && r.nextId == s.nextId
    ensures SlotsOf(r, id) == SlotRowsFor(slots)
    ensures ItemRowsOf(r, id) == Positions(items)
    ensures OthersUnchanged(s, r, id)
  {
    var r := s.(slotRows := PutRows(s.slotRows, id, SlotRowsFor(slots)),
                itemRows := PutRows(s.itemRows, id, Positions(items)));
    RowsReplacedValid(s, r, id);
    r
  }

  /** Replacing the child rows of one existing loadout with valid rows keeps the store valid. */
  lemma RowsReplacedValid(s: Store, r: Store, id: int)
    requires Valid(s) && r.headers == s.headers && r.nextId == s.nextId
    requires OthersUnchanged(s, r, id)
    requires id in r.slotRows ==> id in Ids(s) && WellKeyed(r.slotRows[id])
    requires id in r.itemRows ==> id in Ids(s) && NonNegativeKeys(r.itemRows[id])
    ensures Valid(r)
  {
    assert Ids(r) == Ids(s);
    forall k | k in r.slotRows && k != id ensures k in s.slotRows && r.slotRows[k] == s.slotRows[k] {
      assert k in r.slotRows - {id};
    }
    forall k | k in r.itemRows && k != id ensures k in s.itemRows && r.itemRows[k] == s.itemRows[k] {
      assert k in r.itemRows - {id};
    }
  }

  /**
   * `saveLoadout(l)` as one transaction: write the header, delete the old
   * slot and item rows, insert one slot row per assignment, insert one
   * item row per non-empty position when there are final items, commit.
   * Any failing statement rolls every table back; the auto-increment
   * counter is not rolled back, and the loadout keeps the id assigned
   * before the failure, as the Java object does.
   */
  function Save(s: Store, l: Loadout, fault: Option<SaveStep>): (r: SaveOutcome)
    requires Valid(s)
    ensures Valid(r.store)
    ensures r.committed <==> (fault.None? || !Reached(fault.value, l)) && Insertable(s, l)
    ensures !r.committed ==> r.store.headers == s.headers && r.store.slotRows == s.slotRows && r.store.itemRows == s.itemRows
    ensures fault == Some(HeaderWrite) || IsSaved(l) ==> r.loadout == l
    ensures fault != Some(HeaderWrite) && !IsSaved(l) ==> r.loadout == SetId(l, r.loadout.id) && IsSaved(r.loadout)
    ensures r.committed && !IsSaved(l) ==>
      (l.owner, l.name) in r.store.headers && r.store.headers[(l.owner, l.name)].id == r.loadout.id
    ensures r.committed && IsSaved(l) ==> r.store.headers == TouchById(s.headers, l.id, l.updatedAt)
    ensures r.committed ==> SlotsOf(r.store, r.loadout.id) == SlotRowsFor(l.slots)
    ensures r.committed ==> ItemRowsOf(r.store, r.loadout.id) == Positions(l.finalItems)
    ensures r.committed ==> OthersUnchanged(s, r.store, r.loadout.id)
    ensures r.store.headers.Keys ==
      if r.committed && !IsSaved(l) then s.headers.Keys + {(l.owner, l.name)} else s.headers.Keys
  {
    if fault == Some(HeaderWrite) then SaveOutcome(s, l, false)
    else
      var (s1, id) := WriteHeader(s, l);
      var l1 := if IsSaved(l) then l else SetId(l, id);
      if ChildStatementFails(s1, id, l, fault) then SaveOutcome(s.(nextId := s1.nextId), l1, false)
      else SaveOutcome(ReplaceChildren(s1, id, l.slots, l.finalItems), l1, true)
  }

  /**
   * Whether a statement after the header write fails: an injected fault at
   * a statement that is issued, two slot rows colliding on their key, or a
   * child row pointing at a missing header.
   */
  predicate ChildStatementFails(s1: Store, id: int, l: Loadout, fault: Option<SaveStep>)
  {
    (fault.Some? && Reached(fault.value, l)) ||
    DuplicateSlotTypes(l.slots) ||
    ((|l.slots| > 0 || HasNonEmpty(l.finalItems)) && id !in Ids(s1))
  }

  // ------------------------------------------------------------ round trip

  /** An item list without its trailing empty positions. */
  function TrimTrailing(items: seq<Option<Item>>): (r: seq<Option<Item>>)
    ensures |r| <= |items| && r == items[..|r|]
    ensures |r| > 0 ==> r[|r| - 1].Some?
    ensures forall j :: |r| <= j < |items| ==> items[j].None?
    decreases |items|
  {
    if |items| == 0 then []
    else if items[|items| - 1].None? then TrimTrailing(items[..|items| - 1])
    else items
  }

  /**
   * Writing the non-empty positions of a list and reading them back gives
   * the list up to its trailing empty positions; a list of empty positions
   * only comes back as no list at all.
   */
  lemma {:induction false} HydratePositions(items: seq<Option<Item>>)
    ensures Hydrate(Positions(items)) == TrimTrailing(items)
  {
    var p := Positions(items);
    var h := Hydrate(p);
    var t := TrimTrailing(items);
    if |t| == 0 {
      assert !HasNonEmpty(items);
    } else {
      assert |t| - 1 in p;
      assert forall i :: i in p ==> i < |t| by {
        forall i | i in p ensures i < |t| {
          assert items[i].Some?;
        }
      }
      assert |h| == |t|;
      forall j | 0 <= j < |t| ensures h[j] == t[j] {
        assert t[j] == items[j];
      }
    }
  }

  /** A loadout filed under its own key once it has been saved. */
  predicate FiledUnderOwnKey(s: Store, l: Loadout)
  {
    IsSaved(l) ==> (l.owner, l.name) in s.headers && s.headers[(l.owner, l.name)].id == l.id
  }

  lemma SlotRowsForWellKeyed(slots: map<string, SlotAssignment>)
    requires WellKeyed(slots)
    ensures !DuplicateSlotTypes(slots)
    ensures SlotRowsFor(slots) == slots
  {
  }

  /**
   * Saving a loadout and reading it back by (owner, name) yields its id,
   * owner and name, the same slot map, no attachments, and the final items
   * up to trailing empty positions.
   */
  lemma SaveThenGet(s: Store, l: Loadout, now: int)
    requires Valid(s) && WellKeyed(l.slots) && Insertable(s, l) && FiledUnderOwnKey(s, l)
    ensures Save(s, l, None).committed
    ensures
      var r := Save(s, l, None);
      var g := Get(r.store, l.owner, l.name, now, false);
      g.Done? && g.value.Some? &&
      g.value.value.id == r.loadout.id && g.value.value.owner == l.owner && g.value.value.name == l.name &&
      g.value.value.slots == l.slots && g.value.value.attachments == map[] &&
      g.value.value.finalItems == TrimTrailing(l.finalItems)
  {
    var r := Save(s, l, None);
    SlotRowsForWellKeyed(l.slots);
    HydratePositions(l.finalItems);
    if IsSaved(l) {
      assert r.store.headers[(l.owner, l.name)].id == l.id;
    }
    assert r.store.headers[(l.owner, l.name)].id == r.loadout.id;
  }

  // --------------------------------------------------------------- counting

  /** Stores with the same header keys have the same count for every owner. */
  lemma CountByKeys(s: Store, t: Store, owner: Uuid)
    requires s.headers.Keys == t.headers.Keys
    ensures OwnerKeys(s, owner) == OwnerKeys(t, owner)
  {
  }

  /**
   * A save changes an owner's count only by committing a loadout under a
   * new (owner, name): that raises the owner's count by one. A rolled-back
   * save, a save of a stored loadout and an upsert onto an existing name
   * leave every count as it was.
   */
  lemma SaveCount(s: Store, l: Loadout, fault: Option<SaveStep>, owner: Uuid)
    requires Valid(s)
    ensures
      var r := Save(s, l, fault);
      var added := r.committed && !IsSaved(l) && owner == l.owner && (l.owner, l.name) !in s.headers;
      Count(r.store, owner, false).value == Count(s, owner, false).value + (if added then 1 else 0)
  {
    var r := Save(s, l, fault);
    CountAfterUpsert(s, r.store, l, r.committed && !IsSaved(l), owner);
  }

  /** A store whose header keys are those of `s`, plus (owner, name) of `l` when `upserted`. */
  lemma CountAfterUpsert(s: Store, t: Store, l: Loadout, upserted: bool, owner: Uuid)
    requires t.headers.Keys == if upserted then s.headers.Keys + {(l.owner, l.name)} else s.headers.Keys
    ensures
      var added := upserted && owner == l.owner && (l.owner, l.name) !in s.headers;
      Count(t, owner, false).value == Count(s, owner, false).value + (if added then 1 else 0)
  {
    var key := (l.owner, l.name);
    if upserted && key !in s.headers {
      CountAddsKey(s.headers.Keys, t.headers.Keys, s, t, owner, key);
    } else {
      CountByKeys(s, t, owner);
    }
  }

  /** Adding one new header key raises the count of that key's owner by one. */
  lemma CountAddsKey(ks: set<(Uuid, string)>, kt: set<(Uuid, string)>, s: Store, t: Store, owner: Uuid, key: (Uuid, string))
    requires ks == s.headers.Keys && kt == t.headers.Keys
    requires key !in ks && kt == ks + {key}
    ensures |OwnerKeys(t, owner)| == |OwnerKeys(s, owner)| + (if key.0 == owner then 1 else 0)
  {
    if key.0 == owner {
      assert OwnerKeys(t, owner) == OwnerKeys(s, owner) + {key};
    } else {
      assert OwnerKeys(t, owner) == OwnerKeys(s, owner);
    }
  }

  /** A delete that removes a header row lowers its owner's count by one and no other count. */
  lemma DeleteCount(s: Store, owner: Uuid, name: string, who: Uuid)
    requires Valid(s)
    ensures
      var r := Delete(s, owner, name, false).value;
      Count(r.0, who, false).value == Count(s, who, false).value - (if r.1 && who == owner then 1 else 0)
  {
    var r := Delete(s, owner, name, false).value;
    if r.1 {
      assert OwnerKeys(r.0, who) == OwnerKeys(s, who) - {(owner, name)};
      if who == owner {
        assert (owner, name) in OwnerKeys(s, who);
      }
    }
  }

  // -------------------------------------------------------------- hydration

  /** Rows as the item query returns them: ordered by a non-negative, unique slot index. */
  predicate OrderedRows(rows: seq<(int, Blob)>)
  {
    (forall k :: 0 <= k < |rows| ==> rows[k].0 >= 0) &&
    (forall a, b :: 0 <= a < b < |rows| ==> rows[a].0 < rows[b].0)
  }

  function RowMap(rows: seq<(int, Blob)>): (m: map<int, Blob>)
    requires OrderedRows(rows)
    ensures NonNegativeKeys(m)
    ensures forall k :: 0 <= k < |rows| ==> rows[k].0 in m && m[rows[k].0] == rows[k].1
    ensures forall i :: i in m ==> exists k :: 0 <= k < |rows| && rows[k].0 == i
  {
    map k | 0 <= k < |rows| :: rows[k].0 := rows[k].1
  }

  /** The list that has each row's decoded item at its index and nothing else is the hydrated list. */
  lemma HydrateRowMap(rows: seq<(int, Blob)>, items: seq<Option<Item>>)
    requires OrderedRows(rows)
    requires |items| == (if |rows| == 0 then 0 else rows[|rows| - 1].0 + 1)
    requires forall k :: 0 <= k < |rows| ==> items[rows[k].0] == Deserialize(rows[k].1)
    requires forall j :: 0 <= j < |items| && (forall k :: 0 <= k < |rows| ==> rows[k].0 != j) ==> items[j].None?
    ensures items == Hydrate(RowMap(rows))
  {
    var h := Hydrate(RowMap(rows));
    HydrateRowMapLength(rows, items);
    forall j | 0 <= j < |items| ensures items[j] == h[j] {
      HydrateRowMapAt(rows, items, j);
    }
  }

  lemma HydrateRowMapLength(rows: seq<(int, Blob)>, items: seq<Option<Item>>)
    requires OrderedRows(rows)
    requires |items| == (if |rows| == 0 then 0 else rows[|rows| - 1].0 + 1)
    ensures |items| == |Hydrate(RowMap(rows))|
  {
    if |rows| == 0 {
      assert RowMap(rows) == map[];
    } else {
      var last := rows[|rows| - 1].0;
      RowMapBelowLast(rows);
      HydrateLength(RowMap(rows), last);
    }
  }

  /** No row index exceeds the last one. */
  lemma RowMapBelowLast(rows: seq<(int, Blob)>)
    requires OrderedRows(rows) && |rows| > 0
    ensures forall i :: i in RowMap(rows) ==> i <= rows[|rows| - 1].0
  {
    var m, last := RowMap(rows), rows[|rows| - 1].0;
    forall i | i in m ensures i <= last {
      var k :| 0 <= k < |rows| && rows[k].0 == i;
      assert k == |rows| - 1 || rows[k].0 < last;
    }
  }

  /** The hydrated list reaches exactly to the largest stored index. */
  lemma HydrateLength(m: map<int, Blob>, last: int)
    requires NonNegativeKeys(m) && last in m
    requires forall i :: i in m ==> i <= last
    ensures |Hydrate(m)| == last + 1
  {
    assert |Hydrate(m)| - 1 in m;
  }

  lemma HydrateRowMapAt(rows: seq<(int, Blob)>, items: seq<Option<Item>>, j: int)
    requires OrderedRows(rows)
    requires |items| == |Hydrate(RowMap(rows))| && 0 <= j < |items|
    requires forall k :: 0 <= k < |rows| ==> items[rows[k].0] == Deserialize(rows[k].1)
    requires forall x :: 0 <= x < |items| && (forall k :: 0 <= k < |rows| ==> rows[k].0 != x) ==> items[x].None?
    ensures items[j] == Hydrate(RowMap(rows))[j]
  {
    var m := RowMap(rows);
    var h := Hydrate(m);
    if j in m {
      var k :| 0 <= k < |rows| && rows[k].0 == j;
      assert m[j] == rows[k].1;
      assert h[j] == Deserialize(m[j]);
    } else {
      assert h[j].None?;
      forall k | 0 <= k < |rows| ensures rows[k].0 != j {
        assert rows[k].0 in m;
      }
    }
  }

  /**
   * `loadItems`: walks the rows in index order, padding the list with
   * empty positions up to each row's index and putting the decoded item
   * there; a blob that does not decode leaves its position empty.
   */
  method LoadItems(rows: seq<(int, Blob)>) returns (items: seq<Option<Item>>)
    requires OrderedRows(rows)
    ensures |items| == (if |rows| == 0 then 0 else rows[|rows| - 1].0 + 1)
    ensures forall k :: 0 <= k < |rows| ==> items[rows[k].0] == Deserialize(rows[k].1)
    ensures forall j :: 0 <= j < |items| && (forall k :: 0 <= k < |rows| ==> rows[k].0 != j) ==> items[j].None?
    ensures items == Hydrate(RowMap(rows))
  {
    items := [];
    var i := 0;
    while i < |rows|
      invariant 0 <= i <= |rows|
      invariant |items| == (if i == 0 then 0 else rows[i - 1].0 + 1)
      invariant forall k :: 0 <= k < i ==> items[rows[k].0] == Deserialize(rows[k].1)
      invariant forall j :: 0 <= j < |items| && (forall k :: 0 <= k < i ==> rows[k].0 != j) ==> items[j].None?
    {
      var index := rows[i].0;
      var padded := Pad(items, index + 1);
      var next := padded[index := Deserialize(rows[i].1)];
      LoadStep(rows, i, items, padded, next);
      items := next;
      i := i + 1;
    }
    HydrateRowMap(rows, items);
  }

  /** One step of `loadItems`: padding to row `i`'s index and storing its item extends the loaded prefix by that row. */
  lemma LoadStep(rows: seq<(int, Blob)>, i: int, items: seq<Option<Item>>, padded: seq<Option<Item>>, next: seq<Option<Item>>)
    requires OrderedRows(rows) && 0 <= i < |rows|
    requires |items| == (if i == 0 then 0 else rows[i - 1].0 + 1)
    requires forall k :: 0 <= k < i ==> items[rows[k].0] == Deserialize(rows[k].1)
    requires forall j :: 0 <= j < |items| && (forall k :: 0 <= k < i ==> rows[k].0 != j) ==> items[j].None?
    requires |padded| == (if |items| < rows[i].0 + 1 then rows[i].0 + 1 else |items|)
    requires padded[..|items|] == items
    requires forall j :: |items| <= j < |padded| ==> padded[j].None?
    requires rows[i].0 < |padded| && next == padded[rows[i].0 := Deserialize(rows[i].1)]
    ensures |next| == rows[i].0 + 1
    ensures forall k :: 0 <= k < i + 1 ==> next[rows[k].0] == Deserialize(rows[k].1)
    ensures forall j :: 0 <= j < |next| && (forall k :: 0 <= k < i + 1 ==> rows[k].0 != j) ==> next[j].None?
  {
    var x := rows[i].0;
    if i > 0 {
      assert rows[i - 1].0 < x;
    }
    assert |items| <= x;
    forall k | 0 <= k < i ensures next[rows[k].0] == Deserialize(rows[k].1) {
      assert rows[k].0 < x;
      assert rows[k].0 <= rows[i - 1].0;
      assert padded[rows[k].0] == padded[..|items|][rows[k].0];
    }
    forall j | 0 <= j < |next| && (forall k :: 0 <= k < i + 1 ==> rows[k].0 != j) ensures next[j].None? {
      assert rows[i].0 != j;
      if j < |items| {
        assert padded[j] == padded[..|items|][j];
      }
    }
  }

  /** `while (items.size() <= index) items.add(null)`. */
  method Pad(items: seq<Option<Item>>, n: int) returns (r: seq<Option<Item>>)
    ensures |r| == if |items| < n then n else |items|
    ensures r[..|items|] == items
    ensures forall j :: |items| <= j < |r| ==> r[j].None?
  {
    r := items;
    while |r| < n
      invariant |r| >= |items| && (|items| < n ==> |r| <= n) && (|items| >= n ==> r == items)
      invariant r[..|items|] == items
      invariant forall j :: |items| <= j < |r| ==> r[j].None?
      decreases n - |r|
    {
      r := r + [None];
    }
  }
}

=== FILE: edit_mode.dfy ===
/**
 * The edit-mode guard: while a player edits a loadout their real inventory
 * is backed up and cleared, and it is put back when editing ends, is
 * cancelled, the player disconnects or the server shuts down. While a
 * player is in edit mode, drops, pickups, foreign inventories and all
 * commands but two are blocked.
 */
module EditMode {
  import opened Wrappers
  import opened Inventories
  import Text
  import opened Loadouts

  /**
   * Who is in edit mode, and the three backups (`None` in `offhand` is the
   * `null` recorded for an empty off-hand).
   */
  datatype Guard = Guard(active: set<Uuid>, contents: map<Uuid, Contents>, armor: map<Uuid, Armor>,
                         offhand: map<Uuid, Option<Item>>)

  function EmptyGuard(): (g: Guard)
    ensures Consistent(g) && g.active == {}
  {
    Guard({}, map[], map[], map[])
  }

  /** Exactly the players in edit mode have all three backups. */
  predicate Consistent(g: Guard)
  {
    g.contents.Keys == g.active && g.armor.Keys == g.active && g.offhand.Keys == g.active
  }

  predicate InEditMode(g: Guard, player: Uuid)
  {
    player in g.active
  }

  /** The player's inventory with contents, armor and off-hand emptied. */
  function Emptied(inv: Contents): (r: Contents)
    ensures forall i :: 0 <= i < InventorySize ==> r[i].None?
  {
    SetOffHand(SetArmor(Clear(inv), None), None)
  }

  /**
   * `startEditMode`: records copies of the contents, the armor and the
   * off-hand (an empty off-hand as absent), empties all of them and marks
   * the player active. A player already in edit mode is not refused: the
   * backups are replaced by copies of the inventory being edited.
   */
  function StartEditMode(g: Guard, player: Uuid, inv: Contents): (r: (Guard, Contents))
    ensures InEditMode(r.0, player) && r.0.active == g.active + {player}
    ensures r.0.contents == g.contents[player := inv]
    ensures r.0.armor == g.armor[player := GetArmor(inv)]
    ensures r.0.offhand == g.offhand[player := GetOffHand(inv)]
    ensures forall i :: 0 <= i < InventorySize ==> r.1[i].None?
    ensures Consistent(g) ==> Consistent(r.0)
  {
    (Guard(g.active + {player}, g.contents[player := inv], g.armor[player := GetArmor(inv)],
           g.offhand[player := GetOffHand(inv)]),
     Emptied(inv))
  }

  /**
   * `restoreInventory`: removes the three backups and puts back each one
   * that exists: the contents first, then the armor, then a recorded
   * off-hand item. An absent off-hand backup leaves the off-hand alone.
   */
  function RestoreInventory(g: Guard, player: Uuid, inv: Contents): (r: (Guard, Contents))
    ensures r.0 == g.(contents := g.contents - {player}, armor := g.armor - {player}, offhand := g.offhand - {player})
    ensures (player in g.contents && player in g.armor && player in g.offhand &&
             GetArmor(g.contents[player]) == g.armor[player] && GetOffHand(g.contents[player]) == g.offhand[player]) ==>
      r.1 == g.contents[player]
    ensures player !in g.contents && player !in g.armor && (player !in g.offhand || g.offhand[player].None?) ==> r.1 == inv
    ensures player !in g.contents && player !in g.armor && player in g.offhand && g.offhand[player].Some? ==>
      r.1 == SetOffHand(inv, g.offhand[player])
  {
    var c := if player in g.contents then g.contents[player] else inv;
    var a := if player in g.armor then SetArmor(c, Some(g.armor[player])) else c;
    var o := if player in g.offhand && g.offhand[player].Some? then SetOffHand(a, g.offhand[player]) else a;
    (g.(contents := g.contents - {player}, armor := g.armor - {player}, offhand := g.offhand - {player}), o)
  }

  /**
   * `endEditMode` and `cancelEditMode`, which differ only in the messages
   * they send: nothing happens unless the player is in edit mode;
   * otherwise the contents and armor are emptied, the backups restored and
   * the player leaves edit mode.
   */
  function LeaveEditMode(g: Guard, player: Uuid, inv: Contents): (r: (Guard, Contents))
    ensures !InEditMode(g, player) ==> r == (g, inv)
    ensures InEditMode(g, player) ==>
      (r.0.active == g.active - {player} && player !in r.0.contents && player !in r.0.armor && player !in r.0.offhand)
    ensures forall q :: q != player ==>
      (q in r.0.contents <==> q in g.contents) && (q in g.contents ==> r.0.contents[q] == g.contents[q])
    ensures Consistent(g) ==> Consistent(r.0)
  {
    if !InEditMode(g, player) then (g, inv)
    else
      var (g1, restored) := RestoreInventory(g, player, SetArmor(Clear(inv), None));
      (g1.(active := g1.active - {player}), restored)
  }

  /** `onPlayerQuit`: an active player's backups are restored, without clearing first, and they leave edit mode. */
  function Quit(g: Guard, player: Uuid, inv: Contents): (r: (Guard, Contents))
    ensures !InEditMode(g, player) ==> r == (g, inv)
    ensures !InEditMode(r.0, player)
    ensures InEditMode(g, player) ==> player !in r.0.contents && player !in r.0.armor && player !in r.0.offhand
    ensures forall q :: q != player ==> (InEditMode(r.0, q) <==> InEditMode(g, q))
    ensures Consistent(g) ==> Consistent(r.0)
  {
    if !InEditMode(g, player) then (g, inv)
    else
      var (g1, restored) := RestoreInventory(g, player, inv);
      (g1.(active := g1.active - {player}), restored)
  }

  /**
   * `onServerShutdown`: every active player who is online gets their
   * backups restored; then nobody is active and no backup is left.
   * `online` holds the inventories of the online players.
   */
  function Shutdown(g: Guard, online: map<Uuid, Contents>): (r: (Guard, map<Uuid, Contents>))
    requires Consistent(g)
    ensures r.0 == EmptyGuard()
    ensures r.1.Keys == online.Keys
    ensures forall p :: p in online && !InEditMode(g, p) ==> r.1[p] == online[p]
    ensures forall p :: p in online && InEditMode(g, p) ==> r.1[p] == RestoreInventory(g, p, online[p]).1
  {
    var restored := map p | p in online :: if p in g.active then RestoreInventory(g, p, online[p]).1 else online[p];
    (EmptyGuard(), restored)
  }

  /** Entering and then leaving edit mode (by end, cancel or quit) gives back exactly the inventory held before. */
  lemma StartThenLeaveRestores(g: Guard, player: Uuid, inv: Contents, staged: Contents)
    ensures var (g1, _) := StartEditMode(g, player, inv); LeaveEditMode(g1, player, staged).1 == inv
    ensures var (g1, _) := StartEditMode(g, player, inv); Quit(g1, player, staged).1 == inv
  {
    var g1 := StartEditMode(g, player, inv).0;
    assert SetArmor(inv, Some(GetArmor(inv))) == inv;
    assert SetOffHand(inv, GetOffHand(inv)) == inv;
    assert RestoreInventory(g1, player, SetArmor(Clear(staged), None)).1 == inv;
    assert RestoreInventory(g1, player, staged).1 == inv;
  }

  /**
   * Starting edit mode twice without leaving it loses the original
   * inventory: leaving afterwards gives back the inventory that was being
   * edited at the second start.
   */
  lemma DoubleStartOverwritesBackup(g: Guard, player: Uuid, inv: Contents, staged: Contents, later: Contents)
    ensures
      var g1 := StartEditMode(g, player, inv).0;
      var g2 := StartEditMode(g1, player, staged).0;
      LeaveEditMode(g2, player, later).1 == staged
  {
    StartThenLeaveRestores(StartEditMode(g, player, inv).0, player, staged, later);
  }

  /**
   * The restore itself touches the off-hand only when an item was recorded:
   * with the contents and armor backups gone, a staged off-hand item stays.
   */
  lemma EmptyOffHandBackupKeepsStagedItem(g: Guard, player: Uuid, inv: Contents)
    requires player !in g.contents && player !in g.armor && player in g.offhand && g.offhand[player].None?
    ensures GetOffHand(RestoreInventory(g, player, inv).1) == GetOffHand(inv)
  {
  }

  // ---------------------------------------------------------------- filters

  /** `onPlayerCommand`: the command goes through unless it is blocked by edit mode. */
  function CommandAllowed(g: Guard, player: Uuid, message: string): (ok: bool)
    ensures !InEditMode(g, player) ==> ok
    ensures InEditMode(g, player) ==>
      (ok <==> Text.StartsWith(Text.ToLower(message), "/loadout save") ||
               Text.StartsWith(Text.ToLower(message), "/loadout cancel"))
  {
    if !InEditMode(g, player) then true
    else
      var command := Text.ToLower(message);
      Text.StartsWith(command, "/loadout save") || Text.StartsWith(command, "/loadout cancel")
  }

  datatype InventoryType = PlayerInventory | CraftingInventory | OtherInventory(name: string)

  /**
   * `onInventoryClick`: while in edit mode, a click in a view whose top
   * inventory is the player's own or the crafting grid is allowed;
   * otherwise it is cancelled iff it landed in an inventory that is not a
   * player inventory (a click outside any inventory is allowed).
   */
  function ClickCancelled(g: Guard, player: Uuid, view: InventoryType, clicked: Option<InventoryType>): (cancel: bool)
    ensures cancel ==> InEditMode(g, player) && clicked.Some? && clicked.value != PlayerInventory
    ensures cancel <==> InEditMode(g, player) && view.OtherInventory? && clicked.Some? && clicked.value != PlayerInventory
  {
    if !InEditMode(g, player) then false
    else if view == PlayerInventory || view == CraftingInventory then false
    else clicked.Some? && clicked.value != PlayerInventory
  }

  /** `onPlayerDropItem` and `onEntityPickupItem`: both are cancelled exactly in edit mode. */
  function DropOrPickupCancelled(g: Guard, player: Uuid): (cancel: bool)
    ensures cancel <==> player in g.active
  {
    InEditMode(g, player)
  }

  /** A player can always leave edit mode with the save or cancel command, in any letter case. */
  lemma SaveAndCancelPass(g: Guard, player: Uuid, rest: string)
    ensures CommandAllowed(g, player, "/loadout save" + rest)
    ensures CommandAllowed(g, player, "/LOADOUT CANCEL" + rest)
  {
    var s := "/loadout save" + rest;
    var c := "/LOADOUT CANCEL" + rest;
    assert Text.ToLower(s)[..|"/loadout save"|] == "/loadout save" by {
      forall i | 0 <= i < |"/loadout save"| ensures Text.ToLower(s)[i] == "/loadout save"[i] {
        Text.ToLowerAt(s, i);
      }
    }
    assert Text.ToLower(c)[..|"/loadout cancel"|] == "/loadout cancel" by {
      forall i | 0 <= i < |"/loadout cancel"| ensures Text.ToLower(c)[i] == "/loadout cancel"[i] {
        Text.ToLowerAt(c, i);
      }
    }
  }
}

=== FILE: edit_session.dfy ===
/**
 * The state of one player's pass through the loadout editor: which saved
 * slot (1-5) is being edited, whether the target is the server-wide
 * loadout, the selection cursor and page, and the weapons and attachments
 * chosen so far.
 */
module EditSessions {
  import opened Wrappers
  import opened LoadoutSlots
  import opened Loadouts

  datatype EditSession = EditSession(
    owner: Uuid,
    editingSlotNumber: int,
    editingGlobal: bool,
    currentSlotType: Option<string>,
    currentAttachmentSlot: Option<string>,
    currentPage: nat,
    selectedSlots: map<string, SlotAssignment>,
    selectedAttachments: map<string, string>,
    startTime: int)

  /** The constructor: slot 1, personal loadout, first page, nothing selected. */
  function NewSession(owner: Uuid, now: int): (s: EditSession)
    ensures s.owner == owner && s.editingSlotNumber == 1 && !s.editingGlobal
    ensures s.currentSlotType.None? && s.currentAttachmentSlot.None? && s.currentPage == 0
    ensures s.selectedSlots == map[] && s.selectedAttachments == map[] && s.startTime == now
  {
    EditSession(owner, 1, false, None, None, 0, map[], map[], now)
  }

  function SetEditingSlotNumber(s: EditSession, n: int): (r: EditSession)
    ensures r.editingSlotNumber == n && r == s.(editingSlotNumber := r.editingSlotNumber)
  {
    s.(editingSlotNumber := n)
  }

  function SetEditingGlobal(s: EditSession, global: bool): (r: EditSession)
    ensures r.editingGlobal == global && r == s.(editingGlobal := r.editingGlobal)
  {
    s.(editingGlobal := global)
  }

  function SetCurrentSlotType(s: EditSession, slotType: string): (r: EditSession)
    ensures r.currentSlotType == Some(slotType) && r == s.(currentSlotType := r.currentSlotType)
  {
    s.(currentSlotType := Some(slotType))
  }

  function SetCurrentAttachmentSlot(s: EditSession, key: string): (r: EditSession)
    ensures r.currentAttachmentSlot == Some(key) && r == s.(currentAttachmentSlot := r.currentAttachmentSlot)
  {
    s.(currentAttachmentSlot := Some(key))
  }

  /** `setCurrentPage`: a negative request is clamped to the first page. */
  function SetCurrentPage(s: EditSession, page: int): (r: EditSession)
    ensures page >= 0 ==> r.currentPage == page
    ensures page < 0 ==> r.currentPage == 0
    ensures r == s.(currentPage := r.currentPage)
  {
    s.(currentPage := if page < 0 then 0 else page)
  }

  /** `setSlot`: records one selection, leaving the other selections as they were. */
  function SetSlot(s: EditSession, slotType: string, slot: SlotAssignment): (r: EditSession)
    ensures slotType in r.selectedSlots && r.selectedSlots[slotType] == slot
    ensures forall k :: k != slotType ==> (k in r.selectedSlots <==> k in s.selectedSlots)
    ensures forall k :: k != slotType && k in s.selectedSlots ==> r.selectedSlots[k] == s.selectedSlots[k]
    ensures r == s.(selectedSlots := r.selectedSlots)
  {
    s.(selectedSlots := s.selectedSlots[slotType := slot])
  }

  /** `setAttachment`: records one attachment choice, leaving the others as they were. */
  function SetAttachment(s: EditSession, key: string, attachment: string): (r: EditSession)
    ensures key in r.selectedAttachments && r.selectedAttachments[key] == attachment
    ensures forall k :: k != key ==> (k in r.selectedAttachments <==> k in s.selectedAttachments)
    ensures forall k :: k != key && k in s.selectedAttachments ==> r.selectedAttachments[k] == s.selectedAttachments[k]
    ensures r == s.(selectedAttachments := r.selectedAttachments)
  {
    s.(selectedAttachments := s.selectedAttachments[key := attachment])
  }

  /** `clearSelections`: forgets both kinds of selection and nothing else. */
  function ClearSelections(s: EditSession): (r: EditSession)
    ensures |r.selectedSlots| == 0 && |r.selectedAttachments| == 0
    ensures r == s.(selectedSlots := r.selectedSlots, selectedAttachments := r.selectedAttachments)
  {
    s.(selectedSlots := map[], selectedAttachments := map[])
  }

  /**
   * `loadFromLoadout`: both selection maps become copies of the loadout's;
   * a missing loadout changes nothing.
   */
  function LoadFromLoadout(s: EditSession, l: Option<Loadout>): (r: EditSession)
    ensures l.None? ==> r == s
    ensures l.Some? ==> r.selectedSlots == l.value.slots && r.selectedAttachments == l.value.attachments
    ensures r == s.(selectedSlots := r.selectedSlots, selectedAttachments := r.selectedAttachments)
  {
    if l.None? then s else s.(selectedSlots := l.value.slots, selectedAttachments := l.value.attachments)
  }

  /** A session whose selected slots are each filed under their own slot type. */
  predicate WellFormed(s: EditSession)
  {
    WellKeyed(s.selectedSlots)
  }

  /**
   * Every way the editor changes a session keeps the selections well keyed:
   * the editor files a selection under the slot type it was created with,
   * and restores only from well-keyed loadouts.
   */
  lemma WellFormedPreserved(s: EditSession, slotType: string, weapon: string, category: Option<string>,
                            ammo: Int32, isWm: bool, l: Loadout)
    requires WellFormed(s) && WellKeyed(l.slots)
    ensures WellFormed(SetSlot(s, slotType, CatalogSlot(slotType, weapon, category, ammo)))
    ensures WellFormed(SetSlot(s, slotType, CustomSlot(slotType, weapon, isWm)))
    ensures WellFormed(LoadFromLoadout(s, Some(l)))
    ensures WellFormed(ClearSelections(s))
  {
  }
}

=== FILE: gui.dfy ===
/**
 * The loadout editor's menus without their rendering: which menu each
 * player has open, how clicks move between menus and change the edit
 * session, the page arithmetic of the selection menus, the confirm step
 * that hands out the selected items, and the clean-up when a player
 * leaves. Clicks are described by their position and by what the plugin
 * recognises in the clicked item.
 */
module Gui {
  import opened Wrappers
  import opened Inventories
  import opened LoadoutSlots
  import opened Loadouts
  import opened EditSessions
  import Text
  import Config
  import Weapons
  import Staging
  import EditMode
  import LM = LoadoutManager
  import Db = Database

  /** Saved slots 1..5 per player. */
  const MaxSlots: int := 5
  /** The selection menus show their icons in the 45 positions above the navigation row. */
  const PageIcons: int := 45
  const BackButton: int := 45
  const PreviousButton: int := 48
  const ConfirmButton: int := 49
  const NextButton: int := 50
  const SlotMenuBack: int := 22
  /** Where the category menu puts the configured weapon slots and attachment slots, in configured order. */
  const WeaponPositions: seq<int> := [10, 12, 14, 16, 28, 30, 32, 34]
  const AttachmentPositions: seq<int> := [19, 20, 21, 22, 23]

  datatype Screen = MainMenu | SlotSelect | CategoryMenu | WeaponSelect | AttachmentSelect

  /** The configured weapon slot keys and attachment slots (key, categories), each in configured order. */
  datatype Layout = Layout(slotKeys: seq<string>, attachmentSlots: seq<(string, seq<string>)>)

  /** The loadout manager, the menu each player has open, and the edit-mode guard. */
  datatype State = State(manager: LM.Manager, open: map<Uuid, Screen>, guard: EditMode.Guard)

  /**
   * What a click handler consults besides the state: the layout, the item
   * sources of the confirm step (catalogue and settings included), the
   * magazine size per weapon, the clock and whether store reads fail.
   */
  datatype Env = Env(layout: Layout, sources: Staging.Sources, now: int, readFails: bool)

  /** The slot name of slot number `n`, as `String.valueOf(n)` spells it. */
  function SlotName(n: int): string
  {
    Text.IntToString(n)
  }

  // ----------------------------------------------------------------- menus

  /** The lookups of slots `from`..5 that opening the main or slot menu performs (they fill the cache). */
  function LookUpSlots(m: LM.Manager, player: Uuid, from: int, env: Env): (r: LM.Manager)
    requires Db.Valid(m.store)
    ensures r.store == m.store && r.sessions == m.sessions
    ensures LM.Coherent(m.cache) ==> LM.Coherent(r.cache)
    ensures forall o, n :: o != player ==> LM.Cached(r.cache, o, n) == LM.Cached(m.cache, o, n)
    ensures forall n :: LM.Cached(m.cache, player, n).Some? ==> LM.Cached(r.cache, player, n) == LM.Cached(m.cache, player, n)
    ensures !env.readFails ==> forall k :: from <= k <= MaxSlots && (player, SlotName(k)) in m.store.headers ==>
      LM.Cached(r.cache, player, SlotName(k)).Some?
    decreases MaxSlots + 1 - from
  {
    if from > MaxSlots then m
    else LookUpSlots(LM.GetLoadout(m, player, SlotName(from), env.now, env.readFails).manager, player, from + 1, env)
  }

  /**
   * `openMainMenu`: looks up the five slots and opens the main menu. Unless
   * store reads fail, every stored slot of the player is cached afterwards,
   * so the click that applies it reads the cache.
   */
  function OpenMainMenu(st: State, player: Uuid, env: Env): (r: State)
    requires Db.Valid(st.manager.store)
    ensures r.manager.store == st.manager.store && r.manager.sessions == st.manager.sessions
    ensures r.open == st.open[player := MainMenu] && r.guard == st.guard
    ensures !env.readFails ==> forall k :: 1 <= k <= MaxSlots && (player, SlotName(k)) in st.manager.store.headers ==>
      LM.Cached(r.manager.cache, player, SlotName(k)).Some?
    ensures forall o, n :: o != player ==> LM.Cached(r.manager.cache, o, n) == LM.Cached(st.manager.cache, o, n)
    ensures LM.Coherent(st.manager.cache) ==> LM.Coherent(r.manager.cache)
  {
    st.(manager := LookUpSlots(st.manager, player, 1, env), open := st.open[player := MainMenu])
  }

  /** `openSlotSelectionMenu`: looks up the five slots and opens the slot menu. */
  function OpenSlotSelectionMenu(st: State, player: Uuid, env: Env): (r: State)
    requires Db.Valid(st.manager.store)
    ensures r.manager.store == st.manager.store && r.manager.sessions == st.manager.sessions
    ensures r.open == st.open[player := SlotSelect] && r.guard == st.guard
    ensures !env.readFails ==> forall k :: 1 <= k <= MaxSlots && (player, SlotName(k)) in st.manager.store.headers ==>
      LM.Cached(r.manager.cache, player, SlotName(k)).Some?
    ensures LM.Coherent(st.manager.cache) ==> LM.Coherent(r.manager.cache)
  {
    st.(manager := LookUpSlots(st.manager, player, 1, env), open := st.open[player := SlotSelect])
  }

  /**
   * The session `openCategoryMenu` starts for a player without one: fresh,
   * and restored from the saved loadout of slot `n` when that has slot
   * selections (the lookup may fill the cache).
   */
  function StartSessionFor(m: LM.Manager, player: Uuid, n: int, env: Env): (r: LM.Manager)
    requires Db.Valid(m.store)
    ensures r.store == m.store
    ensures
      var found := LM.GetLoadout(m, player, SlotName(n), env.now, env.readFails).loadout;
      var restored := found.Some? && |found.value.slots| > 0;
      player in r.sessions &&
      r.sessions[player] == NewSession(player, env.now).(
        selectedSlots := if restored then found.value.slots else map[],
        selectedAttachments := if restored then found.value.attachments else map[])
    ensures forall p :: p != player ==> LM.GetEditSession(r, p) == LM.GetEditSession(m, p)
    ensures LM.Coherent(m.cache) ==> LM.Coherent(r.cache)
  {
    var (m1, started) := LM.StartEditSession(m, player, env.now);
    var got := LM.GetLoadout(m1, player, SlotName(n), env.now, env.readFails);
    var s := if got.loadout.Some? && |got.loadout.value.slots| > 0 then LoadFromLoadout(started, got.loadout) else started;
    assert got.loadout == LM.GetLoadout(m, player, SlotName(n), env.now, env.readFails).loadout;
    LM.PutSession(got.manager, player, s)
  }

  /**
   * `openCategoryMenu(player, n)`: without a session a fresh one is
   * started (see `StartSessionFor`); an existing session keeps its
   * selections. Either way the session now edits slot `n`.
   */
  function OpenCategoryMenu(st: State, player: Uuid, n: int, env: Env): (r: State)
    requires Db.Valid(st.manager.store)
    ensures r.manager.store == st.manager.store && r.guard == st.guard
    ensures r.open == st.open[player := CategoryMenu]
    ensures player in r.manager.sessions && r.manager.sessions[player].editingSlotNumber == n
    ensures forall p :: p != player ==> LM.GetEditSession(r.manager, p) == LM.GetEditSession(st.manager, p)
    ensures player in st.manager.sessions ==>
      r.manager.sessions[player] == st.manager.sessions[player].(editingSlotNumber := n) &&
      r.manager.cache == st.manager.cache
    ensures player !in st.manager.sessions ==>
      r.manager.sessions[player] == StartSessionFor(st.manager, player, n, env).sessions[player].(editingSlotNumber := n)
    ensures LM.Coherent(st.manager.cache) ==> LM.Coherent(r.manager.cache)
  {
    var m := st.manager;
    var m1 := if player in m.sessions then m else StartSessionFor(m, player, n, env);
    st.(manager := LM.PutSession(m1, player, SetEditingSlotNumber(m1.sessions[player], n)),
        open := st.open[player := CategoryMenu])
  }

  /** `openWeaponSelectMenu(player, slotType)`: records the slot type and starts at page 0; nothing without a session. */
  function OpenWeaponSelect(st: State, player: Uuid, slotType: string): (r: State)
    ensures player !in st.manager.sessions ==> r == st
    ensures player in st.manager.sessions ==>
      r.manager == LM.PutSession(st.manager, player,
        st.manager.sessions[player].(currentSlotType := Some(slotType), currentPage := 0)) &&
      r.open == st.open[player := WeaponSelect] && r.guard == st.guard
  {
    match LM.GetEditSession(st.manager, player)
    case None => st
    case Some(s) =>
      st.(manager := LM.PutSession(st.manager, player, SetCurrentPage(SetCurrentSlotType(s, slotType), 0)),
          open := st.open[player := WeaponSelect])
  }

  /** The categories of a configured attachment slot. */
  function AttachmentSlot(layout: Layout, key: Option<string>): (r: Option<seq<string>>)
    ensures r.Some? ==> key.Some? && exists j :: 0 <= j < |layout.attachmentSlots| && layout.attachmentSlots[j] == (key.value, r.value)
  {
    if key.None? then None else FindSlot(layout.attachmentSlots, key.value)
  }

  function FindSlot(slots: seq<(string, seq<string>)>, key: string): (r: Option<seq<string>>)
    ensures r.Some? ==> exists j :: 0 <= j < |slots| && slots[j] == (key, r.value)
    ensures r.None? ==> forall j :: 0 <= j < |slots| ==> slots[j].0 != key
  {
    if |slots| == 0 then None
    else if slots[0].0 == key then Some(slots[0].1)
    else
      var r := FindSlot(slots[1..], key);
      assert r.Some? ==> exists j :: 0 <= j < |slots[1..]| && slots[1..][j] == (key, r.value);
      r
  }

  /**
   * `openAttachmentSelectMenu(player, key)`: records the attachment slot
   * and starts at page 0; the menu opens only for a configured attachment
   * slot. Nothing happens without a session.
   */
  function OpenAttachmentSelect(st: State, player: Uuid, key: string, layout: Layout): (r: State)
    ensures player !in st.manager.sessions ==> r == st
    ensures player in st.manager.sessions ==>
      r.manager == LM.PutSession(st.manager, player,
        st.manager.sessions[player].(currentAttachmentSlot := Some(key), currentPage := 0)) &&
      r.open == (if AttachmentSlot(layout, Some(key)).Some? then st.open[player := AttachmentSelect] else st.open) &&
      r.guard == st.guard
  {
    match LM.GetEditSession(st.manager, player)
    case None => st
    case Some(s) =>
      var m := LM.PutSession(st.manager, player, SetCurrentPage(SetCurrentAttachmentSlot(s, key), 0));
      if AttachmentSlot(layout, Some(key)).Some? then st.(manager := m, open := st.open[player := AttachmentSelect])
      else st.(manager := m)
  }

  // ---------------------------------------------------------------- paging

  function Max(a: int, b: int): int
  {
    if a < b then b else a
  }

  /**
   * `max(1, (int) ceil((double) total / perPage))`. With a positive page
   * size this is the number of pages needed; a page size of 0 divides to
   * infinity (cast to the largest int) or, for no items, to NaN (cast to
   * 0); a negative page size gives at most 0. The lower bound is 1.
   */
  function MaxPages(total: nat, perPage: int): (r: int)
    ensures r >= 1
    ensures perPage >= 1 && total == 0 ==> r == 1
    ensures perPage >= 1 && total > 0 ==> (r - 1) * perPage < total <= r * perPage
    ensures perPage == 0 && total > 0 ==> r == Text.IntMax
    ensures perPage < 0 ==> r == 1
  {
    if perPage > 0 then
      var q := (total + perPage - 1) / perPage;
      CeilingBracket(total, perPage);
      Max(1, q)
    else if perPage == 0 && total > 0 then Text.IntMax
    else 1
  }

  lemma CeilingBracket(total: nat, perPage: int)
    requires perPage >= 1
    ensures var q := (total + perPage - 1) / perPage;
      q >= 0 && (total > 0 ==> (q - 1) * perPage < total <= q * perPage) && (total == 0 ==> q == 0)
  {
    var x := total + perPage - 1;
    var q := x / perPage;
    assert x == q * perPage + x % perPage && 0 <= x % perPage < perPage;
    assert (q - 1) * perPage == q * perPage - perPage;
  }

  /**
   * The icons of one page of a selection menu, in position order: the
   * entries from `page × perPage` up to the next page's first entry, at
   * most 45 of them.
   */
  function PageItems<T>(items: seq<T>, page: nat, perPage: int): (shown: seq<T>)
    ensures |shown| <= PageIcons
    ensures perPage <= 0 ==> shown == []
    ensures perPage > 0 ==> |shown| == Max(0, Staging.Min(Staging.Min(perPage, PageIcons), |items| - page * perPage))
    ensures forall k :: 0 <= k < |shown| ==> 0 <= page * perPage + k < |items| && shown[k] == items[page * perPage + k]
  {
    var start := page * perPage;
    var end := Staging.Min(Staging.Min(start + perPage, |items|), start + PageIcons);
    if perPage <= 0 || end <= start then [] else items[start..end]
  }

  /**
   * The entry an attachment click at position `slot` picks: index
   * `page × perPage + slot`, if it is below the list size. A negative
   * index (only possible with a negative page size) makes the list access
   * throw, which aborts the handler: also no pick.
   */
  function AttachmentAt(attachments: seq<string>, page: nat, perPage: int, slot: int): (r: Option<string>)
    ensures r.Some? <==> 0 <= page * perPage + slot < |attachments|
    ensures r.Some? ==> r.value == attachments[page * perPage + slot]
  {
    var index := page * perPage + slot;
    if 0 <= index < |attachments| then Some(attachments[index]) else None
  }

  /** Clicking a shown attachment icon picks exactly the attachment that icon shows. */
  lemma ClickPicksShownAttachment(attachments: seq<string>, page: nat, perPage: int, slot: int)
    requires 0 <= slot < |PageItems(attachments, page, perPage)|
    ensures AttachmentAt(attachments, page, perPage, slot) == Some(PageItems(attachments, page, perPage)[slot])
  {
  }

  /** The entries of the weapon selection menu: the slot's weapons, then its custom items. */
  datatype Entry = WeaponEntry(title: string) | CustomEntry(item: Config.CustomItemConfig)

  function WeaponEntries(cat: Weapons.Catalog, settings: Config.Settings, slotType: string): (r: seq<Entry>)
    ensures |r| == |Weapons.FlatWeaponsForSlot(cat, settings, slotType)| + |Config.CustomItemsForSlot(settings, slotType)|
  {
    var weapons := Weapons.FlatWeaponsForSlot(cat, settings, slotType);
    var customs := Config.CustomItemsForSlot(settings, slotType);
    seq(|weapons|, i requires 0 <= i < |weapons| => WeaponEntry(weapons[i])) +
    seq(|customs|, i requires 0 <= i < |customs| => CustomEntry(customs[i]))
  }

  /** Every entry appears on exactly the page its index falls on, when pages are at most 45 entries long. */
  lemma EveryEntryOnItsPage<T>(items: seq<T>, perPage: int, i: int)
    requires 1 <= perPage <= PageIcons && 0 <= i < |items|
    ensures var page := i / perPage;
      0 <= i - page * perPage < |PageItems(items, page, perPage)| &&
      PageItems(items, page, perPage)[i - page * perPage] == items[i]
  {
    var page := i / perPage;
    assert i == page * perPage + i % perPage;
  }

  /**
   * The previous-page button works only above page 0, so the page never
   * goes below 0; the next-page position always advances the page, even
   * past the last page, where the menu then shows no entries.
   */
  function TurnPage(s: EditSession, slot: int): (r: EditSession)
    requires slot == PreviousButton || slot == NextButton
    ensures slot == PreviousButton && s.currentPage > 0 ==> r == s.(currentPage := s.currentPage - 1)
    ensures slot == PreviousButton && s.currentPage == 0 ==> r == s
    ensures slot == NextButton ==> r == s.(currentPage := s.currentPage + 1)
  {
    if slot == PreviousButton then
      if s.currentPage > 0 then SetCurrentPage(s, s.currentPage - 1) else s
    else SetCurrentPage(s, s.currentPage + 1)
  }

  /** From the last page, the next-page position leads to a page beyond the last one, which shows nothing. */
  lemma NextPageIsUnbounded<T>(items: seq<T>, s: EditSession, perPage: int)
    requires perPage >= 1 && s.currentPage == MaxPages(|items|, perPage) - 1
    ensures TurnPage(s, NextButton).currentPage == MaxPages(|items|, perPage)
    ensures PageItems(items, TurnPage(s, NextButton).currentPage, perPage) == []
  {
    var p := MaxPages(|items|, perPage);
    if |items| > 0 {
      assert |items| <= p * perPage;
    }
  }

  // ------------------------------------------------------------- confirming

  /** `keys` lists each key of `m` exactly once, as a Java map's iteration does. */
  predicate Enumerates<V>(keys: seq<string>, m: map<string, V>)
  {
    (forall k :: k in keys ==> k in m) && (forall k :: k in m ==> k in keys) && Weapons.NoDuplicates(keys)
  }

  /**
   * The enumeration orders the confirm step uses are enumerations of the
   * player's current selections.
   */
  predicate Enumerated(m: LM.Manager, player: Uuid, slotOrder: seq<string>, attachmentOrder: seq<string>)
  {
    player in m.sessions ==>
      Enumerates(slotOrder, m.sessions[player].selectedSlots) &&
      Enumerates(attachmentOrder, m.sessions[player].selectedAttachments)
  }

  /**
   * `grantSelectedItems`: without a session or without a selected slot
   * nothing happens. Otherwise the menu is closed, edit mode starts
   * (backing up and emptying the inventory), and the collected items are
   * placed (`Staging.PlaceItems` is the placement loop).
   */
  function GrantSelectedItems(st: State, player: Uuid, inv: Contents, src: Staging.Sources,
                              slotOrder: seq<string>, attachmentOrder: seq<string>): (r: (State, Contents))
    requires Enumerated(st.manager, player, slotOrder, attachmentOrder)
    ensures player !in st.manager.sessions || |st.manager.sessions[player].selectedSlots| == 0 ==> r == (st, inv)
    ensures player in st.manager.sessions && |st.manager.sessions[player].selectedSlots| > 0 ==>
      var s := st.manager.sessions[player];
      r.0 == st.(open := st.open - {player}, guard := EditMode.StartEditMode(st.guard, player, inv).0) &&
      r.1 == Staging.LayoutOf(Staging.Queue(Staging.Collect(src,
        seq(|slotOrder|, i requires 0 <= i < |slotOrder| => s.selectedSlots[slotOrder[i]]),
        seq(|attachmentOrder|, i requires 0 <= i < |attachmentOrder| => s.selectedAttachments[attachmentOrder[i]]))))
  {
    match LM.GetEditSession(st.manager, player)
    case None => (st, inv)
    case Some(s) =>
      if |s.selectedSlots| == 0 then (st, inv)
      else
        var values := seq(|slotOrder|, i requires 0 <= i < |slotOrder| => s.selectedSlots[slotOrder[i]]);
        var ids := seq(|attachmentOrder|, i requires 0 <= i < |attachmentOrder| => s.selectedAttachments[attachmentOrder[i]]);
        var staged := Staging.Collect(src, values, ids);
        (st.(open := st.open - {player}, guard := EditMode.StartEditMode(st.guard, player, inv).0),
         Staging.LayoutOf(Staging.Queue(staged)))
  }

  /** The confirm step backs up exactly the inventory the player had, so leaving edit mode gives it back. */
  lemma ConfirmThenLeaveRestores(st: State, player: Uuid, inv: Contents, src: Staging.Sources,
                                 slotOrder: seq<string>, attachmentOrder: seq<string>)
    requires Enumerated(st.manager, player, slotOrder, attachmentOrder)
    requires player in st.manager.sessions && |st.manager.sessions[player].selectedSlots| > 0
    ensures
      var r := GrantSelectedItems(st, player, inv, src, slotOrder, attachmentOrder);
      EditMode.LeaveEditMode(r.0.guard, player, r.1).1 == inv
  {
    var r := GrantSelectedItems(st, player, inv, src, slotOrder, attachmentOrder);
    EditMode.StartThenLeaveRestores(st.guard, player, inv, r.1);
  }

  // ----------------------------------------------------------------- clicks

  /**
   * A clicked item: the weapon title WeaponMechanics recognises in it, if
   * any, and the name of its material.
   */
  datatype Clicked = NoItem | Icon(weaponTitle: Option<string>, material: string)

  /** A click: its position, whether it hit the menu (the top inventory), and the clicked item. */
  datatype Click = Click(slot: int, inMenu: bool, item: Clicked)

  datatype Outcome = Outcome(state: State, inventory: Contents, cancelled: bool)

  /** `handleMainMenuClick`: positions 11..15 apply slots 1..5; the menu closes when a loadout was applied. */
  function MainMenuClick(st: State, player: Uuid, inv: Contents, slot: int, env: Env): (r: (State, Contents))
    requires Db.Valid(st.manager.store)
    ensures r.0.guard == st.guard && r.0.manager.sessions == st.manager.sessions && r.0.manager.store == st.manager.store
    ensures !(11 <= slot <= 15) ==> r == (st, inv)
    ensures 11 <= slot <= 15 ==>
      var got := LM.GetLoadout(st.manager, player, SlotName(slot - 10), env.now, env.readFails);
      (got.loadout.Some? && HasFinalItems(got.loadout.value) ==>
        r.1 == LM.Applied(got.loadout.value.finalItems) && r.0.open == st.open - {player}) &&
      (got.loadout.None? || !HasFinalItems(got.loadout.value) ==> r.1 == inv && r.0.open == st.open)
  {
    if 11 <= slot <= 15 then
      var name := SlotName(slot - 10);
      var got := LM.GetLoadout(st.manager, player, name, env.now, env.readFails);
      if got.loadout.Some? && HasFinalItems(got.loadout.value) then
        var ap := LM.ApplyLoadout(got.manager, player, name, inv, env.now, env.readFails);
        (st.(manager := ap.manager, open := if ap.applied then st.open - {player} else st.open), ap.inventory)
      else (st.(manager := got.manager), inv)
    else (st, inv)
  }

  /** `handleSlotSelectClick`: 22 goes back to the main menu; 11..15 edit slots 1..5. */
  function SlotSelectClick(st: State, player: Uuid, slot: int, env: Env): (r: State)
    requires Db.Valid(st.manager.store)
    ensures slot == SlotMenuBack ==> r == OpenMainMenu(st, player, env)
    ensures 11 <= slot <= 15 ==> r == OpenCategoryMenu(st, player, slot - 10, env)
    ensures slot != SlotMenuBack && !(11 <= slot <= 15) ==> r == st
  {
    if slot == SlotMenuBack then OpenMainMenu(st, player, env)
    else if 11 <= slot <= 15 then OpenCategoryMenu(st, player, slot - 10, env)
    else st
  }

  /** The index of `slot` among the first `count` positions, if it is one of them. */
  function PositionIndex(positions: seq<int>, count: int, slot: int): (r: Option<int>)
    ensures r.Some? ==> 0 <= r.value < count && r.value < |positions| && positions[r.value] == slot
    ensures r.None? ==> forall i :: 0 <= i < count && i < |positions| ==> positions[i] != slot
  {
    if count <= 0 || |positions| == 0 then None
    else if positions[0] == slot then Some(0)
    else
      match PositionIndex(positions[1..], count - 1, slot)
      case Some(i) => Some(i + 1)
      case None => None
  }

  /**
   * `handleCategoryMenuClick`: nothing without a session; 45 goes back to
   * the slot menu; 49 confirms, but only with at least one selected slot;
   * the k-th weapon or attachment slot position opens the selection menu
   * of the k-th configured slot.
   */
  function CategoryMenuClick(st: State, player: Uuid, inv: Contents, slot: int, env: Env,
                             slotOrder: seq<string>, attachmentOrder: seq<string>): (r: (State, Contents))
    requires Db.Valid(st.manager.store) && Enumerated(st.manager, player, slotOrder, attachmentOrder)
    ensures player !in st.manager.sessions ==> r == (st, inv)
    ensures player in st.manager.sessions && slot == ConfirmButton && |st.manager.sessions[player].selectedSlots| == 0 ==>
      r == (st, inv)
    ensures player in st.manager.sessions && slot == ConfirmButton ==>
      r == GrantSelectedItems(st, player, inv, env.sources, slotOrder, attachmentOrder)
    ensures player in st.manager.sessions && slot == BackButton ==> r == (OpenSlotSelectionMenu(st, player, env), inv)
    ensures player in st.manager.sessions && slot != ConfirmButton ==> r.1 == inv
  {
    if player !in st.manager.sessions then (st, inv)
    else if slot == BackButton then (OpenSlotSelectionMenu(st, player, env), inv)
    else if slot == ConfirmButton then GrantSelectedItems(st, player, inv, env.sources, slotOrder, attachmentOrder)
    else
      match PositionIndex(WeaponPositions, |env.layout.slotKeys|, slot)
      case Some(i) => (OpenWeaponSelect(st, player, env.layout.slotKeys[i]), inv)
      case None =>
        match PositionIndex(AttachmentPositions, |env.layout.attachmentSlots|, slot)
        case Some(j) => (OpenAttachmentSelect(st, player, env.layout.attachmentSlots[j].0, env.layout), inv)
        case None => (st, inv)
  }

  /** Every configured weapon slot among the first eight can be opened from its position. */
  lemma WeaponSlotPositions(st: State, player: Uuid, inv: Contents, env: Env, i: int,
                            slotOrder: seq<string>, attachmentOrder: seq<string>)
    requires Db.Valid(st.manager.store) && Enumerated(st.manager, player, slotOrder, attachmentOrder)
    requires player in st.manager.sessions && 0 <= i < |WeaponPositions| && i < |env.layout.slotKeys|
    ensures CategoryMenuClick(st, player, inv, WeaponPositions[i], env, slotOrder, attachmentOrder) ==
      (OpenWeaponSelect(st, player, env.layout.slotKeys[i]), inv)
  {
    var p := PositionIndex(WeaponPositions, |env.layout.slotKeys|, WeaponPositions[i]);
    assert p.value == i;
  }

  /** Re-renders a selection menu on the same page change: the menu stays open. */
  function PageClick(st: State, player: Uuid, s: EditSession, slot: int): (r: State)
    requires slot == PreviousButton || slot == NextButton
    ensures r.manager == LM.PutSession(st.manager, player, TurnPage(s, slot)) && r.open == st.open && r.guard == st.guard
  {
    st.(manager := LM.PutSession(st.manager, player, TurnPage(s, slot)))
  }

  /**
   * `handleWeaponSelectClick`: nothing without a session; 45 goes back to
   * the category menu; 48 (above page 0) and 50 turn the page; a click on
   * an icon at 0..44 selects the recognised weapon (with its category and
   * computed ammo) or custom item for the current slot type and goes back
   * to the category menu.
   */
  function WeaponSelectClick(st: State, player: Uuid, slot: int, item: Clicked, env: Env): (r: State)
    requires Db.Valid(st.manager.store)
    ensures r.manager.store == st.manager.store && r.guard == st.guard
    ensures player !in st.manager.sessions ==> r == st
    ensures player in st.manager.sessions && slot == NextButton ==>
      player in r.manager.sessions &&
      r.manager.sessions[player].currentPage == st.manager.sessions[player].currentPage + 1
    ensures (player in st.manager.sessions && 0 <= slot < PageIcons && item.Icon? &&
             st.manager.sessions[player].currentSlotType.Some?) ==>
      var s := st.manager.sessions[player];
      var t := s.currentSlotType.value;
      var cat := env.sources.catalog;
      var w := item.weaponTitle;
      var custom := Config.CustomItemIdFor(env.sources.settings.customItems, item.material);
      (w.Some? ==>
        player in r.manager.sessions &&
        r.manager.sessions[player].selectedSlots == s.selectedSlots[t := CatalogSlot(t, w.value,
          Get(cat.weaponCategories, w.value),
          Weapons.CalculateAmmo(cat, env.sources.settings, w.value, env.sources.magazineSize(w.value)))]) &&
      (w.None? && custom.Some? ==>
        player in r.manager.sessions &&
        r.manager.sessions[player].selectedSlots == s.selectedSlots[t := CustomSlot(t, custom.value, false)]) &&
      (w.None? && custom.None? ==> r == st)
    ensures !(0 <= slot <= BackButton) && slot != PreviousButton && slot != NextButton ==>
      r == st
  {
    match LM.GetEditSession(st.manager, player)
    case None => st
    case Some(s) =>
      if slot == BackButton then OpenCategoryMenu(st, player, s.editingSlotNumber, env)
      else if slot == PreviousButton && s.currentPage > 0 then PageClick(st, player, s, slot)
      else if slot == NextButton then PageClick(st, player, s, slot)
      else if 0 <= slot < PageIcons && item.Icon? && s.currentSlotType.Some? then
        var slotType := s.currentSlotType.value;
        var cat := env.sources.catalog;
        var settings := env.sources.settings;
        var chosen :=
          if item.weaponTitle.Some? then
            var title := item.weaponTitle.value;
            Some(CatalogSlot(slotType, title, Get(cat.weaponCategories, title),
                             Weapons.CalculateAmmo(cat, settings, title, env.sources.magazineSize(title))))
          else
            match Config.CustomItemIdFor(settings.customItems, item.material)
            case Some(id) => Some(CustomSlot(slotType, id, false))
            case None => None;
        if chosen.None? then st
        else
          var st1 := st.(manager := LM.PutSession(st.manager, player, EditSessions.SetSlot(s, slotType, chosen.value)));
          if slotType in settings.slots then OpenCategoryMenu(st1, player, s.editingSlotNumber, env) else st1
      else st
  }

  /**
   * `handleAttachmentSelectClick`: nothing without a session; 45 goes back;
   * 48 (above page 0) and 50 turn the page; another position of the
   * navigation row does nothing; a click at 0..44 selects the attachment at
   * `page × perPage + slot` of the current attachment slot, when that slot
   * is configured and the index is inside the list, and goes back to the
   * category menu.
   */
  function AttachmentSelectClick(st: State, player: Uuid, slot: int, env: Env): (r: State)
    requires Db.Valid(st.manager.store)
    ensures r.manager.store == st.manager.store && r.guard == st.guard
    ensures player !in st.manager.sessions ==> r == st
    ensures player in st.manager.sessions && slot < BackButton ==>
      var s := st.manager.sessions[player];
      var cats := AttachmentSlot(env.layout, s.currentAttachmentSlot);
      var pick := if cats.Some? then
        AttachmentAt(Weapons.AttachmentsForCategories(env.sources.catalog, cats.value), s.currentPage,
                     env.sources.settings.itemsPerPage, slot)
        else None;
      (pick.None? ==> r == st) &&
      (pick.Some? ==> r == OpenCategoryMenu(
        st.(manager := LM.PutSession(st.manager, player,
          EditSessions.SetAttachment(s, s.currentAttachmentSlot.value, pick.value))),
        player, s.editingSlotNumber, env))
  {
    match LM.GetEditSession(st.manager, player)
    case None => st
    case Some(s) =>
      if slot == BackButton then OpenCategoryMenu(st, player, s.editingSlotNumber, env)
      else if slot == PreviousButton && s.currentPage > 0 then PageClick(st, player, s, slot)
      else if slot == NextButton then PageClick(st, player, s, slot)
      else if slot >= BackButton then st
      else
        match AttachmentSlot(env.layout, s.currentAttachmentSlot)
        case None => st
        case Some(cats) =>
          var attachments := Weapons.AttachmentsForCategories(env.sources.catalog, cats);
          match AttachmentAt(attachments, s.currentPage, env.sources.settings.itemsPerPage, slot)
          case None => st
          case Some(id) =>
            var st1 := st.(manager := LM.PutSession(st.manager, player,
              EditSessions.SetAttachment(s, s.currentAttachmentSlot.value, id)));
            OpenCategoryMenu(st1, player, s.editingSlotNumber, env)
  }

  /**
   * `onInventoryClick`: clicks of a player without a tracked menu are left
   * alone; every other click is cancelled, and only a click on an item in
   * the menu itself is handled, by the handler of the open menu.
   */
  function OnInventoryClick(st: State, player: Uuid, inv: Contents, click: Click, env: Env,
                            slotOrder: seq<string>, attachmentOrder: seq<string>): (r: Outcome)
    requires Db.Valid(st.manager.store) && Enumerated(st.manager, player, slotOrder, attachmentOrder)
    ensures r.cancelled <==> player in st.open
    ensures player !in st.open || !click.inMenu || click.item.NoItem? ==> r == Outcome(st, inv, r.cancelled)
    ensures r.state.manager.store == st.manager.store
  {
    if player !in st.open then Outcome(st, inv, false)
    else if !click.inMenu || click.item.NoItem? then Outcome(st, inv, true)
    else
      match st.open[player]
      case MainMenu =>
        var (s, i) := MainMenuClick(st, player, inv, click.slot, env);
        Outcome(s, i, true)
      case SlotSelect => Outcome(SlotSelectClick(st, player, click.slot, env), inv, true)
      case CategoryMenu =>
        var (s, i) := CategoryMenuClick(st, player, inv, click.slot, env, slotOrder, attachmentOrder);
        Outcome(s, i, true)
      case WeaponSelect => Outcome(WeaponSelectClick(st, player, click.slot, click.item, env), inv, true)
      case AttachmentSelect => Outcome(AttachmentSelectClick(st, player, click.slot, env), inv, true)
  }

  /** An attachment-only selection cannot be confirmed: the confirm button does nothing. */
  lemma AttachmentsAloneCannotBeConfirmed(st: State, player: Uuid, inv: Contents, env: Env,
                                          slotOrder: seq<string>, attachmentOrder: seq<string>)
    requires Db.Valid(st.manager.store) && Enumerated(st.manager, player, slotOrder, attachmentOrder)
    requires player in st.open && st.open[player] == CategoryMenu
    requires player in st.manager.sessions && |st.manager.sessions[player].selectedSlots| == 0
    ensures forall item: Clicked :: item.Icon? ==>
      OnInventoryClick(st, player, inv, Click(ConfirmButton, true, item), env, slotOrder, attachmentOrder) ==
      Outcome(st, inv, true)
  {
  }

  // -------------------------------------------------------------- closing

  /** `onInventoryClose`: the menu is no longer tracked; nothing else changes. */
  function OnInventoryClose(st: State, player: Uuid): (r: State)
    ensures player !in r.open && forall p :: p != player ==> (p in r.open <==> p in st.open)
    ensures r.manager == st.manager && r.guard == st.guard
  {
    st.(open := st.open - {player})
  }

  /** `onPlayerQuit`: forgets the menu, ends the edit session and drops every cached loadout of the player. */
  function OnPlayerQuit(st: State, player: Uuid): (r: State)
    ensures player !in r.open && !LM.HasEditSession(r.manager, player)
    ensures forall n :: LM.Cached(r.manager.cache, player, n).None?
    ensures forall p :: p != player ==> LM.GetEditSession(r.manager, p) == LM.GetEditSession(st.manager, p)
    ensures forall o, n :: o != player ==> LM.Cached(r.manager.cache, o, n) == LM.Cached(st.manager.cache, o, n)
    ensures r.manager.store == st.manager.store && r.guard == st.guard
  {
    st.(open := st.open - {player}, manager := LM.ClearCache(LM.EndEditSession(st.manager, player), player))
  }
}

=== FILE: inventory.dfy ===
/**
 * The live player inventory as the plugin sees it through Bukkit's
 * `PlayerInventory`: 41 positions, of which 0..35 are storage (0..8 the
 * hotbar), 36..39 the armor and 40 the off-hand. Items are immutable
 * values, so Bukkit's `clone()` is the identity here.
 */
module Inventories {
  import opened Wrappers

  /** Bukkit never reports a maximum stack size below 1. */
  type StackSize = n: int | 1 <= n witness 1

  /** An item stack: `kind` stands for material and all item metadata. */
  datatype Item = Item(kind: string, amount: int, maxStack: StackSize)

  const InventorySize: int := 41
  const StorageSize: int := 36
  const HotbarSize: int := 9
  const ArmorStart: int := 36
  const ArmorSize: int := 4
  const OffHandIndex: int := 40

  /** `getContents()`: every position, empty ones as `None`. */
  type Contents = s: seq<Option<Item>> | |s| == InventorySize witness EmptyContents()

  /** `getArmorContents()`: the four armor positions. */
  type Armor = s: seq<Option<Item>> | |s| == ArmorSize witness seq(ArmorSize, _ => None)

  function EmptyContents(): (c: seq<Option<Item>>)
    ensures |c| == InventorySize
    ensures forall i :: 0 <= i < |c| ==> c[i].None?
  {
    seq(InventorySize, _ => None)
  }

  /** `clear()`: empties every position, armor and off-hand included. */
  function Clear(inv: Contents): (r: Contents)
    ensures forall i :: 0 <= i < InventorySize ==> r[i].None?
  {
    EmptyContents()
  }

  function GetArmor(inv: Contents): (a: Armor)
    ensures forall k :: 0 <= k < ArmorSize ==> a[k] == inv[ArmorStart + k]
  {
    inv[ArmorStart..ArmorStart + ArmorSize]
  }

  /** `setArmorContents(armor)`, where `None` is Java's `null` (clears the armor). */
  function SetArmor(inv: Contents, armor: Option<Armor>): (r: Contents)
    ensures forall i :: 0 <= i < InventorySize && !(ArmorStart <= i < ArmorStart + ArmorSize) ==> r[i] == inv[i]
    ensures forall k :: 0 <= k < ArmorSize ==> r[ArmorStart + k] == (if armor.Some? then armor.value[k] else None)
  {
    var a: seq<Option<Item>> := if armor.Some? then armor.value else seq(ArmorSize, _ => None);
    inv[..ArmorStart] + a + inv[ArmorStart + ArmorSize..]
  }

  function GetOffHand(inv: Contents): Option<Item>
  {
    inv[OffHandIndex]
  }

  /** `setItemInOffHand(item)`; `None` empties the off-hand. */
  function SetOffHand(inv: Contents, item: Option<Item>): (r: Contents)
    ensures r[OffHandIndex] == item
    ensures forall i :: 0 <= i < OffHandIndex ==> r[i] == inv[i]
  {
    inv[OffHandIndex := item]
  }

  /** `setItem(i, item)` for a valid position. */
  function SetItem(inv: Contents, i: int, item: Option<Item>): (r: Contents)
    requires 0 <= i < InventorySize
    ensures r[i] == item
    ensures forall j :: 0 <= j < InventorySize && j != i ==> r[j] == inv[j]
  {
    inv[i := item]
  }

  /** `firstEmpty()`: the lowest empty storage position at or after `from`. */
  function FirstEmptyFrom(inv: Contents, from: nat): (r: Option<int>)
    requires from <= StorageSize
    ensures r.Some? ==> from <= r.value < StorageSize && inv[r.value].None?
    ensures r.Some? ==> forall j :: from <= j < r.value ==> inv[j].Some?
    ensures r.None? ==> forall j :: from <= j < StorageSize ==> inv[j].Some?
    decreases StorageSize - from
  {
    if from == StorageSize then None
    else if inv[from].None? then Some(from)
    else FirstEmptyFrom(inv, from + 1)
  }

  /**
   * `addItem(item)` into an inventory holding no stack the item could merge
   * with: it goes to the first empty storage position; with no room it is
   * returned as leftover, which the plugin ignores, so it is lost.
   */
  function AddItem(inv: Contents, item: Item): (r: Contents)
    ensures (forall j :: 0 <= j < StorageSize ==> inv[j].Some?) ==> r == inv
    ensures forall k :: 0 <= k < StorageSize && inv[k].None? && (forall j :: 0 <= j < k ==> inv[j].Some?) ==>
      r == inv[k := Some(item)]
  {
    match FirstEmptyFrom(inv, 0)
    case Some(k) => SetItem(inv, k, Some(item))
    case None => inv
  }
}

=== FILE: loadout.dfy ===
/**
 * A player's saved loadout: identity (store id, owner, name), the slot
 * assignments keyed by slot type, the chosen attachments, and the arranged
 * final inventory snapshot. Clock readings are passed in as `now`.
 */
module Loadouts {
  import opened Wrappers
  import opened Inventories
  import opened LoadoutSlots

  /** An owner's UUID in its canonical text form. */
  type Uuid = string

  /** The id of a loadout that has never been written to the store. */
  const UnsavedId: int := -1

  datatype Loadout = Loadout(
    id: int,
    owner: Uuid,
    name: string,
    slots: map<string, SlotAssignment>,
    attachments: map<string, string>,
    finalItems: seq<Option<Item>>,
    createdAt: int,
    updatedAt: int)

  /** The loadout with every stored part forgotten: what `equals` looks at. */
  function Identity(l: Loadout): (int, Uuid, string)
  {
    (l.id, l.owner, l.name)
  }

  /** Two loadouts with the same identity, store timestamps and creation time. */
  predicate SameHeader(a: Loadout, b: Loadout)
  {
    a.id == b.id && a.owner == b.owner && a.name == b.name && a.createdAt == b.createdAt
  }

  /** Every slot assignment is filed under its own slot type. */
  predicate WellKeyed(slots: map<string, SlotAssignment>)
  {
    forall k :: k in slots ==> slots[k].slotType == k
  }

  /** The constructor for a fresh loadout. */
  function NewLoadout(owner: Uuid, name: string, now: int): (l: Loadout)
    ensures l.id == UnsavedId && !IsSaved(l)
    ensures l.owner == owner && l.name == name
    ensures l.slots == map[] && l.attachments == map[] && !HasFinalItems(l)
    ensures l.createdAt == now && l.updatedAt == now
  {
    Loadout(UnsavedId, owner, name, map[], map[], [], now, now)
  }

  /** The constructor used when reading a header row back from the store. */
  function StoredLoadout(id: int, owner: Uuid, name: string, createdAt: int, updatedAt: int): (l: Loadout)
    ensures Identity(l) == (id, owner, name)
    ensures l.slots == map[] && l.attachments == map[] && l.finalItems == []
    ensures l.createdAt == createdAt && l.updatedAt == updatedAt
  {
    Loadout(id, owner, name, map[], map[], [], createdAt, updatedAt)
  }

  /** `isSaved`: only the store hands out positive ids. */
  predicate IsSaved(l: Loadout)
  {
    l.id > 0
  }

  /** `hasFinalItems`: a non-empty list, even one holding only empty positions. */
  predicate HasFinalItems(l: Loadout)
  {
    |l.finalItems| > 0
  }

  function SetId(l: Loadout, id: int): (r: Loadout)
    ensures r.id == id && IsSaved(r) == (id > 0)
    ensures r.owner == l.owner && r.name == l.name && r.slots == l.slots
    ensures r.attachments == l.attachments && r.finalItems == l.finalItems
    ensures r.createdAt == l.createdAt && r.updatedAt == l.updatedAt
  {
    l.(id := id)
  }

  /** `setSlot`: overwrites exactly one key and touches the update time. */
  function SetSlot(l: Loadout, key: string, slot: SlotAssignment, now: int): (r: Loadout)
    ensures key in r.slots && r.slots[key] == slot
    ensures forall k :: k != key ==> (k in r.slots <==> k in l.slots)
    ensures forall k :: k != key && k in l.slots ==> r.slots[k] == l.slots[k]
    ensures SameHeader(r, l) && r.attachments == l.attachments && r.finalItems == l.finalItems
    ensures r.updatedAt == now
  {
    l.(slots := l.slots[key := slot], updatedAt := now)
  }

  /** `setAttachment`: overwrites exactly one key and touches the update time. */
  function SetAttachment(l: Loadout, key: string, attachment: string, now: int): (r: Loadout)
    ensures key in r.attachments && r.attachments[key] == attachment
    ensures forall k :: k != key ==> (k in r.attachments <==> k in l.attachments)
    ensures forall k :: k != key && k in l.attachments ==> r.attachments[k] == l.attachments[k]
    ensures SameHeader(r, l) && r.slots == l.slots && r.finalItems == l.finalItems
    ensures r.updatedAt == now
  {
    l.(attachments := l.attachments[key := attachment], updatedAt := now)
  }

  /**
   * `setFinalItems`: the loadout keeps its own copy of the list. Lists are
   * values here, so no later change to the argument can reach it.
   */
  function SetFinalItems(l: Loadout, items: seq<Option<Item>>, now: int): (r: Loadout)
    ensures r.finalItems == items
    ensures HasFinalItems(r) <==> |items| > 0
    ensures SameHeader(r, l) && r.slots == l.slots && r.attachments == l.attachments
    ensures r.updatedAt == now
  {
    l.(finalItems := items, updatedAt := now)
  }

  /** `equals`: compares id, owner and name only. */
  function Equals(a: Loadout, b: Loadout): (r: bool)
    ensures r <==> Identity(a) == Identity(b)
  {
    a.id == b.id && a.owner == b.owner && a.name == b.name
  }

  /** Changing a loadout's contents never changes what it is equal to. */
  lemma EqualsIgnoresContents(a: Loadout, b: Loadout, key: string, slot: SlotAssignment,
                              attKey: string, att: string, items: seq<Option<Item>>, now: int)
    ensures Equals(SetFinalItems(SetAttachment(SetSlot(a, key, slot, now), attKey, att, now), items, now), b)
            == Equals(a, b)
  {
  }
}

=== FILE: loadout_manager.dfy ===
/**
 * The loadout manager: a read-through cache of loadouts keyed by (owner,
 * slot name) in front of the store, the registry of edit sessions (at most
 * one per player), and the save, apply and delete operations built on
 * them. Each asynchronous store call is one sequential step here; clock
 * readings (`now`) and store errors (`readFails`, `fault`, `fails`) are
 * parameters.
 */
module LoadoutManager {
  import opened Wrappers
  import opened Inventories
  import opened LoadoutSlots
  import opened Loadouts
  import opened EditSessions
  import Db = Database

  /** The owner under which server-wide loadouts are filed. */
  const GlobalOwner: Uuid := "00000000-0000-0000-0000-000000000000"

  /** owner -> (slot name -> loadout). */
  type Cache = map<Uuid, map<string, Loadout>>

  datatype Manager = Manager(store: Db.Store, cache: Cache, sessions: map<Uuid, EditSession>)

  /** The cached loadout for (owner, name), if any. */
  function Cached(c: Cache, owner: Uuid, name: string): Option<Loadout>
  {
    if owner in c && name in c[owner] then Some(c[owner][name]) else None
  }

  /**
   * Every cached loadout is filed under its own owner and name and has a
   * store id: entries come either from a store read of that key or from a
   * successful save, which files the loadout under its own owner and name.
   */
  predicate Coherent(c: Cache)
  {
    forall o, n :: o in c && n in c[o] ==> c[o][n].owner == o && c[o][n].name == n && IsSaved(c[o][n])
  }

  /** Puts one entry into the cache, creating the owner's map on first use. */
  function CachePut(c: Cache, owner: Uuid, name: string, l: Loadout): (r: Cache)
    ensures Cached(r, owner, name) == Some(l)
    ensures forall o, n :: (o, n) != (owner, name) ==> Cached(r, o, n) == Cached(c, o, n)
    ensures r.Keys == c.Keys + {owner}
  {
    c[owner := (if owner in c then c[owner] else map[])[name := l]]
  }

  /** Filing a saved loadout under its own owner and name keeps the cache coherent. */
  lemma CachePutCoherent(c: Cache, l: Loadout)
    requires IsSaved(l)
    ensures Coherent(c) ==> Coherent(CachePut(c, l.owner, l.name, l))
  {
    if !Coherent(c) { return; }
    var r: Cache := CachePut(c, l.owner, l.name, l);
    forall o: Uuid, n: string | o in r && n in r[o] ensures r[o][n].owner == o && r[o][n].name == n && IsSaved(r[o][n]) {
      if (o, n) != (l.owner, l.name) {
        assert Cached(r, o, n) == Cached(c, o, n);
      }
    }
  }

  /** Removes one entry from the cache, keeping the owner's (possibly empty) map. */
  function CacheRemove(c: Cache, owner: Uuid, name: string): (r: Cache)
    ensures Cached(r, owner, name).None?
    ensures forall o, n :: (o, n) != (owner, name) ==> Cached(r, o, n) == Cached(c, o, n)
    ensures r.Keys == c.Keys
  {
    if owner in c then c[owner := c[owner] - {name}] else c
  }

  // ---------------------------------------------------------------- lookups

  datatype Lookup = Lookup(manager: Manager, loadout: Option<Loadout>)

  /**
   * `getLoadout(owner, name)`: a cached entry is returned as it is. On a
   * miss the store is read; a loadout found there is cached, absence is not,
   * and a store error reads as absence.
   */
  function GetLoadout(m: Manager, owner: Uuid, name: string, now: int, readFails: bool): (r: Lookup)
    requires Db.Valid(m.store)
    ensures r.manager.store == m.store && r.manager.sessions == m.sessions
    ensures Cached(m.cache, owner, name).Some? ==> r == Lookup(m, Cached(m.cache, owner, name))
    ensures Cached(m.cache, owner, name).None? && readFails ==> r == Lookup(m, None)
    ensures Cached(m.cache, owner, name).None? && !readFails ==>
      r.loadout == Db.Get(m.store, owner, name, now, false).value &&
      (r.loadout.Some? <==> (owner, name) in m.store.headers)
    ensures r.loadout.Some? ==> Cached(r.manager.cache, owner, name) == r.loadout
    ensures r.loadout.None? ==> r.manager.cache == m.cache
    ensures forall o, n :: (o, n) != (owner, name) ==> Cached(r.manager.cache, o, n) == Cached(m.cache, o, n)
    ensures Coherent(m.cache) ==> Coherent(r.manager.cache) && (r.loadout.Some? ==>
      r.loadout.value.owner == owner && r.loadout.value.name == name && IsSaved(r.loadout.value))
  {
    var hit := Cached(m.cache, owner, name);
    if hit.Some? then Lookup(m, hit)
    else
      match Db.Get(m.store, owner, name, now, readFails)
      case SqlError => Lookup(m, None)
      case Done(None) => Lookup(m, None)
      case Done(Some(l)) =>
        CachePutCoherent(m.cache, l);
        Lookup(m.(cache := CachePut(m.cache, owner, name, l)), Some(l))
  }

  /** A cache hit does not depend on the store, the clock or store errors. */
  lemma CacheHitIgnoresStore(m: Manager, other: Db.Store, owner: Uuid, name: string,
                             now1: int, now2: int, fails1: bool, fails2: bool)
    requires Db.Valid(m.store) && Db.Valid(other)
    requires Cached(m.cache, owner, name).Some?
    ensures GetLoadout(m, owner, name, now1, fails1).loadout == GetLoadout(m.(store := other), owner, name, now2, fails2).loadout
  {
  }

  // ----------------------------------------------------------------- saving

  datatype Saved = Saved(manager: Manager, loadout: Loadout, ok: bool)

  /**
   * `saveLoadout(l)`: writes to the store and, only once that committed,
   * caches the loadout (now carrying its store id) under (owner, name).
   */
  function SaveLoadout(m: Manager, l: Loadout, fault: Option<Db.SaveStep>): (r: Saved)
    requires Db.Valid(m.store)
    ensures Db.Valid(r.manager.store)
    ensures r.ok <==> Db.Save(m.store, l, fault).committed
    ensures r.manager.store == Db.Save(m.store, l, fault).store && r.loadout == Db.Save(m.store, l, fault).loadout
    ensures r.manager.sessions == m.sessions
    ensures !r.ok ==> r.manager.cache == m.cache
    ensures r.ok ==> Cached(r.manager.cache, l.owner, l.name) == Some(r.loadout) && IsSaved(r.loadout)
    ensures forall o, n :: (o, n) != (l.owner, l.name) ==> Cached(r.manager.cache, o, n) == Cached(m.cache, o, n)
    ensures Coherent(m.cache) ==> Coherent(r.manager.cache)
  {
    var out := Db.Save(m.store, l, fault);
    if out.committed then
      CachePutCoherent(m.cache, out.loadout);
      Saved(m.(store := out.store, cache := CachePut(m.cache, l.owner, l.name, out.loadout)), out.loadout, true)
    else
      Saved(m.(store := out.store), out.loadout, false)
  }

  /** Whose loadout a save from `player` writes: the global one iff the session edits it. */
  function TargetOwner(m: Manager, player: Uuid): (owner: Uuid)
    ensures owner == GlobalOwner <==> (player in m.sessions && m.sessions[player].editingGlobal) || player == GlobalOwner
  {
    if player in m.sessions && m.sessions[player].editingGlobal then GlobalOwner else player
  }

  /** The session's selections written over the loadout's, keyed by slot type and attachment key. */
  function MergeSession(l: Loadout, session: Option<EditSession>, now: int): (r: Loadout)
    ensures SameHeader(r, l)
    ensures session.None? ==> r.slots == l.slots && r.attachments == l.attachments
    ensures session.Some? ==> r.slots == l.slots + session.value.selectedSlots
    ensures session.Some? && WellKeyed(session.value.selectedSlots) ==>
      forall k :: k in session.value.selectedSlots ==>
        session.value.selectedSlots[k].slotType in r.slots &&
        r.slots[session.value.selectedSlots[k].slotType] == session.value.selectedSlots[k]
    ensures session.Some? ==> r.attachments == l.attachments + session.value.selectedAttachments
    ensures r.finalItems == l.finalItems
  {
    if session.None? then l
    else
      var s := session.value;
      var t := if s.selectedSlots == map[] && s.selectedAttachments == map[] then l.updatedAt else now;
      l.(slots := l.slots + s.selectedSlots, attachments := l.attachments + s.selectedAttachments, updatedAt := t)
  }

  /**
   * The loadout `saveCurrentInventory` writes: the one found (stamped with
   * the clock) or a new unsaved one, the session's selections written over
   * its own, and the whole inventory as its final items.
   */
  function BuildLoadout(found: Option<Loadout>, owner: Uuid, name: string, session: Option<EditSession>,
                        contents: Contents, now: int): (r: Loadout)
    requires found.Some? ==> found.value.owner == owner && found.value.name == name && IsSaved(found.value)
    ensures r.owner == owner && r.name == name && r.finalItems == contents
    ensures IsSaved(r) <==> found.Some?
    ensures found.Some? ==> Identity(r) == Identity(found.value)
    ensures found.Some? ==> forall k :: k in found.value.slots && (session.None? || k !in session.value.selectedSlots) ==>
      k in r.slots && r.slots[k] == found.value.slots[k]
    ensures found.None? && session.None? ==> r.slots == map[] && r.attachments == map[]
    ensures forall k :: k in r.slots ==>
      (session.Some? && k in session.value.selectedSlots) || (found.Some? && k in found.value.slots)
    ensures session.Some? ==> forall k :: k in session.value.selectedSlots ==>
      k in r.slots && r.slots[k] == session.value.selectedSlots[k]
    ensures session.Some? ==> forall k :: k in session.value.selectedAttachments ==>
      k in r.attachments && r.attachments[k] == session.value.selectedAttachments[k]
  {
    var base := if found.Some? then found.value.(updatedAt := now) else NewLoadout(owner, name, now);
    SetFinalItems(MergeSession(base, session, now), contents, now)
  }

  datatype Prepared = Prepared(manager: Manager, loadout: Loadout, reused: bool)

  /** The session `player` has open, if any. */
  function SessionOf(m: Manager, player: Uuid): (r: Option<EditSession>)
    ensures r.Some? <==> player in m.sessions
    ensures r.Some? ==> r.value == m.sessions[player]
  {
    if player in m.sessions then Some(m.sessions[player]) else None
  }

  /**
   * The part of `saveCurrentInventory` before the write: look the loadout
   * up (which may cache it), build the loadout to write and end the
   * session. A reused loadout is the very object held in the cache, so the
   * cache already shows the built loadout.
   */
  function PrepareSave(m: Manager, player: Uuid, name: string, contents: Contents, now: int, readFails: bool): (r: Prepared)
    requires Db.Valid(m.store) && Coherent(m.cache)
    ensures r.manager.store == m.store
    ensures r.manager.sessions == m.sessions - {player}
    ensures
      var found := GetLoadout(m, TargetOwner(m, player), name, now, readFails).loadout;
      (r.reused <==> found.Some?) &&
      r.loadout == BuildLoadout(found, TargetOwner(m, player), name, SessionOf(m, player), contents, now)
    ensures r.reused ==> Cached(r.manager.cache, TargetOwner(m, player), name) == Some(r.loadout)
    ensures forall o, n :: (o, n) != (TargetOwner(m, player), name) ==> Cached(r.manager.cache, o, n) == Cached(m.cache, o, n)
    ensures !r.reused ==> r.manager.cache == GetLoadout(m, TargetOwner(m, player), name, now, readFails).manager.cache
    ensures Coherent(r.manager.cache)
  {
    var target := TargetOwner(m, player);
    var got := GetLoadout(m, target, name, now, readFails);
    var built := BuildLoadout(got.loadout, target, name, SessionOf(m, player), contents, now);
    var m1 := got.manager.(sessions := got.manager.sessions - {player});
    if got.loadout.Some? then
      CachePutCoherent(m1.cache, built);
      Prepared(m1.(cache := CachePut(m1.cache, target, name, built)), built, true)
    else Prepared(m1, built, false)
  }

  /**
   * `saveCurrentInventory(player, name)`: prepares the loadout as above,
   * then saves it. On success the cache holds the saved loadout; on failure
   * a reused loadout stays in the cache in its merged form although the
   * store was not changed.
   */
  function SaveCurrentInventory(m: Manager, player: Uuid, name: string, contents: Contents, now: int,
                                readFails: bool, fault: Option<Db.SaveStep>): (r: Saved)
    requires Db.Valid(m.store) && Coherent(m.cache)
    ensures Db.Valid(r.manager.store) && Coherent(r.manager.cache)
    ensures !HasEditSession(r.manager, player)
    ensures forall p :: p != player ==> GetEditSession(r.manager, p) == GetEditSession(m, p)
    ensures r.loadout.owner == TargetOwner(m, player) && r.loadout.name == name
    ensures r.loadout.finalItems == contents && HasFinalItems(r.loadout)
    ensures r.ok ==> IsSaved(r.loadout) && Cached(r.manager.cache, TargetOwner(m, player), name) == Some(r.loadout)
    ensures !r.ok && PrepareSave(m, player, name, contents, now, readFails).reused ==>
      Cached(r.manager.cache, TargetOwner(m, player), name) == Some(PrepareSave(m, player, name, contents, now, readFails).loadout)
    ensures !r.ok && !PrepareSave(m, player, name, contents, now, readFails).reused ==>
      Cached(r.manager.cache, TargetOwner(m, player), name) == Cached(m.cache, TargetOwner(m, player), name)
  {
    var p := PrepareSave(m, player, name, contents, now, readFails);
    SaveLoadout(p.manager, p.loadout, fault)
  }

  // --------------------------------------------------------------- applying

  /** The inventory after `clear()` and copying item i to position i for every i below both lengths. */
  function Applied(items: seq<Option<Item>>): (c: Contents)
    ensures forall i :: 0 <= i < InventorySize ==> c[i] == (if i < |items| then items[i] else None)
  {
    seq(InventorySize, i requires 0 <= i < InventorySize => if i < |items| then items[i] else None)
  }

  datatype Applying = Applying(manager: Manager, inventory: Contents, applied: bool)

  /**
   * `applyLoadout(player, name)`: fails, leaving the inventory alone, iff
   * there is no such loadout or it has no final items; otherwise the
   * inventory becomes the final items, positions beyond them empty.
   */
  function ApplyLoadout(m: Manager, player: Uuid, name: string, inv: Contents, now: int, readFails: bool): (r: Applying)
    requires Db.Valid(m.store)
    ensures r.manager == GetLoadout(m, player, name, now, readFails).manager
    ensures
      var found := GetLoadout(m, player, name, now, readFails).loadout;
      (r.applied <==> found.Some? && HasFinalItems(found.value)) &&
      (!r.applied ==> r.inventory == inv) &&
      (r.applied ==> forall i :: 0 <= i < InventorySize ==>
        r.inventory[i] == (if i < |found.value.finalItems| then found.value.finalItems[i] else None))
  {
    var got := GetLoadout(m, player, name, now, readFails);
    if got.loadout.None? || !HasFinalItems(got.loadout.value) then Applying(got.manager, inv, false)
    else Applying(got.manager, Applied(got.loadout.value.finalItems), true)
  }

  /** Applying an inventory snapshot, with or without its trailing empty positions, gives the inventory back. */
  lemma AppliedSnapshot(c: Contents)
    ensures Applied(c) == c
    ensures Applied(Db.TrimTrailing(c)) == c
  {
    var t := Db.TrimTrailing(c);
    forall i | 0 <= i < InventorySize ensures Applied(t)[i] == c[i] {
      if i < |t| {
        assert t[i] == c[i];
      }
    }
  }

  /**
   * Saving the inventory and applying the same slot while the cache still
   * holds it puts every position back, whatever the store does on the read.
   */
  lemma SaveThenApplyFromCache(m: Manager, player: Uuid, name: string, contents: Contents, now: int,
                               readFails: bool, fault: Option<Db.SaveStep>, inv: Contents, now2: int, fails2: bool)
    requires Db.Valid(m.store) && Coherent(m.cache)
    requires TargetOwner(m, player) == player
    ensures
      var r := SaveCurrentInventory(m, player, name, contents, now, readFails, fault);
      r.ok ==> ApplyLoadout(r.manager, player, name, inv, now2, fails2) == Applying(r.manager, contents, true)
  {
    AppliedSnapshot(contents);
  }

  /** Every cached loadout is the one the store files under its key, with well-keyed slots. */
  predicate Filed(m: Manager)
  {
    forall o, n :: o in m.cache && n in m.cache[o] ==>
      Db.FiledUnderOwnKey(m.store, m.cache[o][n]) && WellKeyed(m.cache[o][n].slots)
  }

  /** The trailing-empty-trimmed snapshot is empty exactly when every position is empty. */
  lemma TrimmedEmpty(c: seq<Option<Item>>)
    ensures |Db.TrimTrailing(c)| > 0 <==> Db.HasNonEmpty(c)
  {
    var t := Db.TrimTrailing(c);
    if |t| > 0 {
      assert c[|t| - 1] == t[|t| - 1];
    }
  }

  /**
   * Saving the inventory, losing the cache (the player quits) and applying
   * the same slot reads the loadout back from the store: every position is
   * put back when the snapshot had any item, while an all-empty snapshot
   * reads back as a loadout without final items and applying it fails,
   * leaving the inventory as it is.
   */
  lemma SaveThenApplyAfterEviction(m: Manager, player: Uuid, name: string, contents: Contents, now: int,
                                   inv: Contents, now2: int)
    requires Db.Valid(m.store) && Coherent(m.cache) && Filed(m)
    requires player !in m.sessions || (WellFormed(m.sessions[player]) && !m.sessions[player].editingGlobal)
    ensures SaveCurrentInventory(m, player, name, contents, now, false, None).ok
    ensures
      var r := SaveCurrentInventory(m, player, name, contents, now, false, None);
      var a := ApplyLoadout(ClearCache(r.manager, player), player, name, inv, now2, false);
      (a.applied <==> Db.HasNonEmpty(contents)) &&
      (a.applied ==> a.inventory == contents) && (!a.applied ==> a.inventory == inv)
  {
    StoredAfterSave(m, player, name, contents, now, now2);
    var r := SaveCurrentInventory(m, player, name, contents, now, false, None);
    ApplyFromStore(ClearCache(r.manager, player), player, name, contents, inv, now2);
  }

  /** Under the same conditions the save commits and the store then holds the trimmed snapshot under the player's key. */
  lemma StoredAfterSave(m: Manager, player: Uuid, name: string, contents: Contents, now: int, now2: int)
    requires Db.Valid(m.store) && Coherent(m.cache) && Filed(m)
    requires player !in m.sessions || (WellFormed(m.sessions[player]) && !m.sessions[player].editingGlobal)
    ensures
      var r := SaveCurrentInventory(m, player, name, contents, now, false, None);
      var g := Db.Get(r.manager.store, player, name, now2, false);
      r.ok && Db.Valid(r.manager.store) &&
      g.Done? && g.value.Some? && g.value.value.finalItems == Db.TrimTrailing(contents)
  {
    var p := PrepareSave(m, player, name, contents, now, false);
    PreparedIsWritable(m, player, name, contents, now);
    Db.SaveThenGet(m.store, p.loadout, now2);
    assert SaveCurrentInventory(m, player, name, contents, now, false, None) == SaveLoadout(p.manager, p.loadout, None);
  }

  /** Applying a slot that is not cached reads it from the store and restores the trimmed snapshot stored there. */
  lemma ApplyFromStore(m: Manager, player: Uuid, name: string, contents: Contents, inv: Contents, now: int)
    requires Db.Valid(m.store) && Cached(m.cache, player, name).None?
    requires
      var g := Db.Get(m.store, player, name, now, false);
      g.Done? && g.value.Some? && g.value.value.finalItems == Db.TrimTrailing(contents)
    ensures
      var a := ApplyLoadout(m, player, name, inv, now, false);
      (a.applied <==> Db.HasNonEmpty(contents)) &&
      (a.applied ==> a.inventory == contents) && (!a.applied ==> a.inventory == inv)
  {
    TrimmedEmpty(contents);
    AppliedSnapshot(contents);
  }

  /**
   * With a coherent, filed cache and a well-formed session that does not
   * edit the global loadouts, the loadout `saveCurrentInventory` writes can
   * be inserted and is filed under the player's own key.
   */
  lemma PreparedIsWritable(m: Manager, player: Uuid, name: string, contents: Contents, now: int)
    requires Db.Valid(m.store) && Coherent(m.cache) && Filed(m)
    requires player !in m.sessions || (WellFormed(m.sessions[player]) && !m.sessions[player].editingGlobal)
    ensures
      var p := PrepareSave(m, player, name, contents, now, false);
      p.manager.store == m.store && p.loadout.owner == player && p.loadout.name == name &&
      p.loadout.finalItems == contents &&
      WellKeyed(p.loadout.slots) && Db.Insertable(m.store, p.loadout) && Db.FiledUnderOwnKey(m.store, p.loadout)
  {
    var got := GetLoadout(m, player, name, now, false);
    var session := SessionOf(m, player);
    var built := BuildLoadout(got.loadout, player, name, session, contents, now);
    if got.loadout.Some? {
      var f := got.loadout.value;
      assert Db.FiledUnderOwnKey(m.store, f) && WellKeyed(f.slots);
      assert f.id in Db.Ids(m.store);
    }
    assert WellKeyed(built.slots) by {
      forall k | k in built.slots ensures built.slots[k].slotType == k {
        if session.Some? && k in session.value.selectedSlots {
        } else {
          assert got.loadout.Some? && k in got.loadout.value.slots;
          assert WellKeyed(got.loadout.value.slots);
        }
      }
    }
    Db.SlotRowsForWellKeyed(built.slots);
  }

  // --------------------------------------------------------------- deleting

  /**
   * `deleteLoadout(owner, name)`: deletes in the store and evicts exactly
   * the (owner, name) cache entry, and only when the store reports that a
   * row was deleted. A store error reads as "not deleted".
   */
  function DeleteLoadout(m: Manager, owner: Uuid, name: string, fails: bool): (r: (Manager, bool))
    requires Db.Valid(m.store)
    ensures Db.Valid(r.0.store)
    ensures r.1 <==> !fails && (owner, name) in m.store.headers
    ensures r.1 ==> (owner, name) !in r.0.store.headers && Cached(r.0.cache, owner, name).None?
    ensures !r.1 ==> r.0 == m
    ensures forall o, n :: (o, n) != (owner, name) ==> Cached(r.0.cache, o, n) == Cached(m.cache, o, n)
    ensures r.0.sessions == m.sessions
  {
    match Db.Delete(m.store, owner, name, fails)
    case SqlError => (m, false)
    case Done((s, deleted)) =>
      if deleted then (m.(store := s, cache := CacheRemove(m.cache, owner, name)), true)
      else (m.(store := s), false)
  }

  // ----------------------------------------------------------- edit sessions

  /** `startEditSession`: always a fresh session, replacing any previous one. */
  function StartEditSession(m: Manager, player: Uuid, now: int): (r: (Manager, EditSession))
    ensures r.1 == NewSession(player, now)
    ensures player in r.0.sessions && r.0.sessions[player] == r.1
    ensures r.0 == m.(sessions := r.0.sessions)
    ensures forall p :: p != player ==> GetEditSession(r.0, p) == GetEditSession(m, p)
  {
    var s := NewSession(player, now);
    (m.(sessions := m.sessions[player := s]), s)
  }

  function GetEditSession(m: Manager, player: Uuid): (r: Option<EditSession>)
    ensures r.Some? <==> HasEditSession(m, player)
    ensures r.Some? ==> r.value == m.sessions[player]
  {
    if player in m.sessions then Some(m.sessions[player]) else None
  }

  predicate HasEditSession(m: Manager, player: Uuid)
  {
    player in m.sessions
  }

  function EndEditSession(m: Manager, player: Uuid): (r: Manager)
    ensures !HasEditSession(r, player)
    ensures r == m.(sessions := r.sessions)
    ensures forall p :: p != player ==> GetEditSession(r, p) == GetEditSession(m, p)
  {
    m.(sessions := m.sessions - {player})
  }

  /** Replaces the player's session (the Java session object is mutated in place). */
  function PutSession(m: Manager, player: Uuid, s: EditSession): (r: Manager)
    ensures GetEditSession(r, player) == Some(s)
    ensures r == m.(sessions := r.sessions)
    ensures forall p :: p != player ==> GetEditSession(r, p) == GetEditSession(m, p)
  {
    m.(sessions := m.sessions[player := s])
  }

  // ------------------------------------------------------------------ cache

  /** `clearCache(owner)`: forgets every cached loadout of that owner only. */
  function ClearCache(m: Manager, owner: Uuid): (r: Manager)
    ensures forall n :: Cached(r.cache, owner, n).None?
    ensures forall o, n :: o != owner ==> Cached(r.cache, o, n) == Cached(m.cache, o, n)
    ensures r == m.(cache := r.cache)
  {
    m.(cache := m.cache - {owner})
  }

  /** `clearAllCaches`: forgets every cached loadout and every edit session. */
  function ClearAllCaches(m: Manager): (r: Manager)
    ensures forall o, n :: Cached(r.cache, o, n).None?
    ensures forall p :: !HasEditSession(r, p)
    ensures r.store == m.store
  {
    m.(cache := map[], sessions := map[])
  }

  /**
   * `getLoadoutCount(owner)`: with the owner's map cached, the number of
   * cached loadouts that have final items; otherwise the number of the
   * owner's header rows in the store, or 0 on a store error.
   */
  function GetLoadoutCount(m: Manager, owner: Uuid, fails: bool): (r: nat)
    ensures owner in m.cache ==> r == |set n | n in m.cache[owner] && HasFinalItems(m.cache[owner][n])|
    ensures owner !in m.cache && fails ==> r == 0
    ensures owner !in m.cache && !fails ==> r == Db.Count(m.store, owner, false).value
  {
    if owner in m.cache then |set n | n in m.cache[owner] && HasFinalItems(m.cache[owner][n])|
    else match Db.Count(m.store, owner, fails)
      case SqlError => 0
      case Done(k) => k
  }

  /** With the owner's cache dropped, the count is the store's count of the owner's loadouts. */
  lemma ClearedCacheCountsStore(m: Manager, owner: Uuid)
    ensures GetLoadoutCount(ClearCache(m, owner), owner, false) == |Db.OwnerKeys(m.store, owner)|
  {
  }

  /**
   * For an owner whose loadouts are not cached, deleting one of them lowers
   * the count by one; a delete that finds nothing leaves the count as it is.
   */
  lemma DeleteLowersUncachedCount(m: Manager, owner: Uuid, name: string, fails: bool)
    requires Db.Valid(m.store) && owner !in m.cache
    ensures
      var (m2, ok) := DeleteLoadout(m, owner, name, fails);
      GetLoadoutCount(m2, owner, false) == GetLoadoutCount(m, owner, false) - (if ok then 1 else 0)
  {
    var (m2, ok) := DeleteLoadout(m, owner, name, fails);
    if ok {
      Db.DeleteCount(m.store, owner, name, owner);
    }
  }

  /**
   * For an uncached owner, a rolled-back save keeps the count; the
   * committed save caches the owner's map with just that loadout, after
   * which the count is 1 if it has final items and 0 otherwise, whatever
   * the store holds.
   */
  lemma SaveUncachedCount(m: Manager, l: Loadout, fault: Option<Db.SaveStep>)
    requires Db.Valid(m.store) && l.owner !in m.cache
    ensures
      var r := SaveLoadout(m, l, fault);
      (!r.ok ==> GetLoadoutCount(r.manager, l.owner, false) == GetLoadoutCount(m, l.owner, false)) &&
      (r.ok ==> (l.owner in r.manager.cache &&
                 GetLoadoutCount(r.manager, l.owner, false) == (if HasFinalItems(r.loadout) then 1 else 0)))
  {
    var r := SaveLoadout(m, l, fault);
    if r.ok {
      var c := r.manager.cache[l.owner];
      assert c == map[l.name := r.loadout];
      CountSingleton(c, l.name, r.loadout);
    } else {
      Db.SaveCount(m.store, l, fault, l.owner);
    }
  }

  lemma CountSingleton(c: map<string, Loadout>, name: string, x: Loadout)
    requires c == map[name := x]
    ensures |set n | n in c && HasFinalItems(c[n])| == if HasFinalItems(x) then 1 else 0
  {
    assert (set n | n in c && HasFinalItems(c[n])) == (if HasFinalItems(x) then {name} else {});
  }
}

=== FILE: loadout_slot.dfy ===
/**
 * One assignment inside a loadout: which weapon or custom item fills a
 * slot type ("primary", "secondary", ...). The value is immutable, as all
 * five fields of the Java class are final.
 */
module LoadoutSlots {
  import opened Wrappers
  import Text

  /** A Java `int` value. */
  type Int32 = x: int | Text.IntMin <= x <= Text.IntMax

  /**
   * `category` is `None` where the Java field is `null`. `wmWeapon` tells a
   * WeaponMechanics catalog weapon from a custom item.
   */
  datatype SlotAssignment = SlotAssignment(
    slotType: string,
    weaponTitle: string,
    category: Option<string>,
    wmWeapon: bool,
    ammoAmount: Int32)

  /** The constructor for a catalog weapon: the catalog flag is always set. */
  function CatalogSlot(slotType: string, weaponTitle: string, category: Option<string>, ammoAmount: Int32): (s: SlotAssignment)
    ensures s.wmWeapon
    ensures s.slotType == slotType && s.weaponTitle == weaponTitle
    ensures s.category == category && s.ammoAmount == ammoAmount
  {
    SlotAssignment(slotType, weaponTitle, category, true, ammoAmount)
  }

  /** The constructor for a custom item: no category and no ammo. */
  function CustomSlot(slotType: string, itemId: string, isWmWeapon: bool): (s: SlotAssignment)
    ensures s.category.None? && s.ammoAmount == 0
    ensures s.weaponTitle == itemId && s.slotType == slotType && s.wmWeapon == isWmWeapon
  {
    SlotAssignment(slotType, itemId, None, isWmWeapon, 0)
  }

  /** The constructor used when rebuilding a slot from a stored row. */
  function StoredSlot(slotType: string, weaponTitle: string, category: Option<string>, wmWeapon: bool, ammoAmount: Int32): (s: SlotAssignment)
    ensures s.slotType == slotType && s.weaponTitle == weaponTitle && s.category == category
    ensures s.wmWeapon == wmWeapon && s.ammoAmount == ammoAmount
  {
    SlotAssignment(slotType, weaponTitle, category, wmWeapon, ammoAmount)
  }

  /** `equals`: field-by-field comparison of all five fields. */
  function Equals(a: SlotAssignment, b: SlotAssignment): (r: bool)
    ensures r <==> a == b
  {
    a.wmWeapon == b.wmWeapon && a.ammoAmount == b.ammoAmount &&
    a.slotType == b.slotType && a.weaponTitle == b.weaponTitle && a.category == b.category
  }

  /** Java's `int` overflow: the value congruent to `x` modulo 2^32 in the `int` range. */
  function Wrap32(x: int): (r: Int32)
    ensures (r - x) % 0x1_0000_0000 == 0
    ensures Text.IntMin <= x <= Text.IntMax ==> r == x
  {
    (x - Text.IntMin) % 0x1_0000_0000 + Text.IntMin
  }

  /** `String.hashCode`: `h = 31*h + c` over the characters, in `int` arithmetic. */
  function StringHash(s: string): (h: Int32)
    ensures s == [] ==> h == 0
    decreases |s|
  {
    if s == [] then 0 else Wrap32(31 * StringHash(s[..|s| - 1]) + (s[|s| - 1] as int))
  }

  /** `Arrays.hashCode` over precomputed element hashes, starting from 1. */
  function HashFold(hs: seq<Int32>): (h: Int32)
    ensures hs == [] ==> h == 1
    decreases |hs|
  {
    if hs == [] then 1 else Wrap32(31 * HashFold(hs[..|hs| - 1]) + hs[|hs| - 1])
  }

  function OptionStringHash(s: Option<string>): Int32
  {
    if s.None? then 0 else StringHash(s.value)
  }

  /** `Boolean.hashCode`. */
  function BoolHash(b: bool): Int32
  {
    if b then 1231 else 1237
  }

  /** `hashCode`: `Objects.hash` over the five fields in declaration order. */
  function HashCode(s: SlotAssignment): (h: Int32)
    ensures h == Wrap32(Horner(1, FieldHashes(s)))
  {
    HashFoldIsWrappedPolynomial(FieldHashes(s));
    HashFold(FieldHashes(s))
  }

  function FieldHashes(s: SlotAssignment): seq<Int32>
  {
    [StringHash(s.slotType), StringHash(s.weaponTitle), OptionStringHash(s.category),
     BoolHash(s.wmWeapon), s.ammoAmount]
  }

  // ------------------------------------------------------ hashing, unwrapped

  /** `h = 31*h + x` over `xs` from `start`, in unbounded arithmetic. */
  function Horner(start: int, xs: seq<int>): int
    decreases |xs|
  {
    if xs == [] then start else 31 * Horner(start, xs[..|xs| - 1]) + xs[|xs| - 1]
  }

  function Codes(s: string): (cs: seq<int>)
    ensures |cs| == |s| && forall i :: 0 <= i < |s| ==> cs[i] == s[i] as int
  {
    seq(|s|, i requires 0 <= i < |s| => s[i] as int)
  }

  /** Two values that differ by a multiple of 2^32 wrap to the same `int`. */
  lemma WrapCongruent(a: int, b: int)
    requires (a - b) % 0x1_0000_0000 == 0
    ensures Wrap32(a) == Wrap32(b)
  {
    var m := 0x1_0000_0000;
    var k := (a - b) / m;
    assert a - b == k * m;
    var x, y := a - Text.IntMin, b - Text.IntMin;
    assert x == y + k * m;
    assert x / m == y / m + k && x % m == y % m by {
      var q, r := y / m, y % m;
      assert y == q * m + r && 0 <= r < m;
      assert x == (q + k) * m + r;
    }
  }

  /** Wrapping once before a `31*h + x` step does not change the wrapped result. */
  lemma WrapStep(a: int, x: int)
    ensures Wrap32(31 * Wrap32(a) + x) == Wrap32(31 * a + x)
  {
    var w := Wrap32(a);
    var k := (w - a) / 0x1_0000_0000;
    assert w - a == k * 0x1_0000_0000;
    assert (31 * w + x) - (31 * a + x) == (31 * k) * 0x1_0000_0000;
    WrapCongruent(31 * w + x, 31 * a + x);
  }

  /**
   * `Arrays.hashCode` wraps at every step; the result is the unbounded
   * polynomial `31^n + x0*31^(n-1) + ... + x(n-1)` wrapped once.
   */
  lemma {:induction false} HashFoldIsWrappedPolynomial(hs: seq<Int32>)
    ensures HashFold(hs) == Wrap32(Horner(1, hs))
    decreases |hs|
  {
    if hs != [] {
      var init := hs[..|hs| - 1];
      HashFoldIsWrappedPolynomial(init);
      WrapStep(Horner(1, init), hs[|hs| - 1]);
    }
  }

  /** `String.hashCode` is the unbounded polynomial over the character codes, wrapped once. */
  lemma {:induction false} StringHashIsWrappedPolynomial(s: string)
    ensures StringHash(s) == Wrap32(Horner(0, Codes(s)))
    decreases |s|
  {
    if s != [] {
      var init := s[..|s| - 1];
      StringHashIsWrappedPolynomial(init);
      assert Codes(s)[..|s| - 1] == Codes(init);
      WrapStep(Horner(0, Codes(init)), s[|s| - 1] as int);
    }
  }

  /** A slot's hash code, written out over its five field hashes. */
  lemma HashCodeIsWrappedPolynomial(s: SlotAssignment)
    ensures HashCode(s) == Wrap32(28629151 + 923521 * StringHash(s.slotType) + 29791 * StringHash(s.weaponTitle)
      + 961 * OptionStringHash(s.category) + 31 * BoolHash(s.wmWeapon) + s.ammoAmount)
  {
    HornerOfFive(FieldHashes(s));
  }

  /** Horner's rule from 1 over five values, expanded. */
  lemma HornerOfFive(xs: seq<int>)
    requires |xs| == 5
    ensures Horner(1, xs) == 28629151 + 923521 * xs[0] + 29791 * xs[1] + 961 * xs[2] + 31 * xs[3] + xs[4]
  {
    var a, b, c, d, e := xs[0], xs[1], xs[2], xs[3], xs[4];
    assert xs[..1][..0] == [] && xs[..1][0] == a;
    assert Horner(1, []) == 1;
    var h1 := Horner(1, xs[..1]);
    assert h1 == 31 + a;
    assert xs[..2][..1] == xs[..1];
    var h2 := Horner(1, xs[..2]);
    assert h2 == 31 * h1 + b;
    assert xs[..3][..2] == xs[..2];
    var h3 := Horner(1, xs[..3]);
    assert h3 == 31 * h2 + c;
    assert xs[..4][..3] == xs[..3];
    var h4 := Horner(1, xs[..4]);
    assert h4 == 31 * h3 + d;
    assert xs[..4] == xs[..|xs| - 1];
    assert Horner(1, xs) == 31 * h4 + e;
  }
}

=== FILE: seqs.dfy ===
/** Order-preserving filtering, as Java's `stream().filter(...).toList()` does it. */
module Seqs {

  /** `a` is `b` with some elements left out, the rest in their original order. */
  predicate SubsequenceOf<T(==)>(a: seq<T>, b: seq<T>)
    decreases |b|
  {
    if |a| == 0 then true
    else if |b| == 0 then false
    else (a[0] == b[0] && SubsequenceOf(a[1..], b[1..])) || SubsequenceOf(a, b[1..])
  }

  /**
   * The elements of `s` that `keep` accepts, in their original order and
   * with their multiplicities.
   */
  function Filter<T(==,!new)>(s: seq<T>, keep: T -> bool): (r: seq<T>)
    ensures forall x :: x in r <==> x in s && keep(x)
    ensures |r| <= |s|
    decreases |s|
  {
    if |s| == 0 then []
    else
      var rest := Filter(s[1..], keep);
      assert s == [s[0]] + s[1..];
      if keep(s[0]) then
        assert ([s[0]] + rest)[1..] == rest;
        [s[0]] + rest
      else rest
  }

  /** The filter keeps the original order. */
  lemma {:induction false} FilterKeepsOrder<T(!new)>(s: seq<T>, keep: T -> bool)
    ensures SubsequenceOf(Filter(s, keep), s)
    decreases |s|
  {
    if |s| > 0 {
      FilterKeepsOrder(s[1..], keep);
      var rest := Filter(s[1..], keep);
      if keep(s[0]) {
        assert ([s[0]] + rest)[1..] == rest;
      } else if |rest| > 0 {
        assert SubsequenceOf(rest, s[1..]);
      }
    }
  }

  /** The filter keeps every accepted element as often as it occurs, and no other. */
  lemma {:induction false} FilterMultiplicity<T(!new)>(s: seq<T>, keep: T -> bool, x: T)
    ensures multiset(Filter(s, keep))[x] == (if keep(x) then multiset(s)[x] else 0)
    decreases |s|
  {
    if |s| > 0 {
      FilterMultiplicity(s[1..], keep, x);
      assert s == [s[0]] + s[1..];
    }
  }

  /** Filtering the concatenation of two sequences filters each of them. */
  lemma {:induction false} FilterAppend<T(!new)>(a: seq<T>, b: seq<T>, keep: T -> bool)
    ensures Filter(a + b, keep) == Filter(a, keep) + Filter(b, keep)
    decreases |a|
  {
    if |a| > 0 {
      assert (a + b)[1..] == a[1..] + b;
      FilterAppend(a[1..], b, keep);
    } else {
      assert a + b == b;
    }
  }
}

=== FILE: sorting.dfy ===
/**
 * `Collections.sort` on a list of strings: the natural (lexicographic)
 * order of `String.compareTo`, and a sort proved to yield the unique
 * sorted permutation of its input.
 */
module Sorting {

  /** `a.compareTo(b) <= 0`: character-wise comparison, a proper prefix first. */
  predicate StrLe(a: string, b: string)
    decreases |a|
  {
    if |a| == 0 then true
    else if |b| == 0 then false
    else if a[0] != b[0] then a[0] < b[0]
    else StrLe(a[1..], b[1..])
  }

  lemma {:induction false} StrLeReflexive(a: string)
    ensures StrLe(a, a)
    decreases |a|
  {
    if |a| > 0 {
      StrLeReflexive(a[1..]);
    }
  }

  lemma {:induction false} StrLeTotal(a: string, b: string)
    ensures StrLe(a, b) || StrLe(b, a)
    decreases |a|
  {
    if |a| > 0 && |b| > 0 && a[0] == b[0] {
      StrLeTotal(a[1..], b[1..]);
    }
  }

  lemma {:induction false} StrLeAntisymmetric(a: string, b: string)
    requires StrLe(a, b) && StrLe(b, a)
    ensures a == b
    decreases |a|
  {
    if |a| > 0 {
      StrLeAntisymmetric(a[1..], b[1..]);
      assert a == [a[0]] + a[1..];
      assert b == [b[0]] + b[1..];
    }
  }

  lemma {:induction false} StrLeTransitive(a: string, b: string, c: string)
    requires StrLe(a, b) && StrLe(b, c)
    ensures StrLe(a, c)
    decreases |a|
  {
    if |a| > 0 && a[0] == b[0] && b[0] == c[0] {
      StrLeTransitive(a[1..], b[1..], c[1..]);
    }
  }

  /** Ascending order, as `Collections.sort` leaves a list. */
  predicate Sorted(s: seq<string>)
  {
    forall i, j :: 0 <= i < j < |s| ==> StrLe(s[i], s[j])
  }

  /** Inserts `x` before the first element that is not smaller than it. */
  function Insert(x: string, s: seq<string>): (r: seq<string>)
    requires Sorted(s)
    ensures Sorted(r)
    ensures multiset(r) == multiset(s) + multiset{x}
    decreases |s|
  {
    if |s| == 0 then [x]
    else if StrLe(x, s[0]) then
      InsertFrontSorted(x, s);
      [x] + s
    else
      StrLeTotal(x, s[0]);
      var rest := Insert(x, s[1..]);
      InsertHeadSorted(s[0], rest, s[1..], x);
      assert s == [s[0]] + s[1..];
      [s[0]] + rest
  }

  lemma InsertFrontSorted(x: string, s: seq<string>)
    requires Sorted(s) && |s| > 0 && StrLe(x, s[0])
    ensures Sorted([x] + s)
  {
    var t := [x] + s;
    forall i, j | 0 <= i < j < |t|
      ensures StrLe(t[i], t[j])
    {
      if i == 0 && j > 1 {
        StrLeTransitive(x, s[0], s[j - 1]);
      }
    }
  }

  lemma InsertHeadSorted(h: string, rest: seq<string>, tail: seq<string>, x: string)
    requires Sorted(rest) && Sorted([h] + tail)
    requires StrLe(h, x)
    requires multiset(rest) == multiset(tail) + multiset{x}
    ensures Sorted([h] + rest)
  {
    var t := [h] + rest;
    forall i, j | 0 <= i < j < |t|
      ensures StrLe(t[i], t[j])
    {
      if i == 0 {
        var y := rest[j - 1];
        assert y in multiset(rest);
        if y == x {
        } else {
          assert y in multiset(tail);
          var k :| 0 <= k < |tail| && tail[k] == y;
          assert ([h] + tail)[0] == h && ([h] + tail)[k + 1] == y;
          assert StrLe(h, y);
        }
      }
    }
  }

  /** `Collections.sort`: an insertion sort on the natural string order. */
  function Sort(s: seq<string>): (r: seq<string>)
    ensures Sorted(r)
    ensures multiset(r) == multiset(s)
    decreases |s|
  {
    if |s| == 0 then []
    else
      assert s == [s[0]] + s[1..];
      Insert(s[0], Sort(s[1..]))
  }

  /**
   * A sorted permutation is unique, so any correct sort (the stable merge
   * sort of the Java library included) returns the same list as `Sort`.
   */
  lemma {:induction false} SortedPermutationUnique(a: seq<string>, b: seq<string>)
    requires Sorted(a) && Sorted(b)
    requires multiset(a) == multiset(b)
    ensures a == b
    decreases |a|
  {
    assert |a| == |multiset(a)| == |multiset(b)| == |b|;
    if |a| > 0 {
      assert a[0] in multiset(b);
      assert b[0] in multiset(a);
      var i :| 0 <= i < |b| && b[i] == a[0];
      var j :| 0 <= j < |a| && a[j] == b[0];
      StrLeReflexive(a[0]);
      StrLeReflexive(b[0]);
      assert StrLe(b[0], b[i]);
      assert StrLe(a[0], a[j]);
      StrLeAntisymmetric(a[0], b[0]);
      assert a == [a[0]] + a[1..];
      assert b == [b[0]] + b[1..];
      assert multiset(a) == multiset{a[0]} + multiset(a[1..]);
      assert multiset(b) == multiset{b[0]} + multiset(b[1..]);
      assert a[0] == b[0];
      assert multiset(a[1..]) == multiset(a) - multiset{a[0]};
      assert multiset(b[1..]) == multiset(b) - multiset{b[0]};
      SortedPermutationUnique(a[1..], b[1..]);
    }
  }

  /** Sorting a list that is already sorted changes nothing. */
  lemma SortOfSorted(s: seq<string>)
    requires Sorted(s)
    ensures Sort(s) == s
  {
    SortedPermutationUnique(Sort(s), s);
  }
}

=== FILE: staging.dfy ===
/**
 * The item-granting part of the editor's confirm step
 * (`grantSelectedItems`): collecting the items for the selected slots and
 * attachments, then placing them into the emptied inventory: weapons on
 * the hotbar (at most nine), consumables and custom items after them on
 * the hotbar and otherwise wherever there is room, ammo and attachments
 * wherever there is room. The WeaponMechanics item generators and the
 * Bukkit construction of a custom item's stack are parameters.
 */
module Staging {
  import opened Wrappers
  import opened Inventories
  import opened LoadoutSlots
  import Config
  import Weapons

  /** The five lists `grantSelectedItems` fills before placing anything. */
  datatype Staged = Staged(
    weapons: seq<Item>,
    ammo: seq<Item>,
    consumables: seq<Item>,
    others: seq<Item>,
    attachments: seq<Item>)

  const Nothing: Staged := Staged([], [], [], [], [])

  /**
   * What item collection consults: the weapon catalogue and settings; the
   * WeaponMechanics calls `generateWeapon`, `generateAmmo`,
   * `getMagazineSize` and `generateAttachmentItem`; and the stack Bukkit
   * builds from a custom item's material, amount and display name.
   */
  datatype Sources = Sources(
    catalog: Weapons.Catalog,
    settings: Config.Settings,
    generateWeapon: string -> Option<Item>,
    generateAmmo: string -> Option<Item>,
    magazineSize: string -> Int32,
    customStack: Config.CustomItemConfig -> Item,
    attachmentItem: string -> Option<Item>)

  /** `generateAmmoItems(title)`: the computed ammo of the weapon in stacks. */
  function AmmoFor(src: Sources, title: string): seq<Item>
  {
    Weapons.AmmoItems(src.catalog, src.settings, title, src.magazineSize(title), src.generateAmmo)
  }

  /** The configured item amount of a weapon. */
  function AmountFor(src: Sources, title: string): int
  {
    Config.ItemAmount(src.settings, title, Get(src.catalog.weaponCategories, title))
  }

  /** `generateConsumableItems(title, amount)` with the configured item amount. */
  function ConsumablesFor(src: Sources, title: string): seq<Item>
  {
    Weapons.ConsumableItems(title, AmountFor(src, title), src.generateWeapon)
  }

  /** The stack of the custom item configured under `id`, if there is one. */
  function CustomItem(src: Sources, id: string): Option<Item>
  {
    match Config.CustomItemNamed(src.settings.customItems, id)
    case Some(c) => Some(src.customStack(c))
    case None => None
  }

  /** A catalogue weapon with an ammo configuration: a gun. */
  predicate IsGun(src: Sources, v: SlotAssignment)
  {
    v.wmWeapon && Weapons.HasAmmoConfig(src.catalog, v.weaponTitle)
  }

  /**
   * The items one selected slot contributes: a gun gives its weapon item and
   * its ammo (nothing when the weapon cannot be generated); another
   * catalogue weapon gives its consumable stacks, sized by the configured
   * item amount; a custom item gives its stack when it is configured.
   */
  function SlotItems(src: Sources, v: SlotAssignment): (r: Staged)
    ensures r.attachments == []
    ensures !v.wmWeapon ==> r.weapons == [] && r.ammo == [] && r.consumables == []
    ensures v.wmWeapon ==> r.others == []
    ensures IsGun(src, v) ==> (r.consumables == [] &&
      r.weapons == (if src.generateWeapon(v.weaponTitle).Some? then [src.generateWeapon(v.weaponTitle).value] else []) &&
      r.ammo == (if src.generateWeapon(v.weaponTitle).Some? then AmmoFor(src, v.weaponTitle) else []))
    ensures v.wmWeapon && !IsGun(src, v) ==> (r.weapons == [] && r.ammo == [] &&
      r.consumables == ConsumablesFor(src, v.weaponTitle))
    ensures !v.wmWeapon ==> r.others == (if CustomItem(src, v.weaponTitle).Some? then [CustomItem(src, v.weaponTitle).value] else [])
  {
    var title := v.weaponTitle;
    if v.wmWeapon then
      if Weapons.HasAmmoConfig(src.catalog, title) then
        match src.generateWeapon(title)
        case Some(w) => Staged([w], AmmoFor(src, title), [], [], [])
        case None => Nothing
      else
        Staged([], [], ConsumablesFor(src, title), [], [])
    else
      match CustomItem(src, title)
      case Some(item) => Staged([], [], [], [item], [])
      case None => Nothing
  }

  /**
   * A gun's ammo adds up to its computed ammo (when that is positive, an
   * ammo type is cached and the first type yields an item), and a
   * consumable's stacks add up to its configured amount, at least one.
   */
  lemma SlotItemsAddUp(src: Sources, v: SlotAssignment)
    ensures
      var t := v.weaponTitle;
      var total := Weapons.CalculateAmmo(src.catalog, src.settings, t, src.magazineSize(t));
      var types := Weapons.AmmoTypes(src.catalog, t);
      IsGun(src, v) && src.generateWeapon(t).Some? && total > 0 && |types| > 0 && src.generateAmmo(types[0]).Some? ==>
        Weapons.Sum(Weapons.Amounts(SlotItems(src, v).ammo)) == total
    ensures v.wmWeapon && !IsGun(src, v) && src.generateWeapon(v.weaponTitle).Some? ==>
      Weapons.Sum(Weapons.Amounts(SlotItems(src, v).consumables)) ==
        (if AmountFor(src, v.weaponTitle) <= 0 then 1 else AmountFor(src, v.weaponTitle))
  {
    var t := v.weaponTitle;
    Weapons.AmmoItemsTotal(src.catalog, src.settings, t, src.magazineSize(t), src.generateAmmo);
    Weapons.ConsumableItemsTotal(t, AmountFor(src, t), src.generateWeapon);
  }

  function Append(a: Staged, b: Staged): Staged
  {
    Staged(a.weapons + b.weapons, a.ammo + b.ammo, a.consumables + b.consumables, a.others + b.others,
           a.attachments + b.attachments)
  }

  /** The items of the selected slots, in the order the selections are enumerated. */
  function CollectSlots(src: Sources, values: seq<SlotAssignment>): Staged
  {
    if |values| == 0 then Nothing
    else Append(CollectSlots(src, values[..|values| - 1]), SlotItems(src, values[|values| - 1]))
  }

  /** The attachment items of the selected attachments; one that cannot be generated is skipped. */
  function AttachmentItems(src: Sources, ids: seq<string>): (items: seq<Item>)
    ensures |items| <= |ids|
  {
    if |ids| == 0 then []
    else
      var last := src.attachmentItem(ids[|ids| - 1]);
      AttachmentItems(src, ids[..|ids| - 1]) + (if last.Some? then [last.value] else [])
  }

  /** Everything `grantSelectedItems` collects for the selections. */
  function Collect(src: Sources, values: seq<SlotAssignment>, attachmentIds: seq<string>): (r: Staged)
    ensures r.attachments == AttachmentItems(src, attachmentIds)
    ensures r.weapons == CollectSlots(src, values).weapons && r.others == CollectSlots(src, values).others
    ensures r.ammo == CollectSlots(src, values).ammo && r.consumables == CollectSlots(src, values).consumables
  {
    CollectSlots(src, values).(attachments := AttachmentItems(src, attachmentIds))
  }

  /** `x` is the weapon item of the gun selected as `v`. */
  predicate GivesWeapon(src: Sources, v: SlotAssignment, x: Item)
  {
    IsGun(src, v) && src.generateWeapon(v.weaponTitle) == Some(x)
  }

  /** `x` is the stack of the custom item selected as `v`. */
  predicate GivesOther(src: Sources, v: SlotAssignment, x: Item)
  {
    !v.wmWeapon && CustomItem(src, v.weaponTitle) == Some(x)
  }

  /** `x` is one of the ammo stacks handed out with the gun selected as `v`. */
  predicate GivesAmmo(src: Sources, v: SlotAssignment, x: Item)
  {
    IsGun(src, v) && src.generateWeapon(v.weaponTitle).Some? && x in AmmoFor(src, v.weaponTitle)
  }

  /** `x` is one of the stacks of the consumable selected as `v`. */
  predicate GivesConsumable(src: Sources, v: SlotAssignment, x: Item)
  {
    v.wmWeapon && !IsGun(src, v) && x in ConsumablesFor(src, v.weaponTitle)
  }

  /** The four lists a selected slot can contribute to. */
  datatype ListKind = WeaponList | AmmoList | ConsumableList | OtherList

  /** The list of kind `k` in `st`. */
  function Part(st: Staged, k: ListKind): seq<Item>
  {
    match k
    case WeaponList => st.weapons
    case AmmoList => st.ammo
    case ConsumableList => st.consumables
    case OtherList => st.others
  }

  /** `x` is an item of kind `k` the slot selected as `v` makes. */
  predicate Gives(src: Sources, v: SlotAssignment, x: Item, k: ListKind)
  {
    match k
    case WeaponList => GivesWeapon(src, v, x)
    case AmmoList => GivesAmmo(src, v, x)
    case ConsumableList => GivesConsumable(src, v, x)
    case OtherList => GivesOther(src, v, x)
  }

  /**
   * Exactly the guns whose weapon item can be generated contribute weapon
   * items and ammo, exactly the other catalogue weapons contribute
   * consumables, and exactly the configured custom items contribute other
   * items.
   */
  lemma CollectSlotsOrigins(src: Sources, values: seq<SlotAssignment>, x: Item)
    ensures x in CollectSlots(src, values).weapons <==> exists v :: v in values && Gives(src, v, x, WeaponList)
    ensures x in CollectSlots(src, values).ammo <==> exists v :: v in values && Gives(src, v, x, AmmoList)
    ensures x in CollectSlots(src, values).consumables <==> exists v :: v in values && Gives(src, v, x, ConsumableList)
    ensures x in CollectSlots(src, values).others <==> exists v :: v in values && Gives(src, v, x, OtherList)
    ensures CollectSlots(src, values).attachments == []
  {
    var c := CollectSlots(src, values);
    assert Part(c, WeaponList) == c.weapons && Part(c, AmmoList) == c.ammo;
    assert Part(c, ConsumableList) == c.consumables && Part(c, OtherList) == c.others;
    Collected(src, values, x, WeaponList);
    Collected(src, values, x, AmmoList);
    Collected(src, values, x, ConsumableList);
    Collected(src, values, x, OtherList);
    CollectedNoAttachments(src, values);
  }

  /** An item is in a collected list iff some selected slot makes it for that list. */
  lemma {:induction false} Collected(src: Sources, values: seq<SlotAssignment>, x: Item, k: ListKind)
    ensures x in Part(CollectSlots(src, values), k) <==> exists v :: v in values && Gives(src, v, x, k)
  {
    if |values| > 0 {
      var init, v := values[..|values| - 1], values[|values| - 1];
      Collected(src, init, x, k);
      PartAppend(CollectSlots(src, init), SlotItems(src, v), k);
      SlotGives(src, v, x, k);
      ExistsSnoc(src, values, x, k);
    }
  }

  /** Taking one list of an appended pair appends the lists. */
  lemma PartAppend(a: Staged, b: Staged, k: ListKind)
    ensures Part(Append(a, b), k) == Part(a, k) + Part(b, k)
  {
  }

  /** What one selected slot contributes, list by list. */
  lemma SlotGives(src: Sources, v: SlotAssignment, x: Item, k: ListKind)
    ensures x in Part(SlotItems(src, v), k) <==> Gives(src, v, x, k)
  {
  }

  /** Some selection makes `x` iff one before the last does or the last does. */
  lemma ExistsSnoc(src: Sources, values: seq<SlotAssignment>, x: Item, k: ListKind)
    requires |values| > 0
    ensures (exists u :: u in values && Gives(src, u, x, k)) <==>
      (exists u :: u in values[..|values| - 1] && Gives(src, u, x, k)) || Gives(src, values[|values| - 1], x, k)
  {
    var init, v := values[..|values| - 1], values[|values| - 1];
    assert values == init + [v];
    if exists u :: u in values && Gives(src, u, x, k) {
      var u :| u in values && Gives(src, u, x, k);
      if u != v {
        assert u in init;
      }
    }
    if exists u :: u in init && Gives(src, u, x, k) {
      var u :| u in init && Gives(src, u, x, k);
      assert u in values;
    }
  }

  lemma {:induction false} CollectedNoAttachments(src: Sources, values: seq<SlotAssignment>)
    ensures CollectSlots(src, values).attachments == []
  {
    if |values| > 0 {
      CollectedNoAttachments(src, values[..|values| - 1]);
    }
  }

  // ------------------------------------------------------------- placement

  function Min(a: int, b: int): int
  {
    if a < b then a else b
  }

  /**
   * The inventory holding `q` from the first storage position on, one item
   * per position; items beyond the 36 storage positions are lost, and the
   * armor and off-hand positions are empty.
   */
  function LayoutOf(q: seq<Item>): (inv: Contents)
    ensures forall i :: 0 <= i < InventorySize ==>
      inv[i] == (if i < StorageSize && i < |q| then Some(q[i]) else None)
  {
    seq(InventorySize, i requires 0 <= i < InventorySize => if i < StorageSize && i < |q| then Some(q[i]) else None)
  }

  /**
   * The order in which the staged items end up in the inventory: the first
   * nine weapons, then consumables, custom items, ammo and attachments.
   */
  function Queue(st: Staged): seq<Item>
  {
    st.weapons[..Min(|st.weapons|, HotbarSize)] + st.consumables + st.others + st.ammo + st.attachments
  }

  /** Putting an item right after a short prefix on the hotbar extends the layout. */
  lemma SetStep(q: seq<Item>, x: Item)
    requires |q| < HotbarSize
    ensures SetItem(LayoutOf(q), |q|, Some(x)) == LayoutOf(q + [x])
  {
  }

  /** `addItem` on a laid-out inventory appends to the layout (or loses the item when storage is full). */
  lemma AddStep(q: seq<Item>, x: Item)
    ensures AddItem(LayoutOf(q), x) == LayoutOf(q + [x])
  {
    var inv := LayoutOf(q);
    if |q| < StorageSize {
      assert inv[|q|].None?;
      assert forall j :: 0 <= j < |q| ==> inv[j].Some?;
      assert AddItem(inv, x) == inv[|q| := Some(x)];
    } else {
      assert forall j :: 0 <= j < StorageSize ==> inv[j].Some?;
    }
  }

  /** The weapon loop: each weapon goes to the next hotbar position; once the hotbar is full, weapons are not given. */
  method PlaceWeapons(inv: Contents, hotbar: int, ghost placed: seq<Item>, items: seq<Item>)
    returns (r: Contents, hotbar': int)
    requires hotbar == |placed| <= HotbarSize && inv == LayoutOf(placed)
    ensures hotbar' == |placed| + Min(|items|, HotbarSize - |placed|) && hotbar' <= HotbarSize
    ensures r == LayoutOf(placed + items[..Min(|items|, HotbarSize - |placed|)])
  {
    r, hotbar' := inv, hotbar;
    ghost var given := placed;
    var i := 0;
    while i < |items|
      invariant 0 <= i <= |items|
      invariant given == placed + items[..Min(i, HotbarSize - |placed|)]
      invariant hotbar' == |given| <= HotbarSize && r == LayoutOf(given)
    {
      if hotbar' < HotbarSize {
        SetStep(given, items[i]);
        r := SetItem(r, hotbar', Some(items[i]));
        hotbar' := hotbar' + 1;
        assert items[..i + 1] == items[..i] + [items[i]];
        given := given + [items[i]];
      }
      i := i + 1;
    }
  }

  /** The consumable and custom-item loops: the next hotbar position while there is one, else `addItem`. */
  method PlaceOnHotbarOrAdd(inv: Contents, hotbar: int, ghost placed: seq<Item>, items: seq<Item>)
    returns (r: Contents, hotbar': int)
    requires hotbar == Min(|placed|, HotbarSize) && inv == LayoutOf(placed)
    ensures hotbar' == Min(|placed + items|, HotbarSize) && r == LayoutOf(placed + items)
  {
    r, hotbar' := inv, hotbar;
    var i := 0;
    while i < |items|
      invariant 0 <= i <= |items|
      invariant hotbar' == Min(|placed + items[..i]|, HotbarSize) && r == LayoutOf(placed + items[..i])
    {
      var q := placed + items[..i];
      assert placed + items[..i + 1] == q + [items[i]];
      if hotbar' < HotbarSize {
        SetStep(q, items[i]);
        r := SetItem(r, hotbar', Some(items[i]));
        hotbar' := hotbar' + 1;
      } else {
        AddStep(q, items[i]);
        r := AddItem(r, items[i]);
      }
      i := i + 1;
    }
    assert items[..i] == items;
  }

  /** The ammo and attachment loops: every item through `addItem`. */
  method AddAll(inv: Contents, ghost placed: seq<Item>, items: seq<Item>) returns (r: Contents)
    requires inv == LayoutOf(placed)
    ensures r == LayoutOf(placed + items)
  {
    r := inv;
    var i := 0;
    while i < |items|
      invariant 0 <= i <= |items|
      invariant r == LayoutOf(placed + items[..i])
    {
      assert placed + items[..i + 1] == (placed + items[..i]) + [items[i]];
      AddStep(placed + items[..i], items[i]);
      r := AddItem(r, items[i]);
      i := i + 1;
    }
    assert items[..i] == items;
  }

  /**
   * The placement loops of `grantSelectedItems` on the inventory that edit
   * mode has just emptied: the result holds the staged items in queue
   * order from the first storage position on.
   */
  method PlaceItems(start: Contents, st: Staged) returns (inv: Contents)
    requires forall i :: 0 <= i < InventorySize ==> start[i].None?
    ensures inv == LayoutOf(Queue(st))
  {
    assert start == LayoutOf([]);
    var hotbar: int;
    ghost var placed: seq<Item>;
    inv, hotbar := PlaceWeapons(start, 0, [], st.weapons);
    placed := st.weapons[..Min(|st.weapons|, HotbarSize)];
    inv, hotbar := PlaceOnHotbarOrAdd(inv, hotbar, placed, st.consumables);
    placed := placed + st.consumables;
    inv, hotbar := PlaceOnHotbarOrAdd(inv, hotbar, placed, st.others);
    placed := placed + st.others;
    inv := AddAll(inv, placed, st.ammo);
    placed := placed + st.ammo;
    inv := AddAll(inv, placed, st.attachments);
    placed := placed + st.attachments;
    assert placed == Queue(st);
  }

  /**
   * The hotbar holds the first weapons, at most nine of them, in order.
   */
  lemma HotbarHoldsFirstWeapons(st: Staged, k: int)
    requires 0 <= k < Min(|st.weapons|, HotbarSize)
    ensures LayoutOf(Queue(st))[k] == Some(st.weapons[k])
  {
  }

  /**
   * With fewer than nine weapons, consumables follow them directly on the
   * hotbar; ammo comes after every consumable and custom item.
   */
  lemma ConsumablesFollowWeapons(st: Staged, k: int)
    requires |st.weapons| < HotbarSize && 0 <= k < |st.consumables| && |st.weapons| + k < StorageSize
    ensures LayoutOf(Queue(st))[|st.weapons| + k] == Some(st.consumables[k])
  {
    assert st.weapons[..Min(|st.weapons|, HotbarSize)] == st.weapons;
  }

  /** When everything fits, every staged item except the weapons beyond the ninth is in the inventory. */
  lemma EverythingFitsIsGranted(st: Staged)
    requires |Queue(st)| <= StorageSize
    ensures forall x :: x in Queue(st) ==> Some(x) in LayoutOf(Queue(st))
  {
    var inv := LayoutOf(Queue(st));
    forall x | x in Queue(st)
      ensures Some(x) in inv
    {
      var k :| 0 <= k < |Queue(st)| && Queue(st)[k] == x;
      assert inv[k] == Some(x);
    }
  }
}

=== FILE: text.dfy ===
/**
 * String helpers the plugin takes from the Java library: ASCII lower-casing,
 * prefix tests, `String.replace`, `Integer.parseInt` and `String.valueOf`.
 */
module Text {
  import opened Wrappers

  /** Lower-cases one character; only the ASCII letters A-Z change. */
  function LowerChar(c: char): char
  {
    if 'A' <= c <= 'Z' then (c as int + 32) as char else c
  }

  /** `String.toLowerCase()` restricted to ASCII letters. */
  function ToLower(s: string): (r: string)
    ensures |r| == |s|
  {
    if |s| == 0 then [] else [LowerChar(s[0])] + ToLower(s[1..])
  }

  lemma {:induction false} ToLowerAt(s: string, i: int)
    requires 0 <= i < |s|
    ensures ToLower(s)[i] == LowerChar(s[i])
    decreases |s|
  {
    if i > 0 {
      ToLowerAt(s[1..], i - 1);
    }
  }

  /** Lower-casing twice is the same as lower-casing once. */
  lemma {:induction false} ToLowerIdempotent(s: string)
    ensures ToLower(ToLower(s)) == ToLower(s)
    decreases |s|
  {
    if |s| > 0 {
      assert ToLower(s)[1..] == ToLower(s[1..]);
      ToLowerIdempotent(s[1..]);
    }
  }

  /** `s.startsWith(p)`. */
  predicate StartsWith(s: string, p: string)
  {
    |p| <= |s| && s[..|p|] == p
  }

  /** `p` occurs in `s` starting at position `i`. */
  predicate OccursAt(s: string, p: string, i: int)
  {
    0 <= i <= |s| - |p| && s[i..i + |p|] == p
  }

  /** `p` occurs somewhere in `s` (`s.contains(p)`). */
  predicate Occurs(s: string, p: string)
  {
    exists i :: 0 <= i <= |s| - |p| && OccursAt(s, p, i)
  }

  /**
   * `s.replace(p, r)` for a non-empty `p`: scans left to right and replaces
   * every non-overlapping occurrence of `p` by `r`.
   */
  function ReplaceAll(s: string, p: string, r: string): (out: string)
    requires |p| > 0
    ensures |out| == |s| + (|Pieces(s, p)| - 1) * (|r| - |p|)
    decreases |s|
  {
    if |s| < |p| then s
    else if s[..|p|] == p then
      var n := |Pieces(s[|p|..], p)| - 1;
      assert |Pieces(s, p)| - 1 == n + 1;
      assert (n + 1) * (|r| - |p|) == n * (|r| - |p|) + (|r| - |p|);
      r + ReplaceAll(s[|p|..], p, r)
    else
      assert |Pieces(s, p)| == |Pieces(s[1..], p)|;
      [s[0]] + ReplaceAll(s[1..], p, r)
  }

  /** `segs` joined with `sep` between consecutive segments. */
  function Join(segs: seq<string>, sep: string): string
    decreases |segs|
  {
    if |segs| == 0 then []
    else if |segs| == 1 then segs[0]
    else segs[0] + sep + Join(segs[1..], sep)
  }

  /**
   * The pieces of `s` between the occurrences of `p` that `ReplaceAll` finds:
   * `s` is those pieces joined with `p`.
   */
  function Pieces(s: string, p: string): (segs: seq<string>)
    requires |p| > 0
    ensures |segs| >= 1
    decreases |s|
  {
    if |s| < |p| then [s]
    else if s[..|p|] == p then [[]] + Pieces(s[|p|..], p)
    else
      var rest := Pieces(s[1..], p);
      [[s[0]] + rest[0]] + rest[1..]
  }

  lemma JoinConsHead(c: char, segs: seq<string>, sep: string)
    requires |segs| >= 1
    ensures Join([[c] + segs[0]] + segs[1..], sep) == [c] + Join(segs, sep)
  {
    var t := [[c] + segs[0]] + segs[1..];
    if |segs| > 1 {
      assert t[1..] == segs[1..];
    }
  }

  /**
   * Every occurrence is replaced: cutting `s` at the occurrences of `p` and
   * gluing the pieces back with `p` gives `s`, and gluing them with `r`
   * gives `ReplaceAll(s, p, r)`. No piece contains `p`.
   */
  lemma ReplaceAllReplacesEveryOccurrence(s: string, p: string, r: string)
    requires |p| > 0
    ensures Join(Pieces(s, p), p) == s
    ensures Join(Pieces(s, p), r) == ReplaceAll(s, p, r)
    ensures forall k :: 0 <= k < |Pieces(s, p)| ==> !Occurs(Pieces(s, p)[k], p)
  {
    JoinPieces(s, p, p);
    ReplaceBySelf(s, p);
    JoinPieces(s, p, r);
    PiecesAvoidPattern(s, p);
  }

  /** Gluing the pieces with `r` is replacing every occurrence by `r`. */
  lemma {:induction false} JoinPieces(s: string, p: string, r: string)
    requires |p| > 0
    ensures Join(Pieces(s, p), r) == ReplaceAll(s, p, r)
    decreases |s|
  {
    if |s| < |p| {
    } else if s[..|p|] == p {
      var rest := Pieces(s[|p|..], p);
      JoinPieces(s[|p|..], p, r);
      assert Pieces(s, p) == [[]] + rest;
      assert ([[]] + rest)[1..] == rest;
      assert Join(Pieces(s, p), r) == [] + r + Join(rest, r);
      assert ReplaceAll(s, p, r) == r + ReplaceAll(s[|p|..], p, r);
    } else {
      JoinPieces(s[1..], p, r);
      JoinConsHead(s[0], Pieces(s[1..], p), r);
    }
  }

  /** Replacing `p` by itself changes nothing. */
  lemma {:induction false} ReplaceBySelf(s: string, p: string)
    requires |p| > 0
    ensures ReplaceAll(s, p, p) == s
    decreases |s|
  {
    if |s| < |p| {
    } else if s[..|p|] == p {
      ReplaceBySelf(s[|p|..], p);
      assert s == s[..|p|] + s[|p|..];
    } else {
      ReplaceBySelf(s[1..], p);
      assert s == [s[0]] + s[1..];
    }
  }

  /**
   * No piece contains the pattern: the scan tests every position, so each
   * occurrence it meets becomes a cut, and the tail it leaves is shorter
   * than the pattern.
   */
  lemma {:induction false} PiecesAvoidPattern(s: string, p: string)
    requires |p| > 0
    ensures forall k :: 0 <= k < |Pieces(s, p)| ==> !Occurs(Pieces(s, p)[k], p)
    decreases |s|
  {
    if |s| < |p| {
      assert Pieces(s, p) == [s];
    } else if s[..|p|] == p {
      PiecesAvoidPattern(s[|p|..], p);
      var rest := Pieces(s[|p|..], p);
      forall k | 0 <= k < |Pieces(s, p)|
        ensures !Occurs(Pieces(s, p)[k], p)
      {
        if k > 0 {
          assert Pieces(s, p)[k] == rest[k - 1];
        }
      }
    } else {
      PiecesAvoidPattern(s[1..], p);
      var rest := Pieces(s[1..], p);
      JoinPieces(s[1..], p, p);
      ReplaceBySelf(s[1..], p);
      forall k | 0 <= k < |Pieces(s, p)|
        ensures !Occurs(Pieces(s, p)[k], p)
      {
        if k == 0 {
          JoinPrefix(rest, p);
          assert !StartsWith([s[0]] + rest[0], p);
          OccursCons(s[0], rest[0], p);
        } else {
          assert Pieces(s, p)[k] == rest[k];
        }
      }
    }
  }

  /** A character before a text without the pattern adds an occurrence only at the front. */
  lemma OccursCons(c: char, t: string, p: string)
    requires !Occurs(t, p) && !StartsWith([c] + t, p)
    ensures !Occurs([c] + t, p)
  {
    var u := [c] + t;
    forall i | 0 <= i <= |u| - |p| ensures !OccursAt(u, p, i) {
      if i > 0 {
        assert u[i..i + |p|] == t[i - 1..i - 1 + |p|];
        assert !OccursAt(t, p, i - 1);
      }
    }
  }

  /** The first piece is a prefix of the joined string. */
  lemma JoinPrefix(segs: seq<string>, sep: string)
    requires |segs| >= 1
    ensures |segs[0]| <= |Join(segs, sep)|
    ensures Join(segs, sep)[..|segs[0]|] == segs[0]
  {
  }

  /** A string without any occurrence of `p` is left as it is. */
  lemma {:induction false} ReplaceAllWithoutOccurrence(s: string, p: string, r: string)
    requires |p| > 0
    requires !Occurs(s, p)
    ensures ReplaceAll(s, p, r) == s
    decreases |s|
  {
    if |s| >= |p| {
      assert !OccursAt(s, p, 0);
      assert s[..|p|] != p;
      if Occurs(s[1..], p) {
        var t := s[1..];
        var i :| 0 <= i <= |t| - |p| && OccursAt(t, p, i);
        assert t[i..i + |p|] == p;
        assert t[i..i + |p|] == s[i + 1..i + 1 + |p|];
        assert OccursAt(s, p, i + 1);
        assert false;
      }
      ReplaceAllWithoutOccurrence(s[1..], p, r);
    }
  }

  // ---------------------------------------------------------------------
  // Integer.parseInt / String.valueOf
  // ---------------------------------------------------------------------

  const IntMin: int := -0x8000_0000
  const IntMax: int := 0x7FFF_FFFF

  predicate IsDigit(c: char)
  {
    '0' <= c <= '9'
  }

  predicate AllDigits(s: string)
  {
    forall i :: 0 <= i < |s| ==> IsDigit(s[i])
  }

  /** The decimal value of a digit string, most significant digit first. */
  function DigitsValue(s: string): (v: nat)
    requires AllDigits(s)
    decreases |s|
  {
    if |s| == 0 then 0
    else 10 * DigitsValue(s[..|s| - 1]) + (s[|s| - 1] as int - '0' as int)
  }

  /**
   * `Integer.parseInt(s)`: an optional sign followed by at least one ASCII
   * digit, whose value fits a 32-bit int; anything else is a
   * `NumberFormatException`, here `None`.
   */
  function ParseInt(s: string): (r: Option<int>)
    ensures r.Some? ==> IntMin <= r.value <= IntMax
  {
    if |s| == 0 then None
    else
      var neg := s[0] == '-';
      var body := if s[0] == '-' || s[0] == '+' then s[1..] else s;
      if |body| == 0 || !AllDigits(body) then None
      else
        var v: int := if neg then 0 - (DigitsValue(body) as int) else DigitsValue(body);
        if IntMin <= v <= IntMax then Some(v) else None
  }

  /** The text after an optional leading sign. */
  function Unsigned(s: string): (u: string)
    ensures |u| <= |s| && u == s[|s| - |u|..]
  {
    if |s| > 0 && (s[0] == '-' || s[0] == '+') then s[1..] else s
  }

  /**
   * The spellings `Integer.parseInt` accepts for `v`: an optional `+` or
   * `-`, then one or more ASCII digits (leading zeros allowed) whose value
   * is the magnitude of `v`; a minus sign on every negative value and never
   * on a positive one (zero may be written with `-`, `+` or no sign); and
   * `v` in the int range.
   */
  lemma ParseIntSpellings(s: string, v: int)
    ensures ParseInt(s) == Some(v) <==>
      |Unsigned(s)| > 0 && AllDigits(Unsigned(s)) &&
      DigitsValue(Unsigned(s)) == (if v < 0 then -v else v) &&
      (v < 0 ==> s[0] == '-') && (v > 0 ==> s[0] != '-') &&
      IntMin <= v <= IntMax
  {
  }

  function DigitChar(d: int): char
    requires 0 <= d < 10
  {
    ('0' as int + d) as char
  }

  /** `String.valueOf(n)` for a non-negative `n`. */
  function NatToString(n: nat): (s: string)
    ensures |s| >= 1 && AllDigits(s)
  {
    if n < 10 then [DigitChar(n)] else NatToString(n / 10) + [DigitChar(n % 10)]
  }

  lemma {:induction false} DigitsOfNatToString(n: nat)
    ensures DigitsValue(NatToString(n)) == n
  {
    var s := NatToString(n);
    if n >= 10 {
      DigitsOfNatToString(n / 10);
      assert s[..|s| - 1] == NatToString(n / 10);
    }
  }

  /** `String.valueOf(n)` for any int: a minus sign before the digits of a negative value. */
  function IntToString(n: int): (s: string)
    ensures |s| >= 1
  {
    if n < 0 then "-" + NatToString(-n) else NatToString(n)
  }

  /** Printing an int and parsing it back gives the same int. */
  lemma ParseIntToString(n: int)
    requires IntMin <= n <= IntMax
    ensures ParseInt(IntToString(n)) == Some(n)
  {
    var s := IntToString(n);
    if n < 0 {
      var digits := NatToString(-n);
      DigitsOfNatToString(-n);
      assert s[0] == '-' && s[1..] == digits;
    } else {
      DigitsOfNatToString(n);
      assert '0' <= s[0] <= '9';
    }
  }
}

=== FILE: weapons.dfy ===
/**
 * What the plugin knows about WeaponMechanics weapons and attachments: the
 * weapon catalogue grouped by category, the ammo each weapon uses, the
 * weapons a slot may hold, the attachments of a set of categories, and the
 * stacks of ammo or consumables handed out with a weapon. The
 * WeaponMechanics API (item generation, magazine sizes) and the scanning
 * of its YAML files arrive as parameters.
 */
module Weapons {
  import opened Wrappers
  import opened Inventories
  import Text
  import Seqs
  import Sorting
  import Config
  import LoadoutSlots

  const Uncategorized: string := "uncategorized"

  /**
   * The results of the last scans: weapon title lists per category (each
   * sorted), each weapon's category, all weapons in registration order, the
   * cached ammo types per weapon and the attachment lists per lower-case
   * category.
   */
  datatype Catalog = Catalog(
    categorized: map<string, seq<string>>,
    weaponCategories: map<string, string>,
    allWeapons: seq<string>,
    ammoTypes: map<string, seq<string>>,
    attachments: map<string, seq<string>>)

  // ---------------------------------------------------------- categorising

  /** The folder category of a weapon id, or "uncategorized" when no weapon file defines it. */
  function CategoryOf(ids: map<string, string>, weapon: string): string
  {
    Get(ids, weapon).GetOr(Uncategorized)
  }

  function InCategory(ids: map<string, string>, category: string): string -> bool
  {
    w => CategoryOf(ids, w) == category
  }

  /** The categories of the weapons in `s`. */
  function Categories(s: seq<string>, ids: map<string, string>): set<string>
  {
    if |s| == 0 then {} else Categories(s[..|s| - 1], ids) + {CategoryOf(ids, s[|s| - 1])}
  }

  /** The category of every weapon in `s` is among the categories of `s`. */
  lemma {:induction false} CategoryListed(s: seq<string>, ids: map<string, string>, w: string)
    requires w in s
    ensures CategoryOf(ids, w) in Categories(s, ids)
  {
    var init := s[..|s| - 1];
    if w != s[|s| - 1] {
      assert s == init + [s[|s| - 1]];
      assert w in init;
      CategoryListed(init, ids, w);
    }
  }

  /** Every category of `s` is the category of some weapon of `s`. */
  lemma {:induction false} CategoryUsed(s: seq<string>, ids: map<string, string>, c: string)
    requires c in Categories(s, ids)
    ensures exists i :: 0 <= i < |s| && CategoryOf(ids, s[i]) == c
  {
    var init := s[..|s| - 1];
    if c != CategoryOf(ids, s[|s| - 1]) {
      CategoryUsed(init, ids, c);
      var i :| 0 <= i < |init| && CategoryOf(ids, init[i]) == c;
      assert s[i] == init[i];
    }
  }

  /** The weapons of `s` in category `c`, in their order in `s`. */
  function OfCategory(s: seq<string>, ids: map<string, string>, c: string): seq<string>
  {
    if |s| == 0 then []
    else OfCategory(s[..|s| - 1], ids, c) + (if CategoryOf(ids, s[|s| - 1]) == c then [s[|s| - 1]] else [])
  }

  /** The per-category lists are the registered weapons filtered by category. */
  lemma {:induction false} OfCategoryIsFilter(s: seq<string>, ids: map<string, string>, c: string)
    ensures OfCategory(s, ids, c) == Seqs.Filter(s, InCategory(ids, c))
  {
    if |s| > 0 {
      var init, w := s[..|s| - 1], s[|s| - 1];
      OfCategoryIsFilter(init, ids, c);
      assert s == init + [w];
      Seqs.FilterAppend(init, [w], InCategory(ids, c));
      assert [w][1..] == [];
    }
  }

  /** The weapon lists of `scanWeapons` before sorting: each category's weapons in registration order. */
  ghost predicate GroupedAs(grouped: map<string, seq<string>>, seen: seq<string>, ids: map<string, string>)
  {
    grouped.Keys == Categories(seen, ids) &&
    forall c :: c in grouped ==> grouped[c] == OfCategory(seen, ids, c)
  }

  /** The category lookup of `scanWeapons`: exactly the weapons seen, each with its category. */
  ghost predicate LooksUp(categories: map<string, string>, seen: seq<string>, ids: map<string, string>)
  {
    (forall w :: w in categories <==> w in seen) &&
    forall w :: w in categories ==> categories[w] == CategoryOf(ids, w)
  }

  /**
   * The categorising step of `scanWeapons`: each registered weapon, in
   * registration order, is appended to its category's list and recorded in
   * the category lookup; afterwards every list is sorted.
   */
  method Categorize(registered: seq<string>, ids: map<string, string>)
    returns (grouped: map<string, seq<string>>, categories: map<string, string>, all: seq<string>)
    ensures all == registered
    ensures forall w :: w in categories <==> w in registered
    ensures forall w :: w in categories ==> categories[w] == CategoryOf(ids, w)
    ensures grouped.Keys == Categories(registered, ids)
    ensures forall c :: c in grouped ==> grouped[c] == Sorting.Sort(OfCategory(registered, ids, c))
  {
    grouped, categories, all := map[], map[], [];
    var i := 0;
    while i < |registered|
      invariant 0 <= i <= |registered|
      invariant all == registered[..i]
      invariant LooksUp(categories, registered[..i], ids)
      invariant GroupedAs(grouped, registered[..i], ids)
    {
      var w := registered[i];
      var c := CategoryOf(ids, w);
      LookupStep(registered, i, ids, categories);
      GroupStep(registered, i, ids, grouped);
      var list := if c in grouped then grouped[c] else [];
      grouped := grouped[c := list + [w]];
      categories := categories[w := c];
      assert registered[..i + 1] == all + [w];
      all := all + [w];
      i := i + 1;
    }
    assert registered[..i] == registered;
    SortedGroups(grouped, registered, ids);
    grouped := SortEach(grouped);
  }

  /** Sorting every list of a grouping yields the sorted lists of each category. */
  lemma SortedGroups(grouped: map<string, seq<string>>, seen: seq<string>, ids: map<string, string>)
    requires GroupedAs(grouped, seen, ids)
    ensures SortEach(grouped).Keys == Categories(seen, ids)
    ensures forall c :: c in SortEach(grouped) ==> SortEach(grouped)[c] == Sorting.Sort(OfCategory(seen, ids, c))
  {
  }

  /** `Collections.sort` applied to every list of a map. */
  function SortEach(grouped: map<string, seq<string>>): (r: map<string, seq<string>>)
    ensures r.Keys == grouped.Keys
    ensures forall c :: c in r ==> r[c] == Sorting.Sort(grouped[c])
  {
    map c | c in grouped :: Sorting.Sort(grouped[c])
  }

  /** Recording one more weapon keeps the lookup in step with the weapons seen. */
  lemma LookupStep(s: seq<string>, i: int, ids: map<string, string>, categories: map<string, string>)
    requires 0 <= i < |s| && LooksUp(categories, s[..i], ids)
    ensures LooksUp(categories[s[i] := CategoryOf(ids, s[i])], s[..i + 1], ids)
  {
    assert s[..i + 1] == s[..i] + [s[i]];
  }

  /** Appending one weapon to its category's list keeps every list the weapons seen so far of that category. */
  lemma GroupStep(s: seq<string>, i: int, ids: map<string, string>, grouped: map<string, seq<string>>)
    requires 0 <= i < |s| && GroupedAs(grouped, s[..i], ids)
    ensures
      var c := CategoryOf(ids, s[i]);
      GroupedAs(grouped[c := (if c in grouped then grouped[c] else []) + [s[i]]], s[..i + 1], ids)
  {
    var seen, w, next := s[..i], s[i], s[..i + 1];
    assert next[..|next| - 1] == seen && next[|next| - 1] == w;
    var c := CategoryOf(ids, w);
    var g := grouped[c := (if c in grouped then grouped[c] else []) + [w]];
    assert Categories(next, ids) == Categories(seen, ids) + {c};
    forall d | d in g
      ensures g[d] == OfCategory(next, ids, d)
    {
      assert OfCategory(next, ids, d) == OfCategory(seen, ids, d) + (if d == c then [w] else []);
      if d == c && c !in grouped {
        NoWeaponsOfNewCategory(seen, ids, c);
      }
    }
  }

  /** A category none of the weapons seen so far has has no weapons. */
  lemma {:induction false} NoWeaponsOfNewCategory(seen: seq<string>, ids: map<string, string>, c: string)
    requires c !in Categories(seen, ids)
    ensures OfCategory(seen, ids, c) == []
  {
    if |seen| > 0 {
      NoWeaponsOfNewCategory(seen[..|seen| - 1], ids, c);
    }
  }

  /** After categorising, a registered weapon is in a category's list exactly when that is its own category. */
  lemma EveryWeaponInItsCategory(registered: seq<string>, ids: map<string, string>, c: string, list: seq<string>, w: string)
    requires list == Sorting.Sort(OfCategory(registered, ids, c))
    requires w in registered
    ensures w in list <==> c == CategoryOf(ids, w)
  {
    OfCategoryIsFilter(registered, ids, c);
    var f := Seqs.Filter(registered, InCategory(ids, c));
    assert InCategory(ids, c)(w) == (CategoryOf(ids, w) == c);
    assert w in f <==> CategoryOf(ids, w) == c;
    assert w in list <==> w in multiset(list);
    assert w in f <==> w in multiset(f);
  }

  // ------------------------------------------------------------------ ammo

  /**
   * The ammo types recorded for a weapon when its file is parsed: a
   * non-empty `Ammos` list wins over the single `Ammo` key, which counts only
   * when non-empty; otherwise nothing is recorded.
   */
  function ParsedAmmo(ammoList: seq<string>, singleAmmo: Option<string>): (r: Option<seq<string>>)
    ensures |ammoList| > 0 ==> r == Some(ammoList)
    ensures |ammoList| == 0 && singleAmmo.Some? && |singleAmmo.value| > 0 ==> r == Some([singleAmmo.value])
    ensures r.Some? ==> |r.value| > 0
    ensures r.None? <==> |ammoList| == 0 && (singleAmmo.None? || |singleAmmo.value| == 0)
  {
    if |ammoList| > 0 then Some(ammoList)
    else if singleAmmo.Some? && |singleAmmo.value| > 0 then Some([singleAmmo.value])
    else None
  }

  /** Records the parsed ammo of one weapon id in the cache, leaving an earlier entry when nothing was parsed. */
  function RecordAmmo(cat: Catalog, weapon: string, ammoList: seq<string>, singleAmmo: Option<string>): (r: Catalog)
    ensures r == cat.(ammoTypes := r.ammoTypes)
    ensures ParsedAmmo(ammoList, singleAmmo).Some? ==> HasAmmoConfig(r, weapon)
    ensures ParsedAmmo(ammoList, singleAmmo).Some? ==>
      r.ammoTypes == cat.ammoTypes[weapon := ParsedAmmo(ammoList, singleAmmo).value] &&
      AmmoTypes(r, weapon) == ParsedAmmo(ammoList, singleAmmo).value
    ensures forall w :: w != weapon ==> AmmoTypes(r, w) == AmmoTypes(cat, w)
    ensures ParsedAmmo(ammoList, singleAmmo).None? ==> r == cat
  {
    match ParsedAmmo(ammoList, singleAmmo)
    case Some(types) => cat.(ammoTypes := cat.ammoTypes[weapon := types])
    case None => cat
  }

  /** `getAmmoTypes`: the cached list when it is non-empty, else nothing. */
  function AmmoTypes(cat: Catalog, weapon: string): (types: seq<string>)
    ensures |types| > 0 ==> weapon in cat.ammoTypes && types == cat.ammoTypes[weapon]
  {
    if weapon in cat.ammoTypes && |cat.ammoTypes[weapon]| > 0 then cat.ammoTypes[weapon] else []
  }

  /** `hasAmmoConfig`: a non-empty ammo list is cached for the weapon. */
  predicate HasAmmoConfig(cat: Catalog, weapon: string)
  {
    weapon in cat.ammoTypes && |cat.ammoTypes[weapon]| > 0
  }

  /** A weapon has an ammo configuration exactly when it has ammo types to generate from. */
  lemma HasAmmoConfigIffAmmoTypes(cat: Catalog, weapon: string)
    ensures HasAmmoConfig(cat, weapon) <==> |AmmoTypes(cat, weapon)| > 0
  {
  }

  /**
   * `calculateAmmo`: magazine size times the multiplier of the weapon's
   * category (the default multiplier for a weapon without category), in
   * 32-bit arithmetic.
   */
  function CalculateAmmo(cat: Catalog, settings: Config.Settings, weapon: string, magazineSize: LoadoutSlots.Int32)
    : (total: LoadoutSlots.Int32)
    ensures
      var m := if weapon in cat.weaponCategories then Config.AmmoMultiplier(settings, cat.weaponCategories[weapon])
               else settings.defaultAmmoMultiplier;
      (total - magazineSize * m) % 0x1_0000_0000 == 0 &&
      (Text.IntMin <= magazineSize * m <= Text.IntMax ==> total == magazineSize * m)
  {
    var multiplier := if weapon in cat.weaponCategories then Config.AmmoMultiplier(settings, cat.weaponCategories[weapon])
                      else settings.defaultAmmoMultiplier;
    LoadoutSlots.Wrap32(magazineSize * multiplier)
  }

  // ------------------------------------------------------------- splitting

  function Sum(s: seq<int>): int
  {
    if |s| == 0 then 0 else s[0] + Sum(s[1..])
  }

  /**
   * The stack sizes `total` items are split into: full stacks of
   * `maxStack`, then the remainder; nothing for a non-positive total.
   */
  function StackAmounts(total: int, maxStack: StackSize): (amounts: seq<int>)
    ensures total <= 0 ==> amounts == []
    ensures forall i :: 0 <= i < |amounts| ==> 1 <= amounts[i] <= maxStack
    ensures forall i :: 0 <= i < |amounts| - 1 ==> amounts[i] == maxStack
    ensures total > 0 ==> Sum(amounts) == total
    decreases total
  {
    if total <= 0 then []
    else
      var a := if total < maxStack then total else maxStack;
      var rest := StackAmounts(total - a, maxStack);
      assert ([a] + rest)[1..] == rest;
      [a] + rest
  }

  /**
   * The splitting loop of `generateAmmoItems` and `generateConsumableItems`:
   * copies of `base` whose amounts are the stack sizes above.
   */
  method SplitIntoStacks(base: Item, total: int) returns (stacks: seq<Item>)
    ensures |stacks| == |StackAmounts(total, base.maxStack)|
    ensures forall i :: 0 <= i < |stacks| ==> stacks[i] == base.(amount := StackAmounts(total, base.maxStack)[i])
  {
    var full := StackAmounts(total, base.maxStack);
    stacks := [];
    var remaining := total;
    while remaining > 0
      invariant |stacks| <= |full|
      invariant StackAmounts(remaining, base.maxStack) == full[|stacks|..]
      invariant forall i :: 0 <= i < |stacks| ==> stacks[i] == base.(amount := full[i])
      decreases remaining
    {
      var amount := if remaining < base.maxStack then remaining else base.maxStack;
      assert StackAmounts(remaining, base.maxStack) == [amount] + StackAmounts(remaining - amount, base.maxStack);
      assert full[|stacks|] == amount && full[|stacks| + 1..] == StackAmounts(remaining - amount, base.maxStack);
      stacks := stacks + [base.(amount := amount)];
      remaining := remaining - amount;
    }
    assert full[|stacks|..] == [];
  }

  /** Copies of `base` holding the stack sizes `total` is split into. */
  function Stacks(base: Item, total: int): (r: seq<Item>)
    ensures |r| == |StackAmounts(total, base.maxStack)|
    ensures forall i :: 0 <= i < |r| ==> r[i] == base.(amount := StackAmounts(total, base.maxStack)[i])
  {
    var a := StackAmounts(total, base.maxStack);
    seq(|a|, i requires 0 <= i < |a| => base.(amount := a[i]))
  }

  /** The amounts of a list of stacks. */
  function Amounts(items: seq<Item>): (a: seq<int>)
    ensures |a| == |items| && forall i :: 0 <= i < |a| ==> a[i] == items[i].amount
  {
    seq(|items|, i requires 0 <= i < |items| => items[i].amount)
  }

  /** The stacks of a positive total hold that total, whatever the stack size. */
  lemma StacksHoldTotal(base: Item, total: int)
    requires total > 0
    ensures Sum(Amounts(Stacks(base, total))) == total
  {
    assert Amounts(Stacks(base, total)) == StackAmounts(total, base.maxStack);
  }

  /** What `generateAmmoItems` returns, as a value. */
  function AmmoItems(cat: Catalog, settings: Config.Settings, weapon: string, magazineSize: LoadoutSlots.Int32,
                     generateAmmo: string -> Option<Item>): (items: seq<Item>)
  {
    var total := CalculateAmmo(cat, settings, weapon, magazineSize);
    var types := AmmoTypes(cat, weapon);
    if total <= 0 || |types| == 0 then []
    else match generateAmmo(types[0])
      case None => []
      case Some(base) => Stacks(base, total)
  }

  /**
   * The ammo handed out for a weapon adds up to its computed ammo when that
   * is positive, an ammo type is cached and the API yields an item for the
   * first type; otherwise no ammo is handed out.
   */
  lemma AmmoItemsTotal(cat: Catalog, settings: Config.Settings, weapon: string, magazineSize: LoadoutSlots.Int32,
                       generateAmmo: string -> Option<Item>)
    ensures
      var total := CalculateAmmo(cat, settings, weapon, magazineSize);
      var types := AmmoTypes(cat, weapon);
      var items := AmmoItems(cat, settings, weapon, magazineSize, generateAmmo);
      (total > 0 && |types| > 0 && generateAmmo(types[0]).Some? ==>
        Sum(Amounts(items)) == total && forall i :: 0 <= i < |items| ==> items[i].kind == generateAmmo(types[0]).value.kind) &&
      (total <= 0 || |types| == 0 || generateAmmo(types[0]).None? ==> items == [])
  {
    var total := CalculateAmmo(cat, settings, weapon, magazineSize);
    var types := AmmoTypes(cat, weapon);
    if total > 0 && |types| > 0 && generateAmmo(types[0]).Some? {
      StacksHoldTotal(generateAmmo(types[0]).value, total);
    }
  }

  /** What `generateConsumableItems` returns, as a value. */
  function ConsumableItems(weapon: string, amount: int, generateWeapon: string -> Option<Item>): (items: seq<Item>)
  {
    match generateWeapon(weapon)
    case None => []
    case Some(base) => Stacks(base, if amount <= 0 then 1 else amount)
  }

  /**
   * The consumable stacks add up to the configured amount, or to one when
   * that is not positive; nothing when the API yields no item.
   */
  lemma ConsumableItemsTotal(weapon: string, amount: int, generateWeapon: string -> Option<Item>)
    ensures generateWeapon(weapon).Some? ==>
      Sum(Amounts(ConsumableItems(weapon, amount, generateWeapon))) == (if amount <= 0 then 1 else amount)
    ensures generateWeapon(weapon).None? ==> ConsumableItems(weapon, amount, generateWeapon) == []
  {
    if generateWeapon(weapon).Some? {
      StacksHoldTotal(generateWeapon(weapon).value, if amount <= 0 then 1 else amount);
    }
  }

  /**
   * `generateAmmoItems`: nothing when the computed total is not positive,
   * when no ammo type is cached or when the API yields no item for the
   * first type; otherwise that item split into stacks of the total.
   */
  method GenerateAmmoItems(cat: Catalog, settings: Config.Settings, weapon: string, magazineSize: LoadoutSlots.Int32,
                           generateAmmo: string -> Option<Item>) returns (items: seq<Item>)
    ensures
      var total := CalculateAmmo(cat, settings, weapon, magazineSize);
      var types := AmmoTypes(cat, weapon);
      (total <= 0 || |types| == 0 || generateAmmo(types[0]).None? ==> items == []) &&
      (total > 0 && |types| > 0 && generateAmmo(types[0]).Some? ==>
        var base := generateAmmo(types[0]).value;
        |items| == |StackAmounts(total, base.maxStack)| &&
        forall i :: 0 <= i < |items| ==> items[i] == base.(amount := StackAmounts(total, base.maxStack)[i]))
    ensures items == AmmoItems(cat, settings, weapon, magazineSize, generateAmmo)
  {
    var total := CalculateAmmo(cat, settings, weapon, magazineSize);
    if total <= 0 {
      return [];
    }
    var types := AmmoTypes(cat, weapon);
    if |types| == 0 {
      return [];
    }
    match generateAmmo(types[0]) {
      case None => items := [];
      case Some(base) => items := SplitIntoStacks(base, total);
    }
  }

  /**
   * `generateConsumableItems`: an amount that is not positive counts as 1;
   * the generated weapon item is split into stacks of that amount, or
   * nothing when the API yields no item.
   */
  method GenerateConsumableItems(weapon: string, amount: int, generateWeapon: string -> Option<Item>)
    returns (items: seq<Item>)
    ensures generateWeapon(weapon).None? ==> items == []
    ensures generateWeapon(weapon).Some? ==>
      var base := generateWeapon(weapon).value;
      var n := if amount <= 0 then 1 else amount;
      |items| == |StackAmounts(n, base.maxStack)| && |items| >= 1 &&
      forall i :: 0 <= i < |items| ==> items[i] == base.(amount := StackAmounts(n, base.maxStack)[i])
    ensures items == ConsumableItems(weapon, amount, generateWeapon)
  {
    var n := if amount <= 0 then 1 else amount;
    match generateWeapon(weapon) {
      case None => items := [];
      case Some(base) => items := SplitIntoStacks(base, n);
    }
  }

  /**
   * There are ceil(total / maxStack) stacks: the full ones hold less than
   * the total, and one more stack would hold it all.
   */
  lemma {:induction false} StackCount(total: int, maxStack: StackSize)
    requires total > 0
    ensures (|StackAmounts(total, maxStack)| - 1) * maxStack < total <= |StackAmounts(total, maxStack)| * maxStack
    ensures |StackAmounts(total, maxStack)| == (total + maxStack - 1) / maxStack
    decreases total
  {
    var n := |StackAmounts(total, maxStack)|;
    if total > maxStack {
      var rest := |StackAmounts(total - maxStack, maxStack)|;
      StackCount(total - maxStack, maxStack);
      assert n == rest + 1;
      MulSucc(rest, maxStack);
      MulSucc(rest - 1, maxStack);
    } else {
      assert n == 1;
    }
    CeilingDivision(total, maxStack, n);
  }

  lemma MulSucc(a: int, m: int)
    ensures (a + 1) * m == a * m + m
  {
  }

  lemma CeilingDivision(total: int, m: int, n: int)
    requires m >= 1 && (n - 1) * m < total <= n * m
    ensures n == (total + m - 1) / m
  {
    var x := total + m - 1;
    assert (n - 1) * m == n * m - m;
    assert n * m <= x < n * m + m;
    var q := x / m;
    assert x == q * m + x % m && 0 <= x % m < m;
    if q > n {
      assert (n + 1) * m == n * m + m;
      MulMonotone(n + 1, q, m);
    } else if q < n {
      assert (q + 1) * m == q * m + m;
      MulMonotone(q + 1, n, m);
    }
  }

  lemma MulMonotone(a: int, b: int, m: int)
    requires a <= b && m >= 0
    ensures a * m <= b * m
  {
    assert b * m - a * m == (b - a) * m;
  }

  // ------------------------------------------------------------ slot lists

  /** A category that `getWeaponsForSlot` takes: it has a non-empty weapon list. */
  predicate Listed(grouped: map<string, seq<string>>, c: string)
  {
    c in grouped && |grouped[c]| > 0
  }

  /**
   * The loop of `getWeaponsForSlot` over the allowed categories, on the keys
   * of its linked map: a listed category is added at its first mention (a
   * second `put` of the same key keeps its place).
   */
  function CollectCategories(allowed: seq<string>, grouped: map<string, seq<string>>, taken: seq<string>)
    : (r: seq<string>)
    ensures |taken| <= |r| && r[..|taken|] == taken
    decreases |allowed|
  {
    if |allowed| == 0 then taken
    else
      var c := allowed[0];
      var next := if Listed(grouped, c) && c !in taken then taken + [c] else taken;
      var r := CollectCategories(allowed[1..], grouped, next);
      assert r[..|taken|] == next[..|taken|];
      r
  }

  /** Every collected category was taken before or is a listed, allowed one. */
  lemma {:induction false} CollectSound(allowed: seq<string>, grouped: map<string, seq<string>>, taken: seq<string>, x: string)
    requires x in CollectCategories(allowed, grouped, taken)
    ensures x in taken || (x in allowed && Listed(grouped, x))
    decreases |allowed|
  {
    if |allowed| > 0 {
      var c := allowed[0];
      var next := if Listed(grouped, c) && c !in taken then taken + [c] else taken;
      CollectSound(allowed[1..], grouped, next, x);
      assert allowed == [c] + allowed[1..];
    }
  }

  /** Every listed, allowed category is collected. */
  lemma {:induction false} CollectComplete(allowed: seq<string>, grouped: map<string, seq<string>>, taken: seq<string>, x: string)
    requires x in allowed && Listed(grouped, x)
    ensures x in CollectCategories(allowed, grouped, taken)
    decreases |allowed|
  {
    var c := allowed[0];
    var next := if Listed(grouped, c) && c !in taken then taken + [c] else taken;
    var r := CollectCategories(allowed[1..], grouped, next);
    if x == c {
      assert x in next;
      var k :| 0 <= k < |next| && next[k] == x;
      assert r[..|next|] == next;
      assert r[k] == x;
    } else {
      assert x in allowed[1..];
      CollectComplete(allowed[1..], grouped, next, x);
    }
  }

  predicate NoDuplicates(s: seq<string>)
  {
    forall i, j :: 0 <= i < j < |s| ==> s[i] != s[j]
  }

  /** No category is collected twice. */
  lemma {:induction false} CollectDistinct(allowed: seq<string>, grouped: map<string, seq<string>>, taken: seq<string>)
    requires NoDuplicates(taken)
    ensures NoDuplicates(CollectCategories(allowed, grouped, taken))
    decreases |allowed|
  {
    if |allowed| > 0 {
      var c := allowed[0];
      var next := if Listed(grouped, c) && c !in taken then taken + [c] else taken;
      CollectDistinct(allowed[1..], grouped, next);
    }
  }

  /**
   * `getWeaponsForSlot`: for a configured slot, the non-empty weapon lists
   * of its allowed categories in the order the categories are listed, each
   * category once; nothing for an unknown slot.
   */
  function WeaponsForSlot(cat: Catalog, settings: Config.Settings, slotType: string): (r: seq<(string, seq<string>)>)
    ensures slotType !in settings.slots ==> r == []
    ensures forall i :: 0 <= i < |r| ==> r[i].0 in cat.categorized && r[i].1 == cat.categorized[r[i].0] && |r[i].1| > 0
  {
    if slotType !in settings.slots then []
    else
      var allowed := settings.slots[slotType].allowedCategories;
      var ks := CollectCategories(allowed, cat.categorized, []);
      assert forall i :: 0 <= i < |ks| ==> Listed(cat.categorized, ks[i]) by {
        forall i | 0 <= i < |ks|
          ensures Listed(cat.categorized, ks[i])
        {
          CollectSound(allowed, cat.categorized, [], ks[i]);
        }
      }
      seq(|ks|, i requires 0 <= i < |ks| => (ks[i], if ks[i] in cat.categorized then cat.categorized[ks[i]] else []))
  }

  /**
   * The categories offered for a configured slot are exactly its allowed
   * categories with a non-empty list, in the order configured, each once.
   */
  lemma WeaponsForSlotCategories(cat: Catalog, settings: Config.Settings, slotType: string, c: string)
    requires slotType in settings.slots
    ensures
      var r := WeaponsForSlot(cat, settings, slotType);
      (c in Keys(r) <==> c in settings.slots[slotType].allowedCategories && Listed(cat.categorized, c)) &&
      NoDuplicates(Keys(r))
  {
    var allowed := settings.slots[slotType].allowedCategories;
    var ks := CollectCategories(allowed, cat.categorized, []);
    var r := WeaponsForSlot(cat, settings, slotType);
    assert Keys(r) == ks;
    if c in ks {
      CollectSound(allowed, cat.categorized, [], c);
    }
    if c in allowed && Listed(cat.categorized, c) {
      CollectComplete(allowed, cat.categorized, [], c);
    }
    CollectDistinct(allowed, cat.categorized, []);
  }

  /** Where `x` is first mentioned in `s`. */
  function FirstIndex(s: seq<string>, x: string): (i: nat)
    requires x in s
    ensures i < |s| && s[i] == x && x !in s[..i]
  {
    if s[0] == x then 0
    else
      var i := FirstIndex(s[1..], x);
      assert s[..i + 1] == [s[0]] + s[1..][..i];
      i + 1
  }

  /** The elements of `ks` come from `full`, each first mentioned there after the one before it. */
  predicate InFirstMentionOrder(ks: seq<string>, full: seq<string>)
  {
    (forall k :: 0 <= k < |ks| ==> ks[k] in full) &&
    forall i, j :: 0 <= i < j < |ks| ==> ks[i] in full && ks[j] in full && FirstIndex(full, ks[i]) < FirstIndex(full, ks[j])
  }

  /**
   * The collecting loop, entered after `off` allowed categories: when every
   * category taken so far was first mentioned before `off`, in order, and
   * every listed category before `off` has been taken, the finished list is
   * in first-mention order.
   */
  lemma {:induction false} CollectInOrder(full: seq<string>, off: nat, grouped: map<string, seq<string>>, taken: seq<string>)
    requires off <= |full|
    requires InFirstMentionOrder(taken, full)
    requires forall k :: 0 <= k < |taken| ==> FirstIndex(full, taken[k]) < off
    requires forall k :: 0 <= k < off ==> Listed(grouped, full[k]) ==> full[k] in taken
    ensures InFirstMentionOrder(CollectCategories(full[off..], grouped, taken), full)
    decreases |full| - off
  {
    if off < |full| {
      var c := full[off];
      assert full[off..][0] == c && full[off..][1..] == full[off + 1..];
      if Listed(grouped, c) && c !in taken {
        var next := taken + [c];
        assert FirstIndex(full, c) == off;
        forall k | 0 <= k < off + 1 && Listed(grouped, full[k])
          ensures full[k] in next
        {
          if k < off {
            assert full[k] in taken;
          }
        }
        CollectInOrder(full, off + 1, grouped, next);
      } else {
        CollectInOrder(full, off + 1, grouped, taken);
      }
    }
  }

  /**
   * The categories offered for a configured slot follow the slot's allowed
   * list: one comes before another exactly when it is mentioned there first.
   */
  lemma WeaponsForSlotOrder(cat: Catalog, settings: Config.Settings, slotType: string, i: int, j: int)
    requires slotType in settings.slots
    requires
      var ks := Keys(WeaponsForSlot(cat, settings, slotType));
      0 <= i < |ks| && 0 <= j < |ks|
    ensures
      var allowed := settings.slots[slotType].allowedCategories;
      var ks := Keys(WeaponsForSlot(cat, settings, slotType));
      ks[i] in allowed && ks[j] in allowed &&
      (i < j <==> FirstIndex(allowed, ks[i]) < FirstIndex(allowed, ks[j]))
  {
    var allowed := settings.slots[slotType].allowedCategories;
    var ks := CollectCategories(allowed, cat.categorized, []);
    assert Keys(WeaponsForSlot(cat, settings, slotType)) == ks;
    assert allowed[0..] == allowed;
    CollectInOrder(allowed, 0, cat.categorized, []);
    if j < i {
      assert FirstIndex(allowed, ks[j]) < FirstIndex(allowed, ks[i]);
    }
  }

  /** The categories of a slot's weapon lists, in order. */
  function Keys(entries: seq<(string, seq<string>)>): (ks: seq<string>)
    ensures |ks| == |entries| && forall i :: 0 <= i < |ks| ==> ks[i] == entries[i].0
  {
    seq(|entries|, i requires 0 <= i < |entries| => entries[i].0)
  }

  function Concat(lists: seq<seq<string>>): seq<string>
  {
    if |lists| == 0 then [] else lists[0] + Concat(lists[1..])
  }

  /** `getFlatWeaponsForSlot`: the slot's weapon lists one after the other. */
  function FlatWeaponsForSlot(cat: Catalog, settings: Config.Settings, slotType: string): (r: seq<string>)
    ensures slotType !in settings.slots ==> r == []
  {
    var entries := WeaponsForSlot(cat, settings, slotType);
    Concat(seq(|entries|, i requires 0 <= i < |entries| => entries[i].1))
  }

  /** A weapon is offered for a slot exactly when one of the slot's allowed categories holds it. */
  lemma FlatWeaponsMembership(cat: Catalog, settings: Config.Settings, slotType: string, w: string)
    requires slotType in settings.slots
    ensures w in FlatWeaponsForSlot(cat, settings, slotType) <==>
      exists c :: c in settings.slots[slotType].allowedCategories && c in cat.categorized && w in cat.categorized[c]
  {
    var entries := WeaponsForSlot(cat, settings, slotType);
    var lists := seq(|entries|, i requires 0 <= i < |entries| => entries[i].1);
    ConcatMembership(lists, w);
    var allowed := settings.slots[slotType].allowedCategories;
    if w in FlatWeaponsForSlot(cat, settings, slotType) {
      var k :| 0 <= k < |lists| && w in lists[k];
      var c := entries[k].0;
      assert c in Keys(entries);
      WeaponsForSlotCategories(cat, settings, slotType, c);
    }
    if exists c :: c in allowed && c in cat.categorized && w in cat.categorized[c] {
      var c :| c in allowed && c in cat.categorized && w in cat.categorized[c];
      WeaponsForSlotCategories(cat, settings, slotType, c);
      var k :| 0 <= k < |entries| && Keys(entries)[k] == c;
      assert w in lists[k];
    }
  }

  lemma {:induction false} ConcatMembership(lists: seq<seq<string>>, w: string)
    ensures w in Concat(lists) <==> exists k :: 0 <= k < |lists| && w in lists[k]
  {
    if |lists| > 0 {
      ConcatMembership(lists[1..], w);
      if w in Concat(lists[1..]) {
        var k :| 0 <= k < |lists[1..]| && w in lists[1..][k];
        assert w in lists[k + 1];
      }
      if exists k :: 0 <= k < |lists| && w in lists[k] {
        var k :| 0 <= k < |lists| && w in lists[k];
        if k > 0 {
          assert w in lists[1..][k - 1];
        }
      }
    }
  }

  // ------------------------------------------------------------ attachments

  /** The attachment lists of the categories, each looked up lower-cased, one after the other. */
  function AttachmentLists(cat: Catalog, categories: seq<string>): seq<string>
  {
    if |categories| == 0 then []
    else Get(cat.attachments, Text.ToLower(categories[0])).GetOr([]) + AttachmentLists(cat, categories[1..])
  }

  /**
   * `getAttachmentsForCategories`: every attachment of every listed
   * category (a category listed twice contributes twice), sorted.
   */
  function AttachmentsForCategories(cat: Catalog, categories: seq<string>): (r: seq<string>)
    ensures Sorting.Sorted(r)
    ensures multiset(r) == multiset(AttachmentLists(cat, categories))
  {
    Sorting.Sort(AttachmentLists(cat, categories))
  }

  /** Listing a category twice doubles each of its attachments; lookups ignore letter case. */
  lemma RepeatedCategoryKeepsDuplicates(cat: Catalog, c: string)
    ensures multiset(AttachmentsForCategories(cat, [c, c])) ==
      multiset(Get(cat.attachments, Text.ToLower(c)).GetOr([])) + multiset(Get(cat.attachments, Text.ToLower(c)).GetOr([]))
    ensures AttachmentsForCategories(cat, [Text.ToLower(c)]) == AttachmentsForCategories(cat, [c])
  {
    var own := Get(cat.attachments, Text.ToLower(c)).GetOr([]);
    assert [c, c][1..] == [c];
    assert [c][1..] == [];
    assert AttachmentLists(cat, [c]) == own + [];
    assert AttachmentLists(cat, [c, c]) == own + (own + []);
    assert own + [] == own;
    Text.ToLowerIdempotent(c);
    assert [Text.ToLower(c)][1..] == [];
  }
}

=== FILE: wrappers.dfy ===
/** Failure-carrying datatypes shared by every module of the model. */
module Wrappers {

  /** A value that may be absent: Java's nullable reference, or a lookup that found nothing. */
  datatype Option<+T> = None | Some(value: T) {

    /** The value, or `default` when absent (Java's `Map.getOrDefault`). */
    function GetOr(default: T): T
    {
      match this
      case Some(v) => v
      case None => default
    }
  }

  /** Looks `k` up in `m`, absent when `k` is not a key (Java's `Map.get`). */
  function Get<K, V>(m: map<K, V>, k: K): (r: Option<V>)
    ensures r.Some? <==> k in m
    ensures r.Some? ==> r.value == m[k]
  {
    if k in m then Some(m[k]) else None
  }
}
